=== FILE: README.md ===
# Ganja-TUI core, modelled in Dafny

Ganja-TUI is a terminal game in which one cannabis plant grows in accelerated time. The
model covers the parts of the program that compute something. Drawing to the terminal is
not modelled.

- **Procedural plant structure** (`src/ascii/art.rs`). A 64-bit linear congruential
  generator (`SimpleRng`) is seeded with the plant's seed. It draws:
  - a phenotype (Tall, Bushy or Balanced), with its maximum height, densities and growth rate;
  - 15 to 39 primary branches;
  - secondary branches that offshoot from primaries;
  - trunk splits.

  Structures are cached per seed (`StructureCache`). Trunk height, visible branches, branch
  length and foliage density grow with the plant's age.
- **ASCII rendering** (`render_plant_structure`). The picture is a 28 x 70 character buffer,
  filled in three phases:
  1. The trunk phase writes each cell outright. It draws the first active split met from the
     top down.
  2. The branch phase writes a cell only where it is still blank. It draws branch cells, tip
     flowers, foliage marks and sub-branches.
  3. The soil line is written last.

  Each row is then cut to its first 70 bytes (when that is a character boundary) and padded
  to 70 characters. The trunk glyph, flower glyphs and frame decorations are picked from the
  animation frame.
- **Plant rules** (`src/domain/plant.rs`):
  - the growth stage from days alive;
  - the health status from water and nutrient levels;
  - the care history: optimal-hour percentages, and a window of the last ten stress events;
  - the light-cycle toggle;
  - a new plant's initial state.
- **Harvest** (`src/domain/harvest.rs`). Weight, quality score and cannabinoid content are
  computed from care quality and the recorded stress events.
- **Application state** (`src/app.rs`):
  - one tick of `update_time`: hours and days, water and nutrient drain and auto top-up, the
    environment, the stage, the light switch, health, canopy, care tracking, stress detection,
    auto-harvest and the animation frame;
  - the user operations: plant a new seed, harvest and replant, toggle auto-harvest, cycle the
    visual mode.
- **Visual mode and layout** (`src/ui/visual_mode.rs`, `src/ui/layout.rs`, and
  `create_palette` in `src/ui/colors.rs`).

## How the model is organised

Each module follows one source file:

- `Rng` in `rng.dfy`;
- `Structure` in `structure.dfy`;
- `Render` in `render.dfy`, for the trunk phase, glyph pickers and grid primitives;
- `Art` in `art.dfy`, for the branch phase, soil, row formatting and `get_plant_ascii`;
- `Domain` in `plant.dfy`;
- `Harvest` in `harvest.dfy`;
- `AppState` in `app.dfy`;
- `VisualModes` in `visual_mode.dfy`;
- `Layouts` in `layout.dfy`;
- shared integer and real helpers in `Prelude` (`prelude.dfy`).

Code that mutates state is imperative Dafny:

- `SimpleRng`, `StructureCache`, `Plant` and `App` are classes.
- The generator (`Generate`) and the renderer (`RenderPlantStructure` and its `Draw*`
  methods) are methods with loops.

Each method is proved equal to a reference function:

- `StructureOf(seed)` runs the same draws on the generator state as a value.
- `Picture` describes the rendered grid as lists of strokes. These are painted by `PutAll`
  (overwrite) and `PaintAll` (only onto blank cells).

The properties are proved about those functions.

Some of the trunk's behaviour is reproduced as written:

- Only the first active split met from the top is drawn.
- A row holding a later active split gets neither a split nor a trunk cell.

## Model

| member | source | states |
|---|---|---|
| Prelude.WrappingAdd | src/app.rs:262 | `wrapping_add` on a 64-bit counter: the exact sum below 2^64, the sum minus 2^64 otherwise |
| Prelude.SaturatingSub | src/ascii/art.rs:397-401 | `saturating_sub`: the difference when it is non-negative, else 0, never more than the minuend |
| Rng.Seeded | src/ascii/art.rs:300-302 | the initial state is seed + 1 with 64-bit wrap-around (a seed of 2^64-1 gives state 0) |
| Rng.Advance | src/ascii/art.rs:305 | the next state is state x 1103515245 + 12345 modulo 2^64 |
| Rng.Output | src/ascii/art.rs:306 | the output is below 32768 and is bits 16 to 30 of the state: output x 65536 <= state mod 2^31 < (output + 1) x 65536 |
| Rng.Draw | src/ascii/art.rs:304-307 | one step advances the state and yields an output below 32768 computed from the new state |
| Rng.SimpleRng.constructor | src/ascii/art.rs:300-302 | a new generator holds the seeded state |
| Rng.SimpleRng.Next | src/ascii/art.rs:304-307 | `next` advances the generator's state exactly as `Draw` does and returns its output, which is below 32768 |
| Structure.MaxHeightFor | src/ascii/art.rs:81-85 | maximum height per phenotype: Tall 20-24, Bushy 12-16, Balanced 16-20 |
| Structure.PrimaryCountFor | src/ascii/art.rs:88-92 | number of primaries per phenotype: Tall 15-24, Bushy 25-39, Balanced 20-31 |
| Structure.LevelDay | src/ascii/art.rs:108-116 | the day a branch level starts growing lies between 4 + 0.8 d and 4 + 1.2 d for the d levels below the top |
| Structure.SecondaryCountFor | src/ascii/art.rs:164-168 | there are between half and four fifths as many secondaries as primaries |
| Structure.SplitCount | src/ascii/art.rs:223-226 | Bushy plants get one or two trunk splits, the others at most one |
| Structure.DrawPrimary | src/ascii/art.rs:98-161 | one primary branch: level 1 (2 unless Tall) to max height - 1, direction ±1, reach 6 (8 for Bushy) to 13, thickness 1-2 (1 for Tall), curve -1..1, bifurcation day 8-15 after its start or never |
| Structure.DrawLevel | src/ascii/art.rs:100-117 | a primary's level and start day: the level is in range, and the start day is the level's day plus a jitter of 0-2 |
| Structure.DrawReach | src/ascii/art.rs:119-126 | direction is -1 or +1, and maximum length is at least 6 (8 for Bushy) and at most 13 |
| Structure.DrawThickness | src/ascii/art.rs:128-132 | thickness is 1 or 2, and a Tall plant's branch takes thickness 1 without drawing |
| Structure.DrawCurve | src/ascii/art.rs:135-139 | the curve is -1, 0 or 1 |
| Structure.DrawBifurcation | src/ascii/art.rs:142-147 | a branch that can bifurcate does so 0-7 days after the earliest day, otherwise its bifurcation day is "never" |
| Structure.DrawPrimaries | src/ascii/art.rs:98-161 | the primaries loop yields exactly n branches, each within the primary ranges |
| Structure.DrawOffshoot | src/ascii/art.rs:176-190 | a secondary starts 5-9 days after its parent, within one level of it, in the parent's or the opposite direction, 4-9 long |
| Structure.DrawSecondary | src/ascii/art.rs:170-220 | a secondary branch: its parent is one of the primaries; it starts 5-9 days after the parent, within one level of it, in the same or the opposite direction; thickness 1, length 4-9, bifurcation 10-17 days after its start or never |
| Structure.DrawSecondaries | src/ascii/art.rs:170-220 | the secondaries loop yields exactly n branches, each within the secondary ranges |
| Structure.DrawSplit | src/ascii/art.rs:228-239 | a trunk split lies at level 4-7 (counted from the soil), with angle -2..2 and split day 20-49 |
| Structure.DrawSplits | src/ascii/art.rs:223-240 | the splits loop yields exactly n splits, each in range |
| Structure.Header | src/ascii/art.rs:73-92 | the drawn maximum height is 12-24 and the growth rate is positive |
| Structure.PrimariesParentsOk | src/ascii/art.rs:172-173 | every primary is a valid parent for a secondary (a level that leaves room, a start day of at most 33) |
| Structure.JoinBranches | src/ascii/art.rs:208-219 | primaries followed by secondaries form a branch list in which every branch is in range and which is layered: primaries first, each secondary tied to a primary |
| Structure.SplitsInRange | src/ascii/art.rs:223-240 | every drawn split is in range |
| Structure.StructureOf | src/ascii/art.rs:71-252 | the reference definition of `generate`: it keeps the seed and the drawn phenotype and height |
| Structure.GeneratedWellFormed | src/ascii/art.rs:71-252 | every generated structure is well formed: 15-39 primaries followed by their secondaries (layered), all branches and splits in range |
| Structure.GeneratedShape | src/ascii/art.rs:75-92 | per phenotype: the height range, the growth rate (0.25, 0.22, 0.23 per day) and the number of trunk splits |
| Structure.PhenotypeOf | src/ascii/art.rs:74-78 | the phenotype is Tall, Bushy or Balanced exactly when the draw is 0, 1 or 2 modulo 3 |
| Structure.BranchDensityOf | src/ascii/art.rs:80-84 | branch density lies in 0.6-1.0 and is 1.0 exactly for Bushy plants |
| Structure.FoliageDensityOf | src/ascii/art.rs:80-84 | foliage density lies in 0.4-0.9 and exceeds 0.6 exactly when the plant is not Tall |
| Structure.GrowthRateOf | src/ascii/art.rs:80-84 | the growth rate (per hundred days) lies in 22-25, is 25 exactly for Tall and 22 exactly for Bushy plants |
| Structure.NextCurve | src/ascii/art.rs:135-139 | drawing a curve from the generator agrees with `DrawCurve` on its state |
| Structure.NextBifurcation | src/ascii/art.rs:142-147 | drawing the bifurcation agrees with `DrawBifurcation` |
| Structure.NextLevel | src/ascii/art.rs:100-117 | drawing a level and start day agrees with `DrawLevel` |
| Structure.NextReach | src/ascii/art.rs:119-126 | drawing direction and reach agrees with `DrawReach` |
| Structure.NextThickness | src/ascii/art.rs:128-132 | drawing the thickness agrees with `DrawThickness` |
| Structure.NextPrimary | src/ascii/art.rs:98-160 | drawing one primary agrees with `DrawPrimary` |
| Structure.NextOffshoot | src/ascii/art.rs:172-190 | drawing the offshoot fields agrees with `DrawOffshoot` |
| Structure.NextSecondary | src/ascii/art.rs:170-219 | drawing one secondary (its parent picked among the primaries pushed so far) agrees with `DrawSecondary` |
| Structure.NextSplit | src/ascii/art.rs:228-239 | drawing one split agrees with `DrawSplit` |
| Structure.PushPrimaries | src/ascii/art.rs:98-161 | the primaries loop pushes exactly the branches of `DrawPrimaries` and leaves the generator in its final state |
| Structure.PushSecondaries | src/ascii/art.rs:170-220 | the secondaries loop appends exactly the branches of `DrawSecondaries` after the primaries |
| Structure.PushSplits | src/ascii/art.rs:223-240 | the splits loop pushes exactly the splits of `DrawSplits` |
| Structure.Generate | src/ascii/art.rs:71-252 | generation is deterministic: the structure built from a seed is `StructureOf(seed)` |
| Structure.StructureCache.constructor | src/ascii/art.rs:5-7 | the cache starts empty |
| Structure.StructureCache.GetOrGenerate | src/ascii/art.rs:58-68 | returns `StructureOf(seed)`; on a miss it inserts exactly that entry, on a hit it changes nothing; every cached entry is the structure of its seed |
| Structure.TrunkHeight | src/ascii/art.rs:255-260 | the trunk height is at most the maximum height, and below it equals floor(day x growth rate) |
| Structure.TrunkHeightWithinGrowth | src/ascii/art.rs:255-260 | the trunk height is at most day x growth rate / 100, and below the maximum height it is exactly the whole part of it |
| Structure.TrunkHeightMonotone | src/ascii/art.rs:255-260 | the trunk never shrinks as days pass |
| Structure.VisibleBranches | src/ascii/art.rs:279-283 | exactly the branches whose growth start day has come |
| Structure.VisibleBranchesSingle | src/ascii/art.rs:279-283 | a single branch is kept exactly when its growth start day has come |
| Structure.VisibleBranchesAppend | src/ascii/art.rs:279-283 | filtering a concatenation filters each part, so the visible branches keep their list order |
| Structure.VisibleBranchesGrow | src/ascii/art.rs:279-283 | a branch visible on one day stays visible later, and the count never drops |
| Structure.CurrentFoliageDensity | src/ascii/art.rs:286-291 | foliage density grows in proportion to the day up to day 90 (density x day / 90, so 0 on day 0) and holds the phenotype's density from day 90 |
| Structure.FoliageDensityMonotone | src/ascii/art.rs:286-291 | foliage density never decreases with age |
| Structure.BranchLength | src/ascii/art.rs:263-276 | zero before the branch starts; afterwards strictly between 0 and the branch's maximum length |
| Render.Blank | src/ascii/art.rs:367 | the buffer starts as 28 rows of 70 blanks |
| Render.Put | src/ascii/art.rs:450 | writing a cell sets that cell and leaves every other cell unchanged |
| Render.PaintAllAppend | src/ascii/art.rs:461-576 | painting two stroke lists in turn is painting their concatenation |
| Render.PaintKeepsNonBlank | src/ascii/art.rs:525-527 | the branch phase never overwrites a non-blank cell |
| Render.PaintOnlyAtStrokes | src/ascii/art.rs:525-527 | a cell changed by the branch phase was blank and holds the glyph of one of its strokes |
| Render.TrunkGlyph | src/ascii/art.rs:371-392 | the trunk glyph is one of `|`, `!`, `I`, `║`, never a slash or blank; young stages use `|`/`!` and a ready plant `I`/`║` |
| Render.Blossom | src/ascii/art.rs:311-355 | flowers show exactly from pre-flower on, as one glyph: from `.* ` in pre-flower, `oO@.` in flowering, `@#*` when ready; otherwise the flower string is empty |
| Render.FlowerGlyph | src/ascii/art.rs:496-498 | a flower string's first character, or `*` for an empty one |
| Render.BlossomPeriodic | src/ascii/art.rs:335-392 | the flower and trunk animations repeat with periods 24 and 12 frames |
| Render.BorderDecoration | src/ascii/art.rs:600-603 | the border shows `~` on the first two frames of every four and `-` on the other two |
| Render.WaterDrops | src/ascii/art.rs:606-609 | one of `.`, `o`, `O`, blank; `.` on even frames |
| Render.NutrientSparkles | src/ascii/art.rs:612-615 | one of `*`, `+`, `x`, `X`, blank; `*` on even frames |
| Render.AnimationsPeriodic | src/ascii/art.rs:600-615 | border, drops and sparkles repeat every 4, 8 and 12 frames |
| Render.TrunkStart | src/ascii/art.rs:397-401 | the trunk's top row plus its height is the soil row 27, and it is never above row 27 - max height, so no underflow |
| Render.FindSplit | src/ascii/art.rs:404-406 | finds a split active at the given height (its day has come), or reports that there is none |
| Render.ArmStrokes | src/ascii/art.rs:431-446 | the arm cells lie in rows below the split, in the two arm columns, with the trunk glyph |
| Render.NoSplitAfterFound | src/ascii/art.rs:417-451 | once a split has been drawn, only trunk cells in the centre column follow |
| Render.TrunkAfterSplit | src/ascii/art.rs:417-451 | below a drawn split, the centre column holds the trunk exactly at the rows with no active split; a later split's row is a gap |
| Render.SplitShape | src/ascii/art.rs:417-447 | a split's strokes: slashes only on its own row, off-centre cells only in one mirror pair of columns |
| Render.SplitStrokes | src/ascii/art.rs:417-447 | a split starts with the trunk cell at its row; every stroke is at or above that row, in the centre column or the angle's distance either side of it; every stroke not of the trunk glyph is a slash on the row above |
| Render.TrunkStrokes | src/ascii/art.rs:408-452 | the trunk phase's strokes fit the grid, lie in columns 33-37 and, for a trunk glyph that is not a slash, have all slashes on one row and one mirror pair of arms |
| Render.SplitRowDrawn | src/ascii/art.rs:417-451 | from the row of the first split downward, all slashes are on one row and there is one arm pair |
| Render.OneSplitDrawn | src/ascii/art.rs:408-452 | at most one split is drawn: all slashes of the trunk phase lie on one row, with one mirror pair of arms |
| Render.DrawArms | src/ascii/art.rs:431-446 | the arm loop writes exactly the arm strokes |
| Render.DrawSplit | src/ascii/art.rs:417-447 | drawing a split writes exactly its strokes |
| Render.DrawTrunkRow | src/ascii/art.rs:409-451 | one trunk row leaves the remaining trunk strokes to draw, carrying whether a split was found |
| Render.DrawTrunk | src/ascii/art.rs:397-452 | the trunk loop writes exactly the trunk strokes of the structure on that day |
| Art.WellFormedRenderable | src/ascii/art.rs:358-595 | every well-formed structure meets what the renderer needs (height at most 27, splits and branches in range) |
| Art.BranchGlyph | src/ascii/art.rs:496-522 | the tip shows the flower when flowers show; the first cell is a slash; otherwise a branch glyph |
| Art.CellsComplete | src/ascii/art.rs:479-528 | branch cells go out from the trunk in order, one per step, and stop at the first cell outside the buffer |
| Art.FlowerAtTip | src/ascii/art.rs:496-503 | with flowers on and the whole branch inside the buffer, its last cell is the flower glyph |
| Art.FoliageCell | src/ascii/art.rs:531-547 | a foliage mark lies one row above the branch, within columns 1-33 and rows 0-13 |
| Art.FoliageStrokes | src/ascii/art.rs:531-547 | foliage marks stay in columns 1-33, rows 0-13, and there are none while foliage density is at most 0.6 |
| Art.SplitPoint | src/ascii/art.rs:552-553 | a sub-branch starts at least two cells out and strictly inside a branch of 3 or more |
| Art.SubStrokes | src/ascii/art.rs:550-575 | no sub-branches unless the branch can bifurcate, its day has come and it is at least 3 long |
| Art.DrawnLength | src/ascii/art.rs:462-473 | a branch is drawn only if its level is on the grown trunk and its length rounds to at least one cell; then the drawn length is that length rounded |
| Art.DrawCells | src/ascii/art.rs:479-528 | the cell loop paints exactly the branch's cells |
| Art.DrawFoliageMarks | src/ascii/art.rs:533-546 | the foliage loop paints exactly the foliage marks |
| Art.DrawFoliage | src/ascii/art.rs:531-547 | foliage is drawn exactly as `FoliageStrokes` describes |
| Art.DrawSubBranch | src/ascii/art.rs:558-574 | one sub-branch side paints its cells and leaves the rest to draw |
| Art.DrawBifurcation | src/ascii/art.rs:555-575 | both sub-branches are painted exactly |
| Art.DrawSubBranches | src/ascii/art.rs:550-575 | sub-branches are drawn exactly as `SubStrokes` describes |
| Art.DrawBranch | src/ascii/art.rs:462-576 | one branch (cells, foliage, sub-branches) is painted exactly as `BranchStrokes` describes |
| Art.DrawBranches | src/ascii/art.rs:461-576 | the branch loop paints exactly the strokes of all visible branches |
| Art.DrawSoil | src/ascii/art.rs:579-585 | the soil loop writes exactly the soil strokes |
| Art.SoilEffect | src/ascii/art.rs:579-585 | the soil phase sets row 27, columns 16-53 to `~` and changes nothing else |
| Art.BytePrefix | src/ascii/art.rs:592 | a byte slice that succeeds is a character prefix of exactly that many UTF-8 bytes |
| Art.WholePrefix | src/ascii/art.rs:592 | a string shorter than n UTF-8 bytes has no n-byte prefix; one of exactly n bytes is its own prefix |
| Art.FormatRow | src/ascii/art.rs:592 | a formatted row is at least 70 characters; a row of at most 70 bytes is kept whole and padded with spaces; a 70-character row stays exactly 70 wide; every leading part of the row that fits in 70 bytes is printed unchanged |
| Art.RenderPlantStructure | src/ascii/art.rs:358-595 | the rendered rows are the formatted rows of `Picture`: trunk, then branches, then soil; the printed bottom row shows `~` in columns 16-53 for every flower string |
| Art.GetPlantAscii | src/ascii/art.rs:311-323 | returns the formatted picture of the cached structure of that seed, 28 rows of 70 characters whose bottom row shows the soil `~` in columns 16-53; the seed is cached afterwards |
| Art.Lines | src/ascii/art.rs:588-594 | the output is 28 rows, each 70 characters wide |
| Art.Picture | src/ascii/art.rs:358-585 | the finished buffer is 28 x 70 and its soil line, cells 16 to 53 of the bottom row, is all `~` |
| Art.SoilOnTop | src/ascii/art.rs:579-585 | in the final picture the soil line is `~` whatever was drawn there; elsewhere the picture is the branch phase's grid |
| Art.TrunkShowsThrough | src/ascii/art.rs:525-527 | every trunk cell not covered by soil appears in the final picture |
| Art.BranchCellsFromStrokes | src/ascii/art.rs:461-576 | a cell the branch phase changed was blank after the trunk phase and holds a stroke of a visible branch |
| Art.AsciiRowUnchanged | src/ascii/art.rs:588-594 | an ASCII row of 70 characters is output unchanged |
| Art.CellsRightOf21 | src/ascii/art.rs:479-480 | the cells of a branch of length at most 13 lie at column 22 or further right |
| Art.SubRightOf20 | src/ascii/art.rs:552-558 | the sub-branch cells of a split at cell 12 or nearer lie at column 21 or further right |
| Art.BranchClearOfBottomLeft | src/ascii/art.rs:479-575 | no stroke of a branch lands on the bottom row left of column 16 |
| Art.BranchesClearOfBottomLeft | src/ascii/art.rs:461-576 | no stroke of any branch lands on the bottom row left of column 16 |
| Art.BottomLeftBlank | src/ascii/art.rs:358-585 | left of the soil line the bottom row of the picture stays blank |
| Art.SoilInOutput | src/ascii/art.rs:579-594 | the printed bottom row shows `~` in columns 16-53, whatever the flower glyph: the 54 characters up to the end of the soil are one byte each and survive the 70-byte cut |
| Art.BlossomNarrow | src/ascii/art.rs:311-355 | every flower glyph of every stage and frame is one byte |
| Domain.GrowthStage.Rank | src/domain/plant.rs:9-17 | the stages are ordered from Seed (0) to ReadyToHarvest (6) |
| Domain.CareHistory.WaterPercentage | src/domain/plant.rs:111-117 | 100 with no hours tracked, otherwise optimal water hours / total hours x 100, within 0-100 when consistent |
| Domain.CareHistory.NutrientPercentage | src/domain/plant.rs:120-126 | the same for nutrients |
| Domain.CareHistory.HasRecentStress | src/domain/plant.rs:130-136 | true exactly when one of the last ten events has that cause and happened within the last 5 days (the current day minus 5, saturating at 0) |
| Domain.Percentage | src/domain/plant.rs:111-126 | the shared percentage rule, 100 for zero total |
| Domain.WindowStart | src/domain/plant.rs:132 | the window covers the last ten events (all of them when there are fewer) |
| Domain.AnyRecent | src/domain/plant.rs:130-136 | the backwards scan finds a recent event of the cause exactly when one exists in the window |
| Domain.DefaultCareHistory | src/domain/plant.rs:139-151 | an empty, consistent history whose percentages are 100 |
| Domain.OlderEventsIgnored | src/domain/plant.rs:130-136 | events older than the last ten never affect `has_recent_stress` |
| Domain.RecordedIsRecent | src/domain/plant.rs:130-136 | an event just pushed is recent for its cause on its day |
| Domain.OtherCauseNotRecent | src/domain/plant.rs:130-136 | pushing an event of another cause never makes a cause recent |
| Domain.CalculateStage | src/domain/plant.rs:212-220 | the day ranges of each stage, both ways: 1-10 Seedling, 11-40 Vegetative, 41-48 PreFlower, 49-85 Flowering, else ReadyToHarvest |
| Domain.StageMonotone | src/domain/plant.rs:212-220 | from day 1 on, the stage never goes back |
| Domain.CalculateHealth | src/domain/plant.rs:223-241 | each health status exactly characterised by the water and nutrient levels |
| Domain.Toggled | src/domain/plant.rs:246-251 | toggling always changes the light cycle |
| Domain.ToggleInvolution | src/domain/plant.rs:246-251 | toggling twice restores the light cycle |
| Domain.StrainNameOf | src/domain/plant.rs:182-185 | the strain's name, or "Unknown Strain" when the genetics carry none |
| Domain.Plant.NewRandom | src/domain/plant.rs:180-207 | a new plant starts on day 1 as a seedling with water and nutrients at 60, 18/6 light, excellent health, an empty care history, the initial environment values and the strain's name |
| Domain.Plant.ToggleLightCycle | src/domain/plant.rs:246-251 | switches between 18/6 and 12/12 and changes nothing else |
| Harvest.CareQuality | src/domain/harvest.rs:25-27 | exactly max(0.7, mean care percentage / 100): never below 0.7 or the mean, equal to one of them, and at most 1 for valid percentages |
| Harvest.StressPenalty | src/domain/harvest.rs:30-31 | 2% per stress event up to 15 events and exactly 30% from 15 events on, always within 0-30% |
| Harvest.QualityScore | src/domain/harvest.rs:37-38 | quality is within 0-100 and equals the unclamped score when that is in range |
| Harvest.CannabinoidMultiplier | src/domain/harvest.rs:41-43 | the multiplier lies in 0.7-1.0 |
| Harvest.Scaled | src/domain/harvest.rs:41-43 | scaled THC and CBD lie between 70% and 100% of the plant's values |
| Harvest.YieldShare | src/domain/harvest.rs:27-38 | with care in 0.7-1 and a penalty in 0-0.3 the quality score needs no clamping (49-100) and the weight is that percentage of the yield |
| Harvest.Weight | src/domain/harvest.rs:33-34 | the weight is the quality score's share of the yield potential, 49-100% of it, for care and penalty in their ranges |
| Harvest.FromPlant | src/domain/harvest.rs:20-54 | the record keeps the strain name and the day, a quality in 0-100, and THC and CBD within 70-100% of the genetics; its weight is `Weight` of the yield potential, the care multiplier and the stress penalty |
| Harvest.CareQualityBounded | src/domain/harvest.rs:25-27 | a consistent care history never gives a care multiplier above 1 |
| Harvest.HarvestWeight | src/domain/harvest.rs:20-38 | for a consistent care history the harvested weight is the quality score's percentage of the yield potential, and between 49% and 100% of it |
| Harvest.PerfectHarvest | src/domain/harvest.rs:20-54 | with nothing tracked and no stress, the harvest is the full yield at quality 100 with the full cannabinoid content |
| AppState.SupportsRgb | src/ui/colors.rs:38 | of the palettes `create_palette` builds, only the 16-colour one lacks 24-bit colour |
| AppState.CreatePalette | src/ui/colors.rs:679-692 | the palette supports RGB exactly when the terminal has truecolor; without it the 16-colour palette |
| AppState.HoursElapsed | src/app.rs:104-106 | game hours are real seconds x 130000/3600, non-negative exactly when the seconds are |
| AppState.DaysFromHours | src/app.rs:109-110 | whole days of the hours: 0 below one day, floor(hours / 24) in range, and exactly `u32::MAX` from (`u32::MAX` + 1) x 24 hours on |
| AppState.DrainWater | src/app.rs:114-119 | draining never goes below 0 nor above the former level |
| AppState.DrainNutrients | src/app.rs:121-126 | the same for nutrients |
| AppState.TopUp | src/app.rs:129-134 | a level below its threshold is refilled, capped at 100; otherwise it is unchanged |
| AppState.Co2Level | src/app.rs:138 | CO2 is within 80-100 for a non-negative canopy |
| AppState.LightBase | src/app.rs:141-146 | the per-stage light absorption base is within 40-85 |
| AppState.LightAbsorption | src/app.rs:141-147 | absorption is at most 100 and at least the stage base |
| AppState.Temperature | src/app.rs:150-151 | the temperature is 24 + 2 x wobble, clamped to 20-28 |
| AppState.Humidity | src/app.rs:154 | humidity is within 50-80 for a non-negative water level |
| AppState.RootDevelopment | src/app.rs:157-158 | root development is within 0-100 and full from day 90 |
| AppState.RootDevelopmentMonotone | src/app.rs:157-158 | roots never shrink with age |
| AppState.CanopyBase | src/app.rs:161-180 | seed and germination stages have canopy 5, and the canopy is never negative for a non-negative growth rate |
| AppState.HealthMultiplier | src/app.rs:194-203 | no reduction for good health; otherwise within 0.4-1.0 for resilience in 0-1 |
| AppState.AdjustedCanopy | src/app.rs:194-203 | canopy is unchanged for good health, otherwise between 40% and 100% of before |
| AppState.NextLightCycle | src/app.rs:186-188 | the light switches to 12/12 from day 45 on and never switches back |
| AppState.TrackCare | src/app.rs:206-215 | total hours grow by the tick's hours, optimal hours only when the level is optimal; the history stays consistent |
| AppState.SeverityOf | src/app.rs:220-250 | nutrient burn is the only severe stress; no stress is minor |
| AppState.AppendsRecordedTransitive | src/app.rs:220-250 | stress checks in sequence only append events the current levels trigger |
| AppState.RecordIfNew | src/app.rs:220-250 | one check appends its event exactly when triggered and not recent, else leaves the history unchanged |
| AppState.RecordStress | src/app.rs:220-250 | the four checks append at most four triggered events of the current day |
| AppState.RecordOtherKeepsNotRecent | src/app.rs:220-250 | a check of another cause does not make a cause recent |
| AppState.RecordedEventKept | src/app.rs:220-250 | an event appended by one check survives the later checks |
| AppState.TriggeredIsRecorded | src/app.rs:220-250 | a triggered stress not already recent is recorded in this tick |
| AppState.LevelsAfterTopUp | src/app.rs:114-134 | after drain and top-up, water and nutrients are within 40-100 |
| AppState.LevelsStayCalm | src/app.rs:114-134 | from water and nutrients at 90 or less, drain and top-up leave both within 40-90, where the stress checks record nothing |
| AppState.DaysMonotone | src/app.rs:109-110 | days alive never decrease as hours accumulate |
| AppState.AutoHarvestDay | src/app.rs:253-258 | the auto-harvest condition is exactly day 96 or later |
| AppState.Tend | src/app.rs:104-134 | hours accumulate, days follow them, water and nutrients are drained and topped up, staying within 40-100 |
| AppState.UpdateEnvironment | src/app.rs:138-180 | CO2, light, temperature, humidity, roots and canopy are set from the plant's state |
| AppState.Grow | src/app.rs:183-203 | the stage follows the days, the light switches, health follows the levels and the canopy is adjusted |
| AppState.TrackHours | src/app.rs:206-215 | the care history is updated by `TrackCare` |
| AppState.DetectStress | src/app.rs:220-250 | the care history is updated by the four stress checks; calm levels record nothing |
| AppState.Develop | src/app.rs:104-203 | the development phases as one relation (`Developed`): hours accumulate and days follow them; water and nutrients drain by stage and are topped up; CO2, light, temperature (through `sin`), humidity and roots follow their formulas; the stage follows the days, the light cycle switches, health is recomputed and the canopy is the stage's size capped at 100 and adjusted by health; identity and genetics do not change; the levels stay within bounds |
| AppState.Care | src/app.rs:206-250 | the new care history is the old one with the tick's care tracked and any stress recorded (`CaredFor`); the history stays consistent and calm levels record no stress |
| AppState.TickPlant | src/app.rs:102-250 | one tick converts the seconds to game hours and performs exactly the development and care of those hours (`Developed`, `CaredFor`), so the plant is in the stage of its day count; forward in time it stays valid, its day count never drops, and from calm levels it stays calm and records no stress |
| AppState.App.constructor | src/app.rs:43-59 | a fresh plant, no harvests, auto-harvest off, normal mode with its palette, frame 0 |
| AppState.App.PlantNewSeed | src/app.rs:62-64 | the current plant is replaced by a fresh one |
| AppState.App.HarvestAndReplant | src/app.rs:67-79 | with a plant: its harvest record is appended, the count grows by one and a fresh plant replaces it; without one: nothing changes |
| AppState.App.ToggleAutoHarvest | src/app.rs:82-84 | auto-harvest flips |
| AppState.App.CycleVisualMode | src/app.rs:87-97 | without RGB nothing changes; with RGB the mode advances and the palette follows it |
| AppState.App.UpdateTime | src/app.rs:100-263 | the current plant ticks by the game hours of the elapsed seconds, with every development and care equation of `TickPlant`; a plant ready at day 96 is auto-harvested when enabled, and the frame counter wraps at 2^64 |
| VisualModes.Next | src/ui/visual_mode.rs:18-25 | the next mode is always different, and after Matrix comes Normal |
| VisualModes.NextCycle | src/ui/visual_mode.rs:18-25 | cycling returns to the start after exactly four steps |
| VisualModes.Name | src/ui/visual_mode.rs:28-36 | every mode has a non-empty name |
| VisualModes.NameInjective | src/ui/visual_mode.rs:28-36 | different modes have different names |
| VisualModes.Default | src/ui/visual_mode.rs:38-42 | the default mode is the one after Matrix, i.e. Normal |
| Layouts.LayoutMode.Rank | src/ui/layout.rs:3-10 | the layouts are ordered Small, Medium, Large |
| Layouts.FromTerminalSize | src/ui/layout.rs:14-22 | each layout exactly characterised by width and height: Small below 80 columns or 40 rows, Medium 80-120 columns, Large above 120 |
| Layouts.WiderNeverSmaller | src/ui/layout.rs:14-22 | a wider terminal never gets a smaller layout |
| Layouts.Indicator | src/ui/layout.rs:25-31 | each indicator is one character |
| Layouts.IndicatorInjective | src/ui/layout.rs:25-31 | different layouts have different indicators |

## Left out

- Floating point: `f32` values are exact reals. Where the source floors an `f32` product, the model uses the exact product. For the trunk height (`Structure.TrunkHeight`) the two agree: `0.22f32` lies about 1.2e-9 below 0.22, so a whole-number product day x 0.22 at the heights used (at most 27) comes out less than half an ulp below the integer and rounds to it, and 0.25 and 0.23 behave likewise.
- `exp` (in the branch length) and `sin` (in the temperature) are function parameters; `exp` is only assumed positive.
- The wall clock, `Uuid`, and the random genetics and seed of a new plant are parameters of the operations that create a plant. `planted_at`, `last_tick` and `completed_at` are not part of this model.
- The cache's `Mutex` and the global `lazy_static` are an explicit `StructureCache` object passed to `GetPlantAscii`; there is no concurrency.
- Colour palettes are reduced to a tag naming the active palette, and only the palettes `create_palette` builds are modelled (`Color256Palette`, which also lacks 24-bit colour, is never built and is not modelled); the colours themselves, the UI drawing, `main.rs`, `update.rs`, persistence and `genetics.rs` are not part of this model.
- The render buffer is a value (`seq<seq<char>>`), not a `Vec<Vec<char>>` updated in place; it is local to one call and never aliased.
- `GrowthStage::as_str` (display text) is not modelled.
- AppState.App.HarvestAndReplant: `total_harvests` is unbounded; the `u32` overflow after 2^32 harvests is not modelled.
- The `water_percentage` and `nutrient_percentage` fields stored in `CareHistory` are never read by the core and are not modelled; the percentages are always computed.
- Render.SplitStrokes: requires the split to be in range (level 4-7, angle -2..2). The source's `< 70` and `level > 0` guards are then always true and are not modelled. Every generated structure meets this (`Structure.GeneratedWellFormed`).
- Render.TrunkStrokes: requires the maximum height to be at most 27 and the splits to be in range, which every generated structure meets.
- Render.DrawTrunk: the same requirement as `Render.TrunkStrokes`.
- Art.RenderPlantStructure: requires a renderable structure (height at most 27, branches with direction ±1, curve -1..1, length at most 13, level at most 27, splits in range). `Art.WellFormedRenderable` shows every generated structure is renderable, and `Art.GetPlantAscii` has no such requirement.
- Art.DrawBranches: requires every branch to be drawable, as for `Art.RenderPlantStructure`.
- Art.DrawBranch: requires a drawable branch, as for `Art.RenderPlantStructure`.
- Structure.BranchLength: requires a positive maximum length, which every generated branch has.

=== FILE: app.dfy ===
/** Application state: the per-tick simulation of the current plant, harvesting, and the
    user toggles. */
module AppState {
  import opened Prelude
  import opened Domain
  import opened Harvest
  import opened VisualModes

  // ---------------------------------------------------------------------------
  // Colour palette, reduced to which palette is active
  // ---------------------------------------------------------------------------

  datatype Palette = Basic16 | TrueColor | ZenPalette | RainbowPalette | MatrixPalette

  /** Whether a palette paints 24-bit colours; only the 16-colour fallback does not. */
  function SupportsRgb(p: Palette): (b: bool)
    ensures b <==> p != Basic16
  {
    match p
    case Basic16 => false
    case TrueColor => true
    case ZenPalette => true
    case RainbowPalette => true
    case MatrixPalette => true
  }

  /** `create_palette`: the 16-colour palette without truecolor support, otherwise the
      palette of the visual mode. */
  function CreatePalette(supportsTruecolor: bool, mode: VisualMode): (p: Palette)
    ensures SupportsRgb(p) == supportsTruecolor
    ensures !supportsTruecolor ==> p == Basic16
    ensures supportsTruecolor && mode != Normal ==> p != TrueColor
  {
    if !supportsTruecolor then Basic16
    else
      match mode
      case Normal => TrueColor
      case Zen => ZenPalette
      case Rainbow => RainbowPalette
      case Matrix => MatrixPalette
  }

  // ---------------------------------------------------------------------------
  // One tick of the simulation, step by step
  // ---------------------------------------------------------------------------

  /** Game hours per real second: a 90-day cycle passes in a few seconds. */
  const HOURS_PER_SECOND: real := 130000.0 / 3600.0

  /** Game hours that pass in `elapsedSeconds` real seconds. */
  function HoursElapsed(elapsedSeconds: real): (h: real)
    ensures h >= 0.0 <==> elapsedSeconds >= 0.0
    ensures h == elapsedSeconds * HOURS_PER_SECOND
  {
    elapsedSeconds / 3600.0 * 130000.0
  }

  /** `(total_hours / 24.0) as u32`: whole days, saturating at 0 and at `u32::MAX`. */
  function DaysFromHours(totalHours: real): (d: nat)
    ensures d <= U32_MAX
    ensures totalHours < 24.0 ==> d == 0
    ensures 0.0 <= totalHours && totalHours < (U32_MAX + 1) as real * 24.0 ==>
              d as real * 24.0 <= totalHours < (d + 1) as real * 24.0
    ensures totalHours >= (U32_MAX + 1) as real * 24.0 ==> d == U32_MAX
  {
    if totalHours < 0.0 then 0 else Min((totalHours / 24.0).Floor, U32_MAX)
  }

  /** The water level after `hours` of drain at the rate of the stage (1.0 an hour in
      vegetative growth, 0.8 while flowering, 0.5 otherwise), never below 0. */
  function DrainWater(stage: GrowthStage, level: real, hours: real): (r: real)
    ensures r >= 0.0
    ensures hours >= 0.0 ==> r <= MaxReal(level, 0.0)
  {
    var drain := match stage
      case Vegetative => 1.0 * hours
      case Flowering => 0.8 * hours
      case _ => 0.5 * hours;
    MaxReal(level - drain, 0.0)
  }

  /** Nutrients drain at 0.8 an hour in vegetative growth, 1.0 while flowering, 0.4 otherwise. */
  function DrainNutrients(stage: GrowthStage, level: real, hours: real): (r: real)
    ensures r >= 0.0
    ensures hours >= 0.0 ==> r <= MaxReal(level, 0.0)
  {
    var drain := match stage
      case Vegetative => 0.8 * hours
      case Flowering => 1.0 * hours
      case _ => 0.4 * hours;
    MaxReal(level - drain, 0.0)
  }

  /** Automatic care: a level below `threshold` gets `refill` added, capped at 100. */
  function TopUp(level: real, threshold: real, refill: real): (r: real)
    ensures level >= threshold ==> r == level
    ensures level < threshold ==> r <= 100.0
    ensures 0.0 <= level <= 100.0 && threshold <= 100.0 && 0.0 <= refill ==>
              MinReal(threshold, refill) <= r <= 100.0
  {
    if level < threshold then MinReal(level + refill, 100.0) else level
  }

  const WATER_THRESHOLD: real := 40.0
  const WATER_REFILL: real := 50.0
  const NUTRIENT_THRESHOLD: real := 50.0
  const NUTRIENT_REFILL: real := 40.0

  /** CO2 availability grows with the canopy: 80 plus a fifth of it, at most 100. */
  function Co2Level(canopy: real): (r: real)
    ensures r <= 100.0
    ensures 0.0 <= canopy ==> 80.0 <= r
  {
    MinReal(80.0 + canopy * 0.2, 100.0)
  }

  /** Light absorption of a stage before the canopy bonus. */
  function LightBase(stage: GrowthStage): (b: real)
    ensures 40.0 <= b <= 85.0
  {
    match stage
    case Seed | Germination | Seedling => 40.0
    case Vegetative => 60.0
    case PreFlower => 75.0
    case Flowering | ReadyToHarvest => 85.0
  }

  /** Light absorption: the stage's base plus a tenth of the canopy, at most 100. */
  function LightAbsorption(stage: GrowthStage, canopy: real): (r: real)
    ensures r <= 100.0
    ensures 0.0 <= canopy ==> MinReal(LightBase(stage), 100.0) <= r
  {
    MinReal(LightBase(stage) + canopy * 0.1, 100.0)
  }

  /** Temperature: 24 degrees plus twice the wobble value, kept within 20-28 degrees. */
  function Temperature(wobble: real): (t: real)
    ensures 20.0 <= t <= 28.0
    ensures 20.0 <= 24.0 + wobble * 2.0 <= 28.0 ==> t == 24.0 + wobble * 2.0
  {
    MinReal(MaxReal(24.0 + wobble * 2.0, 20.0), 28.0)
  }

  /** Humidity follows the water level: 50 plus a fifth of it, at most 80. */
  function Humidity(water: real): (r: real)
    ensures r <= 80.0
    ensures 0.0 <= water ==> 50.0 <= r
  {
    MinReal(50.0 + water * 0.2, 80.0)
  }

  /** Root development: the share of a 90-day cycle that has passed, as a percentage. */
  function RootDevelopment(days: nat): (r: real)
    ensures 0.0 <= r <= 100.0
    ensures days >= 90 ==> r == 100.0
  {
    MinReal(days as real / 90.0 * 100.0, 100.0)
  }

  /** Roots never recede as days pass. */
  lemma RootDevelopmentMonotone(d1: nat, d2: nat)
    requires d1 <= d2
    ensures RootDevelopment(d1) <= RootDevelopment(d2)
  {
    assert d1 as real / 90.0 * 100.0 <= d2 as real / 90.0 * 100.0;
  }

  /** Canopy before the health adjustment, by the stage the plant had at the start of the
      tick, scaled by the genetic growth rate. */
  function CanopyBase(stage: GrowthStage, days: nat, growthRate: real): (r: real)
    ensures stage == Seed || stage == Germination ==> r == 5.0
    ensures 0.0 <= growthRate ==> 0.0 <= r
  {
    if stage == Seed || stage == Germination then 5.0
    else
      var size := match stage
        case Seedling => 15.0
        case Vegetative => 40.0 + days as real * 0.8
        case PreFlower => 60.0 + days as real * 0.6
        case _ => 80.0 + days as real * 0.2;
      MulMonotone(0.0, size, growthRate);
      size * growthRate
  }

  /** Growth multiplier of a health status; resilience softens poor health. */
  function HealthMultiplier(health: HealthStatus, resilience: real): (m: real)
    ensures health == Excellent || health == Good ==> m == 1.0
    ensures 0.0 <= resilience <= 1.0 ==> 0.4 <= m <= 1.0
    ensures resilience == 1.0 ==> m == 1.0
  {
    match health
    case Excellent => 1.0
    case Good => 1.0
    case Fair => 0.85 + resilience * 0.15
    case Poor => 0.65 + resilience * 0.35
    case Critical => 0.4 + resilience * 0.6
  }

  /** The canopy after the health adjustment: the base canopy scaled by the multiplier. */
  function AdjustedCanopy(base: real, health: HealthStatus, resilience: real): (r: real)
    ensures health == Excellent || health == Good ==> r == base
    ensures 0.0 <= base && 0.0 <= resilience <= 1.0 ==> 0.4 * base <= r <= base
  {
    var m := HealthMultiplier(health, resilience);
    var r := m * base;
    if 0.0 <= base && 0.0 <= resilience <= 1.0 then
      assert 0.4 <= m <= 1.0;
      MulMonotone(0.4, m, base);
      MulMonotone(m, 1.0, base);
      assert 0.4 * base <= m * base <= 1.0 * base;
      assert 0.4 * base <= r <= 1.0 * base;
      r
    else r
  }

  /** The light cycle after a tick: switched to 12/12 from day 45 on, never switched back. */
  function NextLightCycle(cycle: LightCycle, days: nat): (c: LightCycle)
    ensures days >= 45 ==> c == Flower12_12
    ensures cycle == Flower12_12 ==> c == Flower12_12
    ensures days < 45 ==> c == cycle
  {
    match cycle
    case Veg18_6 => if days >= 45 then Toggled(cycle) else cycle
    case Flower12_12 => cycle
  }

  /** Care counters: every tracked hour counts, and an optimal counter also counts it when
      its level ends the tick in its optimal band. */
  function TrackCare(c: CareHistory, water: real, nutrients: real, hours: real): (c': CareHistory)
    ensures c'.totalHours == c.totalHours + hours
    ensures c'.totalOptimalWaterHours == c.totalOptimalWaterHours + (if WaterOptimal(water) then hours else 0.0)
    ensures c'.totalOptimalNutrientHours == c.totalOptimalNutrientHours + (if NutrientOptimal(nutrients) then hours else 0.0)
    ensures c'.stressEvents == c.stressEvents
    ensures c.Consistent() && hours >= 0.0 ==> c'.Consistent()
  {
    var water' := if WaterOptimal(water) then c.totalOptimalWaterHours + hours else c.totalOptimalWaterHours;
    var nutrients' := if NutrientOptimal(nutrients) then c.totalOptimalNutrientHours + hours else c.totalOptimalNutrientHours;
    c.(totalOptimalWaterHours := water', totalOptimalNutrientHours := nutrients', totalHours := c.totalHours + hours)
  }

  // ---------------------------------------------------------------------------
  // Stress detection
  // ---------------------------------------------------------------------------

  /** The level condition that makes a cause a stress: water below 20 or above 90,
      nutrients below 30 or above 90. Light-cycle stress is never detected. */
  predicate Triggered(cause: StressCause, water: real, nutrients: real)
  {
    match cause
    case LowWater => water < 20.0
    case HighWater => water > 90.0
    case LowNutrients => nutrients < 30.0
    case NutrientBurn => nutrients > 90.0
    case WrongLightCycle => false
  }

  /** Nutrient burn is severe; every other detected stress is moderate. */
  function SeverityOf(cause: StressCause): (s: StressSeverity)
    ensures s == Severe <==> cause == NutrientBurn
    ensures s != Minor
  {
    if cause == NutrientBurn then Severe else Moderate
  }

  /** An event as a tick records it: dated that day, for a triggered cause, with the cause's
      severity. */
  predicate RecordedNow(e: StressEvent, water: real, nutrients: real, day: nat)
  {
    e.day == day && Triggered(e.cause, water, nutrients) && e.severity == SeverityOf(e.cause)
  }

  /** `c'` is `c` with events appended and nothing else changed, every appended event one
      that a tick with these levels on this day records. */
  predicate AppendsRecorded(c: CareHistory, c': CareHistory, water: real, nutrients: real, day: nat)
  {
    && c' == c.(stressEvents := c'.stressEvents)
    && |c.stressEvents| <= |c'.stressEvents|
    && c'.stressEvents[..|c.stressEvents|] == c.stressEvents
    && forall k :: |c.stressEvents| <= k < |c'.stressEvents| ==> RecordedNow(c'.stressEvents[k], water, nutrients, day)
  }

  /** Two rounds of appending recorded events are one round. */
  lemma AppendsRecordedTransitive(c0: CareHistory, c1: CareHistory, c2: CareHistory, water: real, nutrients: real, day: nat)
    requires AppendsRecorded(c0, c1, water, nutrients, day) && AppendsRecorded(c1, c2, water, nutrients, day)
    ensures AppendsRecorded(c0, c2, water, nutrients, day)
  {
    var n0, n1 := |c0.stressEvents|, |c1.stressEvents|;
    assert c2.stressEvents[..n0] == c2.stressEvents[..n1][..n0];
    forall k | n0 <= k < |c2.stressEvents|
      ensures RecordedNow(c2.stressEvents[k], water, nutrients, day)
    {
      if k < n1 {
        assert c2.stressEvents[k] == c2.stressEvents[..n1][k];
      }
    }
  }

  /** Appends an event for `cause` dated `day` when it is triggered and no event of the same
      cause is recent; otherwise the history is unchanged. */
  function RecordIfNew(c: CareHistory, cause: StressCause, water: real, nutrients: real, day: nat): (c': CareHistory)
    ensures AppendsRecorded(c, c', water, nutrients, day)
    ensures Triggered(cause, water, nutrients) && !c.HasRecentStress(cause, day) ==>
              c'.stressEvents == c.stressEvents + [StressEvent(day, SeverityOf(cause), cause)]
    ensures !(Triggered(cause, water, nutrients) && !c.HasRecentStress(cause, day)) ==> c' == c
  {
    if Triggered(cause, water, nutrients) && !c.HasRecentStress(cause, day) then
      var c' := c.(stressEvents := c.stressEvents + [StressEvent(day, SeverityOf(cause), cause)]);
      assert c'.stressEvents[..|c.stressEvents|] == c.stressEvents;
      c'
    else c
  }

  /** The four checks of a tick, in order: low water, high water, low nutrients, nutrient
      burn. Events are only appended, at most four, each one dated the tick's day for a
      triggered cause. */
  function RecordStress(c: CareHistory, water: real, nutrients: real, day: nat): (c': CareHistory)
    ensures AppendsRecorded(c, c', water, nutrients, day)
    ensures |c'.stressEvents| <= |c.stressEvents| + 4
  {
    var c1 := RecordIfNew(c, LowWater, water, nutrients, day);
    var c2 := RecordIfNew(c1, HighWater, water, nutrients, day);
    var c3 := RecordIfNew(c2, LowNutrients, water, nutrients, day);
    var c4 := RecordIfNew(c3, NutrientBurn, water, nutrients, day);
    AppendsRecordedTransitive(c, c1, c2, water, nutrients, day);
    AppendsRecordedTransitive(c, c2, c3, water, nutrients, day);
    AppendsRecordedTransitive(c, c3, c4, water, nutrients, day);
    c4
  }

  /** Recording one cause never makes another cause recent. */
  lemma RecordOtherKeepsNotRecent(c: CareHistory, other: StressCause, cause: StressCause, water: real, nutrients: real, day: nat)
    requires other != cause && !c.HasRecentStress(cause, day)
    ensures !RecordIfNew(c, other, water, nutrients, day).HasRecentStress(cause, day)
  {
    if Triggered(other, water, nutrients) && !c.HasRecentStress(other, day) {
      OtherCauseNotRecent(c, StressEvent(day, SeverityOf(other), other), cause, day);
    }
  }

  /** An event appended after an extension of `c` is still there, after `c`'s own events,
      once more events are appended. */
  lemma RecordedEventKept(c: CareHistory, before: CareHistory, after: CareHistory, c': CareHistory,
                          e: StressEvent, water: real, nutrients: real, day: nat)
    requires AppendsRecorded(c, before, water, nutrients, day) && AppendsRecorded(after, c', water, nutrients, day)
    requires after.stressEvents == before.stressEvents + [e]
    ensures e in c'.stressEvents[|c.stressEvents|..]
  {
    var n, i := |c.stressEvents|, |before.stressEvents|;
    assert c'.stressEvents[i] == c'.stressEvents[..|after.stressEvents|][i] == e;
    assert c'.stressEvents[n..][i - n] == e;
  }

  /** A triggered cause without a recent event of its own is recorded in the tick, whatever
      the other causes do. */
  lemma {:induction false} TriggeredIsRecorded(c: CareHistory, cause: StressCause, water: real, nutrients: real, day: nat)
    requires Triggered(cause, water, nutrients) && !c.HasRecentStress(cause, day)
    ensures StressEvent(day, SeverityOf(cause), cause) in RecordStress(c, water, nutrients, day).stressEvents[|c.stressEvents|..]
  {
    var e := StressEvent(day, SeverityOf(cause), cause);
    var c1 := RecordIfNew(c, LowWater, water, nutrients, day);
    var c2 := RecordIfNew(c1, HighWater, water, nutrients, day);
    var c3 := RecordIfNew(c2, LowNutrients, water, nutrients, day);
    var c4 := RecordIfNew(c3, NutrientBurn, water, nutrients, day);
    // `before` is the history the step for `cause` starts from, `after` the one it leaves;
    // the steps before it leave `cause` not recent, the steps after it only append.
    var before: CareHistory, after: CareHistory;
    if cause == LowWater {
      before, after := c, c1;
      AppendsRecordedTransitive(c1, c2, c3, water, nutrients, day);
      AppendsRecordedTransitive(c1, c3, c4, water, nutrients, day);
    } else if cause == HighWater {
      RecordOtherKeepsNotRecent(c, LowWater, cause, water, nutrients, day);
      before, after := c1, c2;
      AppendsRecordedTransitive(c2, c3, c4, water, nutrients, day);
    } else if cause == LowNutrients {
      RecordOtherKeepsNotRecent(c, LowWater, cause, water, nutrients, day);
      RecordOtherKeepsNotRecent(c1, HighWater, cause, water, nutrients, day);
      AppendsRecordedTransitive(c, c1, c2, water, nutrients, day);
      before, after := c2, c3;
    } else {
      RecordOtherKeepsNotRecent(c, LowWater, cause, water, nutrients, day);
      RecordOtherKeepsNotRecent(c1, HighWater, cause, water, nutrients, day);
      RecordOtherKeepsNotRecent(c2, LowNutrients, cause, water, nutrients, day);
      AppendsRecordedTransitive(c, c1, c2, water, nutrients, day);
      AppendsRecordedTransitive(c, c2, c3, water, nutrients, day);
      before, after := c3, c4;
    }
    RecordedEventKept(c, before, after, c4, e, water, nutrients, day);
  }

  // ---------------------------------------------------------------------------
  // Properties of the step functions across a tick
  // ---------------------------------------------------------------------------

  /** After the drain, floor and top-up, levels that started as percentages are at least 40
      and at most 100. */
  lemma LevelsAfterTopUp(stage: GrowthStage, water: real, nutrients: real, hours: real)
    requires 0.0 <= water <= 100.0 && 0.0 <= nutrients <= 100.0 && hours >= 0.0
    ensures 40.0 <= TopUp(DrainWater(stage, water, hours), WATER_THRESHOLD, WATER_REFILL) <= 100.0
    ensures 40.0 <= TopUp(DrainNutrients(stage, nutrients, hours), NUTRIENT_THRESHOLD, NUTRIENT_REFILL) <= 100.0
  {
  }

  /** Levels that start at 90 or below stay within 40-90: the refill of a level below its
      threshold cannot pass 90, and no stress check fires in that band. So from a new
      plant's 60/60 on, the automatic care keeps every stress range out of reach. */
  lemma LevelsStayCalm(stage: GrowthStage, water: real, nutrients: real, hours: real, c: CareHistory, day: nat)
    requires 0.0 <= water <= 90.0 && 0.0 <= nutrients <= 90.0 && hours >= 0.0
    ensures var water' := TopUp(DrainWater(stage, water, hours), WATER_THRESHOLD, WATER_REFILL);
            var nutrients' := TopUp(DrainNutrients(stage, nutrients, hours), NUTRIENT_THRESHOLD, NUTRIENT_REFILL);
            && 40.0 <= water' <= 90.0 && 40.0 <= nutrients' <= 90.0
            && RecordStress(c, water', nutrients', day) == c
  {
  }

  /** Rounded-down days never decrease as hours accumulate. */
  lemma DaysMonotone(t1: real, t2: real)
    requires t1 <= t2
    ensures DaysFromHours(t1) <= DaysFromHours(t2)
  {
    if 0.0 <= t1 {
      assert (t1 / 24.0).Floor <= (t2 / 24.0).Floor by {
        assert t1 / 24.0 <= t2 / 24.0;
      }
    }
  }

  /** Auto-harvest waits for day 96: from then on the stage is always ReadyToHarvest, so the
      stage test adds nothing to the day test. */
  lemma AutoHarvestDay(days: nat)
    ensures (CalculateStage(days) == ReadyToHarvest && days >= 96) <==> days >= 96
  {
  }

  // ---------------------------------------------------------------------------
  // The phases of `update_time` on the plant object
  // ---------------------------------------------------------------------------

  /** Clock and resources: hours accumulate, the day count follows them, and water and
      nutrients drain at the rates of the current stage, floor at 0 and are topped up.
      Forward in time, levels that were percentages end at 40 or more, levels at 90 or less
      stay at 90 or less, and the day count never goes back. */
  method Tend(p: Plant, hoursElapsed: real)
    modifies p`totalHoursElapsed, p`daysAlive, p`waterLevel, p`nutrientLevel
    ensures p.totalHoursElapsed == old(p.totalHoursElapsed) + hoursElapsed
    ensures p.daysAlive == DaysFromHours(p.totalHoursElapsed)
    ensures p.waterLevel == TopUp(DrainWater(p.stage, old(p.waterLevel), hoursElapsed), WATER_THRESHOLD, WATER_REFILL)
    ensures p.nutrientLevel == TopUp(DrainNutrients(p.stage, old(p.nutrientLevel), hoursElapsed), NUTRIENT_THRESHOLD, NUTRIENT_REFILL)
    ensures hoursElapsed >= 0.0 && old(0.0 <= p.waterLevel <= 100.0 && 0.0 <= p.nutrientLevel <= 100.0) ==>
              40.0 <= p.waterLevel <= 100.0 && 40.0 <= p.nutrientLevel <= 100.0
    ensures hoursElapsed >= 0.0 && old(0.0 <= p.waterLevel <= 90.0 && 0.0 <= p.nutrientLevel <= 90.0) ==>
              40.0 <= p.waterLevel <= 90.0 && 40.0 <= p.nutrientLevel <= 90.0
    ensures hoursElapsed >= 0.0 && old(p.daysAlive == DaysFromHours(p.totalHoursElapsed)) ==>
              old(p.daysAlive) <= p.daysAlive
  {
    p.totalHoursElapsed := p.totalHoursElapsed + hoursElapsed;
    p.daysAlive := DaysFromHours(p.totalHoursElapsed);

    p.waterLevel := DrainWater(p.stage, p.waterLevel, hoursElapsed);
    p.nutrientLevel := DrainNutrients(p.stage, p.nutrientLevel, hoursElapsed);

    if p.waterLevel < 40.0 {
      p.waterLevel := MinReal(p.waterLevel + 50.0, 100.0);
    }
    if p.nutrientLevel < 50.0 {
      p.nutrientLevel := MinReal(p.nutrientLevel + 40.0, 100.0);
    }

    if hoursElapsed >= 0.0 {
      DaysMonotone(old(p.totalHoursElapsed), p.totalHoursElapsed);
      if old(0.0 <= p.waterLevel <= 100.0 && 0.0 <= p.nutrientLevel <= 100.0) {
        LevelsAfterTopUp(p.stage, old(p.waterLevel), old(p.nutrientLevel), hoursElapsed);
      }
    }
  }

  /** Environment: CO2, light, temperature, humidity, roots and the canopy before the health
      adjustment, from the stage and canopy the plant has before this phase. `wobble` is the
      sine value of the temperature wobble. */
  method UpdateEnvironment(p: Plant, wobble: real)
    modifies p`co2Level, p`lightAbsorption, p`temperature, p`humidity, p`rootDevelopment, p`canopyDensity
    ensures p.co2Level == Co2Level(old(p.canopyDensity))
    ensures p.lightAbsorption == LightAbsorption(p.stage, old(p.canopyDensity))
    ensures p.temperature == Temperature(wobble)
    ensures p.humidity == Humidity(p.waterLevel)
    ensures p.rootDevelopment == RootDevelopment(p.daysAlive)
    ensures p.canopyDensity == MinReal(CanopyBase(p.stage, p.daysAlive, p.genetics.growthRate), 100.0)
  {
    p.co2Level := MinReal(80.0 + p.canopyDensity * 0.2, 100.0);
    p.lightAbsorption := MinReal(LightBase(p.stage) + p.canopyDensity * 0.1, 100.0);
    var tempVariation := wobble * 2.0;
    p.temperature := MinReal(MaxReal(24.0 + tempVariation, 20.0), 28.0);
    p.humidity := MinReal(50.0 + p.waterLevel * 0.2, 80.0);
    p.rootDevelopment := MinReal(p.daysAlive as real / 90.0 * 100.0, 100.0);
    var canopyBase := CanopyBase(p.stage, p.daysAlive, p.genetics.growthRate);
    p.canopyDensity := MinReal(canopyBase, 100.0);
  }

  /** Growth: the stage of the day count, the switch to the flowering light cycle, health,
      and the health-adjusted canopy. */
  method Grow(p: Plant)
    modifies p`stage, p`lightCycle, p`health, p`canopyDensity
    ensures p.stage == CalculateStage(p.daysAlive)
    ensures p.lightCycle == NextLightCycle(old(p.lightCycle), p.daysAlive)
    ensures p.health == CalculateHealth(p.waterLevel, p.nutrientLevel)
    ensures p.canopyDensity == AdjustedCanopy(old(p.canopyDensity), p.health, p.genetics.resilience)
  {
    p.stage := CalculateStage(p.daysAlive);
    if p.daysAlive >= 45 && p.lightCycle == Veg18_6 {
      p.ToggleLightCycle();
    }
    p.health := CalculateHealth(p.waterLevel, p.nutrientLevel);
    p.canopyDensity := AdjustedCanopy(p.canopyDensity, p.health, p.genetics.resilience);
  }

  /** Care tracking: every hour counts towards the total, and towards an optimal counter
      when its level is in the optimal band. */
  method TrackHours(p: Plant, hoursElapsed: real)
    modifies p`careHistory
    ensures p.careHistory == TrackCare(old(p.careHistory), p.waterLevel, p.nutrientLevel, hoursElapsed)
  {
    var waterOptimal := 40.0 <= p.waterLevel <= 80.0;
    var nutrientOptimal := 50.0 <= p.nutrientLevel <= 80.0;
    if waterOptimal {
      p.careHistory := p.careHistory.(totalOptimalWaterHours := p.careHistory.totalOptimalWaterHours + hoursElapsed);
    }
    if nutrientOptimal {
      p.careHistory := p.careHistory.(totalOptimalNutrientHours := p.careHistory.totalOptimalNutrientHours + hoursElapsed);
    }
    p.careHistory := p.careHistory.(totalHours := p.careHistory.totalHours + hoursElapsed);
  }

  /** Stress detection: the four checks in order, each recording an event only when its
      level is out of range and no event of the same cause is recent. Levels inside the
      stress-free band record nothing. */
  method DetectStress(p: Plant)
    modifies p`careHistory
    ensures p.careHistory == RecordStress(old(p.careHistory), p.waterLevel, p.nutrientLevel, p.daysAlive)
    ensures 20.0 <= p.waterLevel <= 90.0 && 30.0 <= p.nutrientLevel <= 90.0 ==> p.careHistory == old(p.careHistory)
  {
    var day := p.daysAlive;
    ghost var c0 := p.careHistory;
    if p.waterLevel < 20.0 && !p.careHistory.HasRecentStress(LowWater, day) {
      p.careHistory := p.careHistory.(stressEvents := p.careHistory.stressEvents + [StressEvent(day, Moderate, LowWater)]);
    }
    ghost var c1 := p.careHistory;
    assert c1 == RecordIfNew(c0, LowWater, p.waterLevel, p.nutrientLevel, day);
    if p.waterLevel > 90.0 && !p.careHistory.HasRecentStress(HighWater, day) {
      p.careHistory := p.careHistory.(stressEvents := p.careHistory.stressEvents + [StressEvent(day, Moderate, HighWater)]);
    }
    ghost var c2 := p.careHistory;
    assert c2 == RecordIfNew(c1, HighWater, p.waterLevel, p.nutrientLevel, day);
    if p.nutrientLevel < 30.0 && !p.careHistory.HasRecentStress(LowNutrients, day) {
      p.careHistory := p.careHistory.(stressEvents := p.careHistory.stressEvents + [StressEvent(day, Moderate, LowNutrients)]);
    }
    ghost var c3 := p.careHistory;
    assert c3 == RecordIfNew(c2, LowNutrients, p.waterLevel, p.nutrientLevel, day);
    if p.nutrientLevel > 90.0 && !p.careHistory.HasRecentStress(NutrientBurn, day) {
      p.careHistory := p.careHistory.(stressEvents := p.careHistory.stressEvents + [StressEvent(day, Severe, NutrientBurn)]);
    }
    assert p.careHistory == RecordIfNew(c3, NutrientBurn, p.waterLevel, p.nutrientLevel, day);
  }

  /** The state the first three phases of a tick leave a plant in, against the state before
      the tick: hours and days advanced, water and nutrients drained at the rates of the
      stage the tick started in and topped up, the environment from the canopy and stage before
      the tick, the stage and light cycle of the new day count, health from the new levels, and
      the canopy of the old stage adjusted for the new health. Identity and genetics are kept. */
  twostate predicate Developed(p: Plant, hoursElapsed: real, sin: real -> real)
    reads p
  {
    && p.id == old(p.id) && p.strainName == old(p.strainName) && p.genetics == old(p.genetics)
    && p.totalHoursElapsed == old(p.totalHoursElapsed) + hoursElapsed
    && p.daysAlive == DaysFromHours(p.totalHoursElapsed)
    && p.waterLevel == TopUp(DrainWater(old(p.stage), old(p.waterLevel), hoursElapsed), WATER_THRESHOLD, WATER_REFILL)
    && p.nutrientLevel == TopUp(DrainNutrients(old(p.stage), old(p.nutrientLevel), hoursElapsed), NUTRIENT_THRESHOLD, NUTRIENT_REFILL)
    && p.co2Level == Co2Level(old(p.canopyDensity))
    && p.lightAbsorption == LightAbsorption(old(p.stage), old(p.canopyDensity))
    && p.temperature == Temperature(sin(p.daysAlive as real * 0.7))
    && p.humidity == Humidity(p.waterLevel)
    && p.rootDevelopment == RootDevelopment(p.daysAlive)
    && p.stage == CalculateStage(p.daysAlive)
    && p.lightCycle == NextLightCycle(old(p.lightCycle), p.daysAlive)
    && p.health == CalculateHealth(p.waterLevel, p.nutrientLevel)
    && p.canopyDensity == AdjustedCanopy(MinReal(CanopyBase(old(p.stage), p.daysAlive, p.genetics.growthRate), 100.0),
                                         p.health, p.genetics.resilience)
  }

  /** The care history the last two phases of a tick leave: the hours tracked at the new
      levels, then the four stress checks at the new levels and day count. */
  twostate predicate CaredFor(p: Plant, hoursElapsed: real)
    reads p
  {
    p.careHistory == RecordStress(TrackCare(old(p.careHistory), p.waterLevel, p.nutrientLevel, hoursElapsed),
                                  p.waterLevel, p.nutrientLevel, p.daysAlive)
  }

  /** The first three phases: clock and resources, environment (with the sine of the new day
      count times 0.7 as temperature wobble), growth. The care history is
      left alone; the plant ends in the stage of its day count; forward in time the day count
      never goes back, percentage levels end in 40-100, and levels at 90 or less stay there. */
  method Develop(p: Plant, hoursElapsed: real, sin: real -> real)
    modifies p`totalHoursElapsed, p`daysAlive, p`waterLevel, p`nutrientLevel
    modifies p`co2Level, p`lightAbsorption, p`temperature, p`humidity, p`rootDevelopment
    modifies p`canopyDensity, p`stage, p`lightCycle, p`health
    ensures Developed(p, hoursElapsed, sin)
    ensures hoursElapsed >= 0.0 && old(p.daysAlive == DaysFromHours(p.totalHoursElapsed)) ==>
              old(p.daysAlive) <= p.daysAlive
    ensures hoursElapsed >= 0.0 && old(0.0 <= p.waterLevel <= 100.0 && 0.0 <= p.nutrientLevel <= 100.0) ==>
              40.0 <= p.waterLevel <= 100.0 && 40.0 <= p.nutrientLevel <= 100.0
    ensures hoursElapsed >= 0.0 && old(0.0 <= p.waterLevel <= 90.0 && 0.0 <= p.nutrientLevel <= 90.0) ==>
              40.0 <= p.waterLevel <= 90.0 && 40.0 <= p.nutrientLevel <= 90.0
  {
    Tend(p, hoursElapsed);
    UpdateEnvironment(p, sin(p.daysAlive as real * 0.7));
    Grow(p);
  }

  /** The last two phases: care tracking and stress detection. A consistent history stays
      consistent when time moves forward, and levels in the stress-free band record nothing. */
  method Care(p: Plant, hoursElapsed: real)
    modifies p`careHistory
    ensures CaredFor(p, hoursElapsed)
    ensures hoursElapsed >= 0.0 && old(p.careHistory.Consistent()) ==> p.careHistory.Consistent()
    ensures 20.0 <= p.waterLevel <= 90.0 && 30.0 <= p.nutrientLevel <= 90.0 ==>
              p.careHistory.stressEvents == old(p.careHistory.stressEvents)
  {
    TrackHours(p, hoursElapsed);
    DetectStress(p);
  }

  /** The plant part of `update_time`: the five phases in the order of the source. The
      plant ends in the stage of its day count; a tick forward in time keeps it valid, never
      lowers its day count, and from calm levels (water and nutrients at 90 or less, as a new
      plant has) stays calm and records no stress. */
  method TickPlant(p: Plant, elapsedSeconds: real, sin: real -> real)
    modifies p
    ensures Developed(p, HoursElapsed(elapsedSeconds), sin) && CaredFor(p, HoursElapsed(elapsedSeconds))
    ensures elapsedSeconds >= 0.0 && old(p.Valid()) ==> p.Valid()
    ensures elapsedSeconds >= 0.0 && old(p.daysAlive == DaysFromHours(p.totalHoursElapsed)) ==>
              old(p.daysAlive) <= p.daysAlive == DaysFromHours(p.totalHoursElapsed)
    ensures elapsedSeconds >= 0.0 && old(0.0 <= p.waterLevel <= 90.0 && 0.0 <= p.nutrientLevel <= 90.0) ==>
              && 40.0 <= p.waterLevel <= 90.0 && 40.0 <= p.nutrientLevel <= 90.0
              && p.careHistory.stressEvents == old(p.careHistory.stressEvents)
  {
    var hoursElapsed := HoursElapsed(elapsedSeconds);
    Develop(p, hoursElapsed, sin);
    Care(p, hoursElapsed);
  }

  // ---------------------------------------------------------------------------
  // The application object
  // ---------------------------------------------------------------------------

  /** Application state. New plants get their identity and genetics from the caller, since
      the source draws them at random. */
  class App {
    var currentPlant: Plant?
    var harvestHistory: seq<HarvestResult>
    var totalHarvests: nat
    var autoHarvest: bool
    var visualMode: VisualMode
    var palette: Palette
    var animationFrame: U64

    /** `App::new`: no history, auto-harvest off, Normal mode, and a first plant. */
    constructor (supportsTruecolor: bool, id: nat, genetics: Genetics)
      ensures currentPlant != null && fresh(currentPlant) && currentPlant.Initial(id, genetics)
      ensures harvestHistory == [] && totalHarvests == 0 && !autoHarvest
      ensures visualMode == Normal && palette == CreatePalette(supportsTruecolor, Normal)
      ensures animationFrame == 0
    {
      harvestHistory := [];
      totalHarvests := 0;
      autoHarvest := false;
      visualMode := Default();
      animationFrame := 0;
      palette := CreatePalette(supportsTruecolor, Default());
      currentPlant := new Plant.NewRandom(id, genetics);
    }

    /** `plant_new_seed`: replaces the current plant with a new one. */
    method PlantNewSeed(id: nat, genetics: Genetics)
      modifies this`currentPlant
      ensures currentPlant != null && fresh(currentPlant) && currentPlant.Initial(id, genetics)
    {
      currentPlant := new Plant.NewRandom(id, genetics);
    }

    /** `harvest_and_replant`: with a plant, records its harvest, counts it and plants anew;
        without one, changes nothing. */
    method HarvestAndReplant(id: nat, genetics: Genetics)
      modifies this
      ensures old(currentPlant) == null ==> unchanged(this)
      ensures old(currentPlant) != null ==>
        && harvestHistory == old(harvestHistory) + [FromPlant(old(currentPlant))]
        && totalHarvests == old(totalHarvests) + 1
        && currentPlant != null && fresh(currentPlant) && currentPlant.Initial(id, genetics)
      ensures autoHarvest == old(autoHarvest) && visualMode == old(visualMode)
      ensures palette == old(palette) && animationFrame == old(animationFrame)
    {
      if currentPlant != null {
        var plant := currentPlant;
        currentPlant := null;
        var result := FromPlant(plant);
        harvestHistory := harvestHistory + [result];
        totalHarvests := totalHarvests + 1;
        PlantNewSeed(id, genetics);
      }
    }

    /** `toggle_auto_harvest`. */
    method ToggleAutoHarvest()
      modifies this`autoHarvest
      ensures autoHarvest == !old(autoHarvest)
    {
      autoHarvest := !autoHarvest;
    }

    /** `cycle_visual_mode`: only with a 24-bit palette, moves to the next mode and its
        palette, keeping the palette's colour capability. */
    method CycleVisualMode()
      modifies this`visualMode, this`palette
      ensures !SupportsRgb(old(palette)) ==> visualMode == old(visualMode) && palette == old(palette)
      ensures SupportsRgb(old(palette)) ==>
        visualMode == Next(old(visualMode)) && palette == CreatePalette(true, visualMode)
      ensures SupportsRgb(palette) == SupportsRgb(old(palette))
    {
      if !SupportsRgb(palette) {
        return;
      }
      visualMode := Next(visualMode);
      var supportsRgb := SupportsRgb(palette);
      palette := CreatePalette(supportsRgb, visualMode);
    }

    /** `update_time`: runs the phases of a tick on the current plant, auto-harvests a plant
        ready from day 96 on when enabled, and always advances the animation frame. `sin` is
        the sine function of the temperature wobble; `nextId` and `nextGenetics` are what a
        replanted seed gets. A tick forward in time keeps the plant valid. */
    method UpdateTime(elapsedSeconds: real, sin: real -> real, nextId: nat, nextGenetics: Genetics)
      modifies this, currentPlant
      ensures animationFrame == WrappingAdd(old(animationFrame), 1)
      ensures autoHarvest == old(autoHarvest) && visualMode == old(visualMode) && palette == old(palette)
      ensures old(currentPlant) == null ==>
        currentPlant == null && harvestHistory == old(harvestHistory) && totalHarvests == old(totalHarvests)
      ensures old(currentPlant) != null ==>
        Developed(old(currentPlant), HoursElapsed(elapsedSeconds), sin) && CaredFor(old(currentPlant), HoursElapsed(elapsedSeconds))
      ensures old(currentPlant) != null ==>
        var p := old(currentPlant);
        if autoHarvest && p.stage == ReadyToHarvest && p.daysAlive >= 96 then
          && harvestHistory == old(harvestHistory) + [FromPlant(p)]
          && totalHarvests == old(totalHarvests) + 1
          && currentPlant != null && fresh(currentPlant) && currentPlant.Initial(nextId, nextGenetics)
        else
          currentPlant == p && harvestHistory == old(harvestHistory) && totalHarvests == old(totalHarvests)
      ensures old(currentPlant) != null && old(currentPlant.Valid()) && elapsedSeconds >= 0.0 ==>
        currentPlant != null && currentPlant.Valid()
    {
      if currentPlant != null {
        var plant := currentPlant;
        TickPlant(plant, elapsedSeconds, sin);
        if autoHarvest && plant.stage == ReadyToHarvest && plant.daysAlive >= 96 {
          HarvestAndReplant(nextId, nextGenetics);
        }
      }
      animationFrame := WrappingAdd(animationFrame, 1);
    }
  }
}

=== FILE: art.dfy ===
/** The branch phase, the soil line and the assembled picture of `render_plant_structure`,
    and `get_plant_ascii`. Each branch contributes strokes painted only onto blank cells:
    its cells out from the trunk, two foliage marks above it, and two short sub-branches
    once it bifurcates. */
module Art {
  import opened Prelude
  import opened Domain
  import opened Structure
  import opened Render

  /** What the stage, the frame and the day choose for one picture: whether flowers show,
      the flower glyph, and the current foliage density. */
  datatype Look = Look(showFlowers: bool, flower: char, foliage: real)

  /** A character that takes one byte in UTF-8. */
  predicate Narrow(c: char)
  {
    c as int < 0x80
  }

  /** Strokes whose glyphs all take one byte. */
  predicate NarrowStrokes(ts: seq<Stroke>)
  {
    forall t :: t in ts ==> Narrow(t.glyph)
  }

  /** The assumptions the branch phase makes of a branch: it points left or right, bends by
      at most one row per step, and sits on a row of the buffer. */
  ghost predicate Drawable(b: Branch)
  {
    (b.direction == -1 || b.direction == 1) && -1 <= b.curve <= 1 && 0 < b.maxLength <= 13 && b.level <= 27
  }

  /** The assumptions of the whole renderer; every generated structure meets them. */
  ghost predicate Renderable(st: PlantStructure)
  {
    st.maxHeight <= 27 && AllSplitsInRange(st.trunkSplits) && forall b :: b in st.branches ==> Drawable(b)
  }

  lemma WellFormedRenderable(st: PlantStructure)
    requires WellFormed(st)
    ensures Renderable(st)
  {
  }

  // ---------------------------------------------------------------------------
  // The cells of one branch
  // ---------------------------------------------------------------------------

  /** `center + i * direction` for a direction of -1 or 1. */
  function Column(i: nat, direction: int): int
    requires direction == -1 || direction == 1
  {
    if direction < 0 then 35 - i else 35 + i
  }

  /** Row of the `i`-th cell of a branch on row `level`: from the third cell on, a curved
      branch moves `(i - 2) / 2` rows against the sign of its curve, clamped to the buffer. */
  function CellRow(level: int, i: nat, curve: int): int
    requires -1 <= curve <= 1
  {
    if curve != 0 && i > 2 then Clamp(level - (if curve > 0 then (i - 2) / 2 else -((i - 2) / 2)), 0, 27)
    else level
  }

  /** The glyph of the `i`-th of `n` cells: the flower at the tip when flowers show, a
      connector next to the trunk, at the tip a slash whose lean depends on the foliage, a
      slash along the curved part, and otherwise `=` for thick and `_` for thin wood. */
  function BranchGlyph(i: nat, n: nat, b: Branch, look: Look): (c: char)
    ensures c == look.flower || c in "\\/=#_"
    ensures i == n && look.showFlowers ==> c == look.flower
    ensures (i != n || !look.showFlowers) && i == 1 ==> IsSlash(c)
  {
    if i == n && look.showFlowers then look.flower
    else if i == 1 then (if b.direction < 0 then '\\' else '/')
    else if i == n then
      (if look.foliage > 0.6 then (if b.direction < 0 then '\\' else '/') else (if b.direction < 0 then '/' else '\\'))
    else if b.curve != 0 && i > 2 then (if b.curve > 0 then '/' else '\\')
    else match b.thickness
      case 2 => '='
      case 3 => '#'
      case _ => '_'
  }

  /** The cells `i` to `n` of a branch whose trunk row is `level`; drawing stops at the first
      cell off the buffer. */
  function CellsFrom(i: nat, n: nat, level: int, b: Branch, look: Look): (ts: seq<Stroke>)
    requires 1 <= i && Drawable(b)
    ensures AllFit(ts)
    ensures Narrow(look.flower) ==> NarrowStrokes(ts)
    decreases n + 1 - i
  {
    if i > n then []
    else
      var x := Column(i, b.direction);
      var y := CellRow(level, i, b.curve);
      if !(0 <= x < 70 && 0 <= y < 28) then []
      else [Stroke(y, x, BranchGlyph(i, n, b, look))] + CellsFrom(i + 1, n, level, b, look)
  }

  /** A branch no longer than the distance to the edge, on a row of the buffer, is never cut
      short: it has its `n` cells, the `k`-th one `k + 1` columns out from the trunk. */
  lemma {:induction false} CellsComplete(i: nat, n: nat, level: int, b: Branch, look: Look)
    requires 1 <= i && Drawable(b) && n < 35 && 0 <= level < 28
    ensures var ts := CellsFrom(i, n, level, b, look);
            |ts| == n + 1 - i || (i > n && ts == [])
    ensures var ts := CellsFrom(i, n, level, b, look);
            forall k :: 0 <= k < |ts| ==> ts[k].col == Column(i + k, b.direction) && ts[k].glyph == BranchGlyph(i + k, n, b, look)
    decreases n + 1 - i
  {
    if i <= n {
      var ts := CellsFrom(i, n, level, b, look);
      var rest := CellsFrom(i + 1, n, level, b, look);
      CellsComplete(i + 1, n, level, b, look);
      var head := Stroke(CellRow(level, i, b.curve), Column(i, b.direction), BranchGlyph(i, n, b, look));
      assert ts == [head] + rest;
      assert forall k :: 0 < k < |ts| ==> ts[k] == rest[k - 1];
    }
  }

  /** When flowers show, every drawn branch ends in a flower; its first cell is a connector. */
  lemma FlowerAtTip(n: nat, level: int, b: Branch, look: Look)
    requires Drawable(b) && 1 <= n < 35 && 0 <= level < 28
    ensures var ts := CellsFrom(1, n, level, b, look);
            |ts| == n && (look.showFlowers ==> ts[n - 1].glyph == look.flower)
            && (n > 1 || !look.showFlowers ==> IsSlash(ts[0].glyph))
  {
    CellsComplete(1, n, level, b, look);
  }

  // ---------------------------------------------------------------------------
  // Foliage and sub-branches
  // ---------------------------------------------------------------------------

  /** The foliage mark `offset` cells in from the tip of a branch of `n` cells, on the row
      above it: only strictly between the left edge and column 34, in the upper half of the
      buffer, and only when the foliage is denser than 0.6; `*` and `.` when flowers show,
      `:` otherwise. */
  function FoliageCell(offset: nat, n: nat, level: int, b: Branch, look: Look): (t: Option<Stroke>)
    requires offset <= n && Drawable(b)
    ensures t.Some? ==> Fits(t.value) && 0 < t.value.col < 34 && t.value.row < 14 && t.value.row + 1 == level
    ensures t.Some? ==> Narrow(t.value.glyph)
  {
    var x := Column(n - offset, b.direction);
    var y := level - 1;
    if 0 < x < 34 && 0 <= y < 14 && look.foliage > 0.6 then
      Some(Stroke(y, x, if look.showFlowers then (if offset == 1 then '*' else '.') else ':'))
    else None
  }

  /** The foliage marks from `offset` to 2. */
  function FoliageFrom(offset: nat, n: nat, level: int, b: Branch, look: Look): (ts: seq<Stroke>)
    requires 1 <= offset && 3 <= n && Drawable(b)
    ensures AllFit(ts)
    ensures forall k :: 0 <= k < |ts| ==> 0 < ts[k].col < 34 && ts[k].row < 14 && ts[k].row + 1 == level
    ensures NarrowStrokes(ts)
    decreases 3 - offset
  {
    if offset > 2 then []
    else match FoliageCell(offset, n, level, b, look)
      case Some(t) => [t] + FoliageFrom(offset + 1, n, level, b, look)
      case None => FoliageFrom(offset + 1, n, level, b, look)
  }

  /** The foliage of a branch of `n` cells: only denser than 0.5, from three cells on, and
      not for a branch on the top row. */
  function FoliageStrokes(n: nat, level: int, b: Branch, look: Look): (ts: seq<Stroke>)
    requires Drawable(b) && 0 <= level < 28
    ensures AllFit(ts)
    ensures forall k :: 0 <= k < |ts| ==> 0 < ts[k].col < 34 && ts[k].row < 14
    ensures look.foliage <= 0.6 ==> ts == []
    ensures NarrowStrokes(ts)
  {
    if look.foliage > 0.5 && n >= 3 && level > 0 then FoliageFrom(1, n, level, b, look) else []
  }

  /** Step `i` (1 or 2) of the sub-branch on side `side` (0 for the left one, 1 for the
      right one): `i` columns out from the split point and `i / 2` rows up, a flower at the
      outer step when flowers show and a slash leaning outwards otherwise; nothing when the
      cell is off the buffer. */
  function SubCell(side: nat, i: nat, split: nat, level: int, b: Branch, look: Look): (t: Option<Stroke>)
    requires Drawable(b)
    ensures t.Some? ==> Fits(t.value)
    ensures t.Some? && Narrow(look.flower) ==> Narrow(t.value.glyph)
  {
    var base := Column(split, b.direction);
    var x := if side == 0 then base - i else base + i;
    var y := level - i / 2;
    if 0 <= x < 70 && 0 <= y < 28 then
      Some(Stroke(y, x, if i == 2 && look.showFlowers then look.flower else if side == 0 then '\\' else '/'))
    else None
  }

  /** The sub-branch cells from step `i` of side `side` on, left side first. */
  function SubFrom(side: nat, i: nat, split: nat, level: int, b: Branch, look: Look): (ts: seq<Stroke>)
    requires side <= 2 && 1 <= i <= 3 && Drawable(b)
    ensures AllFit(ts)
    ensures Narrow(look.flower) ==> NarrowStrokes(ts)
    decreases 2 - side, 3 - i
  {
    if side == 2 then []
    else if i == 3 then SubFrom(side + 1, 1, split, level, b, look)
    else match SubCell(side, i, split, level, b, look)
      case Some(t) => [t] + SubFrom(side, i + 1, split, level, b, look)
      case None => SubFrom(side, i + 1, split, level, b, look)
  }

  /** Split point of a bifurcating branch: two thirds along it, at least the second cell. */
  function SplitPoint(n: nat): (p: nat)
    ensures 2 <= p && (n >= 3 ==> p < n)
  {
    Max(n * 2 / 3, 2)
  }

  /** The sub-branches of a branch of `n` cells: only once it bifurcates and from three cells on. */
  function SubStrokes(n: nat, level: int, b: Branch, day: nat, look: Look): (ts: seq<Stroke>)
    requires Drawable(b)
    ensures AllFit(ts)
    ensures !b.canBifurcate || day < b.bifurcationDay || n < 3 ==> ts == []
    ensures Narrow(look.flower) ==> NarrowStrokes(ts)
  {
    if b.canBifurcate && day >= b.bifurcationDay && n >= 3 then SubFrom(0, 1, SplitPoint(n), level, b, look) else []
  }

  // ---------------------------------------------------------------------------
  // One branch and all of them
  // ---------------------------------------------------------------------------

  /** The number of cells drawn for a branch: none for a branch on the soil row, one the trunk
      has not reached yet, or one shorter than half a cell; otherwise its length rounded up. */
  function DrawnLength(b: Branch, height: nat, day: nat, exp: real -> real): (n: nat)
    requires Drawable(b) && Positive(exp)
    ensures n <= b.maxLength
    ensures n > 0 <==> 1 <= b.level <= height && BranchLength(b, day, exp) >= 0.5
    ensures n > 0 ==> b.growthStartDay <= day && BranchLength(b, day, exp) <= n as real < BranchLength(b, day, exp) + 1.0
  {
    if b.level == 0 || b.level > height then 0
    else
      var len := BranchLength(b, day, exp);
      if len < 0.5 then 0 else Ceil(len)
  }

  /** The strokes of one branch: its cells, then its foliage, then its sub-branches. */
  function BranchStrokes(b: Branch, height: nat, day: nat, exp: real -> real, look: Look): (ts: seq<Stroke>)
    requires Drawable(b) && Positive(exp)
    ensures AllFit(ts)
    ensures Narrow(look.flower) ==> NarrowStrokes(ts)
  {
    var n := DrawnLength(b, height, day, exp);
    var level := 27 - b.level;
    if n == 0 then []
    else CellsFrom(1, n, level, b, look) + FoliageStrokes(n, level, b, look) + SubStrokes(n, level, b, day, look)
  }

  /** The strokes of a list of branches, one branch after the other. */
  function BranchesFrom(bs: seq<Branch>, height: nat, day: nat, exp: real -> real, look: Look): (ts: seq<Stroke>)
    requires (forall b :: b in bs ==> Drawable(b)) && Positive(exp)
    ensures AllFit(ts)
    ensures Narrow(look.flower) ==> NarrowStrokes(ts)
    decreases |bs|
  {
    if bs == [] then []
    else BranchStrokes(bs[0], height, day, exp, look) + BranchesFrom(bs[1..], height, day, exp, look)
  }

  // ---------------------------------------------------------------------------
  // The branch loop
  // ---------------------------------------------------------------------------

  /** `if lines[y][x] == ' ' { lines[y][x] = c }`: one stroke painted, as the first of a list
      still to paint. */
  method PaintCell(lines: Grid, t: Stroke, rest: seq<Stroke>) returns (lines': Grid)
    requires IsGrid(lines) && Fits(t) && AllFit(rest)
    ensures IsGrid(lines') && AllFit([t] + rest)
    ensures PaintAll(lines', rest) == PaintAll(lines, [t] + rest)
  {
    PaintAllAppend(lines, [t], rest);
    PaintAllOne(lines, t);
    lines' := lines;
    if lines[t.row][t.col] == ' ' {
      lines' := lines[t.row := lines[t.row][t.col := t.glyph]];
    }
  }

  /** `for i in 1..=length_int`: the cells of a branch out from the trunk, each written only
      onto a blank cell, stopping at the first one off the buffer. */
  method DrawCells(lines: Grid, n: nat, level: int, b: Branch, look: Look) returns (lines': Grid)
    requires IsGrid(lines) && Drawable(b)
    ensures lines' == PaintAll(lines, CellsFrom(1, n, level, b, look))
  {
    lines' := lines;
    var i := 1;
    while i <= n
      invariant 1 <= i && IsGrid(lines')
      invariant PaintAll(lines', CellsFrom(i, n, level, b, look)) == PaintAll(lines, CellsFrom(1, n, level, b, look))
      decreases n + 1 - i
    {
      var x := Column(i, b.direction);
      var y := CellRow(level, i, b.curve);
      if x < 0 || x >= 70 || y < 0 || y >= 28 {
        break;
      }
      var ch := BranchGlyph(i, n, b, look);
      assert CellsFrom(i, n, level, b, look) == [Stroke(y, x, ch)] + CellsFrom(i + 1, n, level, b, look);
      lines' := PaintCell(lines', Stroke(y, x, ch), CellsFrom(i + 1, n, level, b, look));
      i := i + 1;
    }
  }

  /** `for offset in 1..=2`: a foliage mark on the row above the branch, `offset` cells in
      from its tip, written only onto a blank cell. */
  method DrawFoliageMarks(lines: Grid, n: nat, level: int, b: Branch, look: Look) returns (lines': Grid)
    requires IsGrid(lines) && Drawable(b) && 3 <= n && 0 < level < 28
    ensures lines' == PaintAll(lines, FoliageFrom(1, n, level, b, look))
  {
    lines' := lines;
    for offset: nat := 1 to 3
      invariant IsGrid(lines')
      invariant PaintAll(lines', FoliageFrom(offset, n, level, b, look)) == PaintAll(lines, FoliageFrom(1, n, level, b, look))
    {
      var cell := FoliageCell(offset, n, level, b, look);
      if cell.Some? {
        lines' := PaintCell(lines', cell.value, FoliageFrom(offset + 1, n, level, b, look));
      }
    }
  }

  /** The foliage effect, for foliage denser than 0.5 on a branch of three cells or more
      below the top row. */
  method DrawFoliage(lines: Grid, n: nat, level: int, b: Branch, look: Look) returns (lines': Grid)
    requires IsGrid(lines) && Drawable(b) && 0 <= level < 28
    ensures lines' == PaintAll(lines, FoliageStrokes(n, level, b, look))
  {
    lines' := lines;
    if look.foliage > 0.5 && n >= 3 && level > 0 {
      lines' := DrawFoliageMarks(lines, n, level, b, look);
    }
  }

  /** `for i in 1..=2` for one side of the bifurcation: both cells of that sub-branch, each
      written only onto a blank cell; what is left to paint is the other side. */
  method DrawSubBranch(lines: Grid, side: nat, split: nat, level: int, b: Branch, look: Look) returns (lines': Grid)
    requires IsGrid(lines) && side < 2 && Drawable(b)
    ensures IsGrid(lines')
    ensures PaintAll(lines', SubFrom(side + 1, 1, split, level, b, look)) == PaintAll(lines, SubFrom(side, 1, split, level, b, look))
  {
    lines' := lines;
    for i: nat := 1 to 3
      invariant IsGrid(lines')
      invariant PaintAll(lines', SubFrom(side, i, split, level, b, look)) == PaintAll(lines, SubFrom(side, 1, split, level, b, look))
    {
      var cell := SubCell(side, i, split, level, b, look);
      if cell.Some? {
        lines' := PaintCell(lines', cell.value, SubFrom(side, i + 1, split, level, b, look));
      }
    }
  }

  /** `for sub_dir in [-1, 1]`: the two sub-branches from the split point, left first. */
  method DrawBifurcation(lines: Grid, split: nat, level: int, b: Branch, look: Look) returns (lines': Grid)
    requires IsGrid(lines) && Drawable(b)
    ensures lines' == PaintAll(lines, SubFrom(0, 1, split, level, b, look))
  {
    lines' := lines;
    for side: nat := 0 to 2
      invariant IsGrid(lines')
      invariant PaintAll(lines', SubFrom(side, 1, split, level, b, look)) == PaintAll(lines, SubFrom(0, 1, split, level, b, look))
    {
      lines' := DrawSubBranch(lines', side, split, level, b, look);
    }
  }

  /** The bifurcation of a branch that has reached its bifurcation day and three cells, with
      the split point two thirds along it. */
  method DrawSubBranches(lines: Grid, n: nat, level: int, b: Branch, day: nat, look: Look) returns (lines': Grid)
    requires IsGrid(lines) && Drawable(b)
    ensures lines' == PaintAll(lines, SubStrokes(n, level, b, day, look))
  {
    lines' := lines;
    if b.canBifurcate && day >= b.bifurcationDay && n >= 3 {
      lines' := DrawBifurcation(lines, SplitPoint(n), level, b, look);
    }
  }

  /** One pass of the branch loop: skip a branch on the soil row, one the trunk has not
      reached, and one shorter than half a cell; otherwise draw its cells, its foliage and its
      sub-branches. */
  method DrawBranch(lines: Grid, b: Branch, height: nat, day: nat, exp: real -> real, look: Look) returns (lines': Grid)
    requires IsGrid(lines) && Drawable(b) && Positive(exp)
    ensures lines' == PaintAll(lines, BranchStrokes(b, height, day, exp, look))
  {
    lines' := lines;
    var level := 27 - b.level;
    if level >= 27 {
      return;
    }
    if b.level > height {
      return;
    }
    var len := BranchLength(b, day, exp);
    if len < 0.5 {
      return;
    }
    var n: nat := Ceil(len);
    var cells := CellsFrom(1, n, level, b, look);
    var foliage := FoliageStrokes(n, level, b, look);
    PaintAllAppend(lines, cells + foliage, SubStrokes(n, level, b, day, look));
    PaintAllAppend(lines, cells, foliage);
    lines' := DrawCells(lines', n, level, b, look);
    lines' := DrawFoliage(lines', n, level, b, look);
    lines' := DrawSubBranches(lines', n, level, b, day, look);
  }

  /** `for branch in visible.iter()`. */
  method DrawBranches(lines: Grid, bs: seq<Branch>, height: nat, day: nat, exp: real -> real, look: Look) returns (lines': Grid)
    requires IsGrid(lines) && (forall b :: b in bs ==> Drawable(b)) && Positive(exp)
    ensures lines' == PaintAll(lines, BranchesFrom(bs, height, day, exp, look))
  {
    lines' := lines;
    for k: nat := 0 to |bs|
      invariant IsGrid(lines')
      invariant PaintAll(lines', BranchesFrom(bs[k..], height, day, exp, look)) == PaintAll(lines, BranchesFrom(bs, height, day, exp, look))
    {
      assert bs[k..][1..] == bs[k + 1..];
      PaintAllAppend(lines', BranchStrokes(bs[k], height, day, exp, look), BranchesFrom(bs[k + 1..], height, day, exp, look));
      lines' := DrawBranch(lines', bs[k], height, day, exp, look);
    }
  }

  // ---------------------------------------------------------------------------
  // The soil line
  // ---------------------------------------------------------------------------

  /** The soil line is 38 `~`, drawn on the bottom row from column 16. */
  const SOIL_LENGTH: nat := 38

  /** The soil cells from the `i`-th on. */
  function SoilFrom(i: nat): (ts: seq<Stroke>)
    requires i <= SOIL_LENGTH
    ensures AllFit(ts)
    decreases SOIL_LENGTH - i
  {
    if i == SOIL_LENGTH then [] else [Stroke(27, 16 + i, '~')] + SoilFrom(i + 1)
  }

  /** `for (i, c) in soil.chars().enumerate()`: the soil written over whatever is there. */
  method DrawSoil(lines: Grid) returns (lines': Grid)
    requires IsGrid(lines)
    ensures lines' == PutAll(lines, SoilFrom(0))
  {
    lines' := lines;
    for i: nat := 0 to SOIL_LENGTH
      invariant IsGrid(lines')
      invariant forall y, x :: 0 <= y < 28 && 0 <= x < 70 ==>
                  lines'[y][x] == (if y == 27 && 16 <= x < 16 + i then '~' else lines[y][x])
    {
      var x := 16 + i;
      if x < 70 {
        lines' := lines'[27 := lines'[27][x := '~']];
      }
    }
    forall y, x | 0 <= y < 28 && 0 <= x < 70
      ensures lines'[y][x] == PutAll(lines, SoilFrom(0))[y][x]
    {
      SoilEffect(lines, 0, y, x);
    }
    SameCells(lines', PutAll(lines, SoilFrom(0)));
  }

  /** Writing the soil changes exactly the cells of the soil line, to `~`. */
  lemma {:induction false} SoilEffect(g: Grid, i: nat, y: nat, x: nat)
    requires IsGrid(g) && i <= SOIL_LENGTH && y < 28 && x < 70
    ensures PutAll(g, SoilFrom(i))[y][x] == (if y == 27 && 16 + i <= x < 54 then '~' else g[y][x])
    decreases SOIL_LENGTH - i
  {
    if i < SOIL_LENGTH {
      var t := Stroke(27, 16 + i, '~');
      PutAllAppend(g, [t], SoilFrom(i + 1));
      PutAllShort(g, t, t, t);
      assert SoilFrom(i) == [t] + SoilFrom(i + 1);
      SoilEffect(Put(g, t), i + 1, y, x);
    }
  }

  /** The whole soil line of a grid after the soil is written is `~`. */
  lemma SoilLine(g: Grid)
    requires IsGrid(g)
    ensures forall x :: 16 <= x < 54 ==> PutAll(g, SoilFrom(0))[27][x] == '~'
  {
    forall x | 16 <= x < 54
      ensures PutAll(g, SoilFrom(0))[27][x] == '~'
    {
      SoilEffect(g, 0, 27, x);
    }
  }

  // ---------------------------------------------------------------------------
  // The picture
  // ---------------------------------------------------------------------------

  /** The buffer after the trunk phase. */
  function TrunkPhase(st: PlantStructure, day: nat, trunk: char): (g: Grid)
    requires Renderable(st)
    ensures IsGrid(g)
  {
    PutAll(Blank(), TrunkStrokes(st, day, trunk))
  }

  /** The strokes of the branch phase: those of every branch visible on the day, in order. */
  function AllBranchStrokes(st: PlantStructure, day: nat, look: Look, exp: real -> real): (ts: seq<Stroke>)
    requires Renderable(st) && Positive(exp)
    ensures AllFit(ts)
    ensures Narrow(look.flower) ==> NarrowStrokes(ts)
  {
    BranchesFrom(VisibleBranches(st.branches, day), TrunkHeight(st, day), day, exp, look)
  }

  /** The buffer after the branch phase: the visible branches painted over the trunk. */
  function BranchPhase(st: PlantStructure, day: nat, trunk: char, look: Look, exp: real -> real): (g: Grid)
    requires Renderable(st) && Positive(exp)
    ensures IsGrid(g)
  {
    PaintAll(TrunkPhase(st, day, trunk), AllBranchStrokes(st, day, look, exp))
  }

  /** The finished 28 x 70 buffer: trunk, branches, then the soil line. */
  function Picture(st: PlantStructure, day: nat, trunk: char, look: Look, exp: real -> real): (g: Grid)
    requires Renderable(st) && Positive(exp)
    ensures IsGrid(g)
    ensures forall x :: 16 <= x < 54 ==> g[27][x] == '~'
  {
    SoilLine(BranchPhase(st, day, trunk, look, exp));
    PutAll(BranchPhase(st, day, trunk, look, exp), SoilFrom(0))
  }

  // ---------------------------------------------------------------------------
  // From rows of characters to lines of text
  // ---------------------------------------------------------------------------

  /** The number of bytes a character takes in UTF-8. */
  function Utf8Len(c: char): (k: nat)
    ensures 1 <= k <= 4
    ensures c == ' ' ==> k == 1
  {
    if c as int < 0x80 then 1 else if c as int < 0x800 then 2 else if c as int < 0x10000 then 3 else 4
  }

  /** The number of bytes of a string in UTF-8. */
  function Utf8Size(s: string): (k: nat)
    ensures k >= |s|
  {
    if s == [] then 0 else Utf8Len(s[0]) + Utf8Size(s[1..])
  }

  /** `s.get(..bytes)`: the characters making up the first `bytes` bytes, or nothing when
      that many bytes do not end on a character boundary of `s`. */
  function BytePrefix(s: string, bytes: nat): (r: Option<string>)
    ensures r.Some? ==> r.value <= s && Utf8Size(r.value) == bytes
  {
    if bytes == 0 then Some([])
    else if s == [] || Utf8Len(s[0]) > bytes then None
    else match BytePrefix(s[1..], bytes - Utf8Len(s[0]))
      case None => None
      case Some(p) => Some([s[0]] + p)
  }

  /** A string of fewer than `bytes` UTF-8 bytes has no prefix of that many bytes, and one
      of exactly `bytes` bytes is its own prefix. */
  lemma {:induction false} WholePrefix(s: string, bytes: nat)
    ensures Utf8Size(s) < bytes ==> BytePrefix(s, bytes) == None
    ensures Utf8Size(s) == bytes ==> BytePrefix(s, bytes) == Some(s)
  {
    if s != [] && Utf8Size(s) <= bytes {
      WholePrefix(s[1..], bytes - Utf8Len(s[0]));
      assert [s[0]] + s[1..] == s;
    }
  }

  /** The UTF-8 size of a concatenation is the sum of the sizes. */
  lemma {:induction false} Utf8SizeAppend(a: string, b: string)
    ensures Utf8Size(a + b) == Utf8Size(a) + Utf8Size(b)
  {
    if a == [] {
      assert a + b == b;
    } else {
      Utf8SizeAppend(a[1..], b);
      assert (a + b)[0] == a[0] && (a + b)[1..] == a[1..] + b;
    }
  }

  /** A string of one-byte characters takes one byte per character. */
  lemma {:induction false} NarrowSize(s: string)
    requires forall i :: 0 <= i < |s| ==> Narrow(s[i])
    ensures Utf8Size(s) == |s|
  {
    if s != [] {
      assert forall i :: 0 <= i < |s| - 1 ==> s[1..][i] == s[i + 1];
      NarrowSize(s[1..]);
    }
  }

  /** Every prefix of `s` that is no larger in UTF-8 than its prefix `t` is a prefix of `t`
      itself, or `t` is all of `s`. */
  lemma KeptPrefixes(s: string, t: string, bytes: nat)
    requires t <= s && (t == s || Utf8Size(t) == bytes)
    ensures forall k :: 0 <= k <= |s| && Utf8Size(s[..k]) <= bytes ==> s[..k] <= t
  {
    forall k | 0 <= k <= |s| && Utf8Size(s[..k]) <= bytes
      ensures s[..k] <= t
    {
      if k > |t| {
        assert s[..k] == t + s[|t|..k];
        Utf8SizeAppend(t, s[|t|..k]);
        assert false;
      }
      assert s[..k] == t[..k];
    }
  }

  /** `format!("{:70}", s.get(..70).unwrap_or(&s))`: the first 70 bytes' worth of a row, or
      the whole row when 70 bytes end inside a character, padded with spaces to 70 characters.
      A row of at most 70 bytes is kept whole, a row of 70 characters stays 70 wide, and
      every leading part of the row that fits in 70 bytes is printed as it is. */
  function FormatRow(s: string): (r: string)
    ensures |r| >= 70
    ensures Utf8Size(s) <= 70 ==> r == s + seq(70 - |s|, _ => ' ')
    ensures |s| == 70 ==> |r| == 70
    ensures forall k :: 0 <= k <= |s| && Utf8Size(s[..k]) <= 70 ==> s[..k] <= r
  {
    WholePrefix(s, 70);
    var t := match BytePrefix(s, 70) case Some(p) => p case None => s;
    assert |s| == 70 ==> |t| <= 70;
    KeptPrefixes(s, t, 70);
    if |t| >= 70 then t else t + seq(70 - |t|, _ => ' ')
  }

  /** The lines of text of a buffer. */
  function Lines(g: Grid): (rows: seq<string>)
    requires IsGrid(g)
    ensures |rows| == 28 && forall y :: 0 <= y < 28 ==> |rows[y]| == 70
  {
    seq(28, y requires 0 <= y < 28 => FormatRow(g[y]))
  }

  /** `render_plant_structure`. */
  method RenderPlantStructure(day: nat, st: PlantStructure, frame: nat, showFlowers: bool, flower: string,
                              stage: GrowthStage, exp: real -> real) returns (rows: seq<string>)
    requires Renderable(st) && Positive(exp)
    ensures rows == Lines(Picture(st, day, TrunkGlyph(stage, frame),
                                  Look(showFlowers, FlowerGlyph(flower), CurrentFoliageDensity(st, day)), exp))
    ensures forall x :: 16 <= x < 54 ==> rows[27][x] == '~'
  {
    var lines := Blank();
    var trunk := TrunkGlyph(stage, frame);
    lines := DrawTrunk(lines, st, day, trunk);
    var visible := VisibleBranches(st.branches, day);
    var look := Look(showFlowers, FlowerGlyph(flower), CurrentFoliageDensity(st, day));
    lines := DrawBranches(lines, visible, TrunkHeight(st, day), day, exp, look);
    lines := DrawSoil(lines);
    rows := seq(28, y requires 0 <= y < 28 => FormatRow(lines[y]));
    SoilInOutput(st, day, trunk, look, exp);
  }

  /** `get_plant_ascii`'s picture: the structure of the seed, with the blossom of the stage,
      the trunk glyph of the frame and the density of the foliage on that day. */
  function PlantPicture(seed: U64, stage: GrowthStage, day: nat, frame: nat, exp: real -> real): (g: Grid)
    requires Positive(exp)
    ensures IsGrid(g)
  {
    var st := StructureOf(seed);
    GeneratedWellFormed(seed);
    WellFormedRenderable(st);
    var (showFlowers, flower) := Blossom(stage, frame);
    Picture(st, day, TrunkGlyph(stage, frame), Look(showFlowers, FlowerGlyph(flower), CurrentFoliageDensity(st, day)), exp)
  }

  /** `get_plant_ascii`: the structure of the seed, from the cache, rendered for the stage. */
  method GetPlantAscii(cache: StructureCache, stage: GrowthStage, day: nat, seed: U64, frame: nat, exp: real -> real)
    returns (rows: seq<string>)
    requires cache.Valid() && Positive(exp)
    modifies cache
    ensures cache.Valid() && seed in cache.entries
    ensures rows == Lines(PlantPicture(seed, stage, day, frame, exp))
    ensures |rows| == 28 && forall y :: 0 <= y < 28 ==> |rows[y]| == 70
    ensures forall x :: 16 <= x < 54 ==> rows[27][x] == '~'
  {
    var st := cache.GetOrGenerate(seed);
    GeneratedWellFormed(seed);
    WellFormedRenderable(st);
    var (showFlowers, flower) := Blossom(stage, frame);
    rows := RenderPlantStructure(day, st, frame, showFlowers, flower, stage, exp);
  }

  // ---------------------------------------------------------------------------
  // What the picture promises
  // ---------------------------------------------------------------------------

  /** The soil line is drawn last: the cells 16 to 53 of the bottom row are `~`, whatever
      the trunk and the branches put there, and every other cell is the branch phase's. */
  lemma SoilOnTop(st: PlantStructure, day: nat, trunk: char, look: Look, exp: real -> real, y: nat, x: nat)
    requires Renderable(st) && Positive(exp) && y < 28 && x < 70
    ensures y == 27 && 16 <= x < 54 ==> Picture(st, day, trunk, look, exp)[y][x] == '~'
    ensures !(y == 27 && 16 <= x < 54) ==>
              Picture(st, day, trunk, look, exp)[y][x] == BranchPhase(st, day, trunk, look, exp)[y][x]
  {
    SoilEffect(BranchPhase(st, day, trunk, look, exp), 0, y, x);
  }

  /** Branches never draw over the trunk: a cell the trunk phase filled keeps its glyph in
      the picture unless it lies under the soil line. */
  lemma TrunkShowsThrough(st: PlantStructure, day: nat, trunk: char, look: Look, exp: real -> real, y: nat, x: nat)
    requires Renderable(st) && Positive(exp) && y < 28 && x < 70
    requires TrunkPhase(st, day, trunk)[y][x] != ' ' && !(y == 27 && 16 <= x < 54)
    ensures Picture(st, day, trunk, look, exp)[y][x] == TrunkPhase(st, day, trunk)[y][x]
  {
    PaintKeepsNonBlank(TrunkPhase(st, day, trunk), AllBranchStrokes(st, day, look, exp), y, x);
    SoilOnTop(st, day, trunk, look, exp, y, x);
  }

  /** Every cell the branch phase changes was blank after the trunk phase and holds the
      glyph of a stroke of one of the visible branches aimed at it. */
  lemma BranchCellsFromStrokes(st: PlantStructure, day: nat, trunk: char, look: Look, exp: real -> real, y: nat, x: nat)
    requires Renderable(st) && Positive(exp) && y < 28 && x < 70
    requires BranchPhase(st, day, trunk, look, exp)[y][x] != TrunkPhase(st, day, trunk)[y][x]
    ensures TrunkPhase(st, day, trunk)[y][x] == ' '
    ensures Stroke(y, x, BranchPhase(st, day, trunk, look, exp)[y][x]) in AllBranchStrokes(st, day, look, exp)
  {
    PaintOnlyAtStrokes(TrunkPhase(st, day, trunk), AllBranchStrokes(st, day, look, exp), y, x);
  }

  /** A row of one-byte characters fits the 70-byte cut exactly. */
  lemma {:induction false} AsciiPrefix(s: string, bytes: nat)
    requires bytes <= |s| && forall i :: 0 <= i < |s| ==> s[i] as int < 0x80
    ensures BytePrefix(s, bytes) == Some(s[..bytes])
  {
    if bytes > 0 {
      AsciiPrefix(s[1..], bytes - 1);
      assert [s[0]] + s[1..][..bytes - 1] == s[..bytes];
    }
  }

  /** A row of 70 one-byte characters is printed as it is. */
  lemma AsciiRowUnchanged(s: string)
    requires |s| == 70 && forall i :: 0 <= i < |s| ==> s[i] as int < 0x80
    ensures FormatRow(s) == s
  {
    AsciiPrefix(s, 70);
    assert s[..70] == s;
  }

  /** The cells of a branch lie at column 22 or further right: a branch is at most 13 long. */
  lemma {:induction false} CellsRightOf21(i: nat, n: nat, level: int, b: Branch, look: Look)
    requires 1 <= i && Drawable(b) && n <= b.maxLength
    ensures forall t :: t in CellsFrom(i, n, level, b, look) ==> t.col >= 22
    decreases n + 1 - i
  {
    if i <= n {
      CellsRightOf21(i + 1, n, level, b, look);
    }
  }

  /** The sub-branch cells of a bifurcation at cell `split` of at most 12 lie at column 21 or
      further right. */
  lemma {:induction false} SubRightOf20(side: nat, i: nat, split: nat, level: int, b: Branch, look: Look)
    requires side <= 2 && 1 <= i <= 3 && Drawable(b) && split <= 12
    ensures forall t :: t in SubFrom(side, i, split, level, b, look) ==> t.col >= 21
    decreases 2 - side, 3 - i
  {
    if side == 2 {
    } else if i == 3 {
      SubRightOf20(side + 1, 1, split, level, b, look);
    } else {
      SubRightOf20(side, i + 1, split, level, b, look);
    }
  }

  /** No stroke of a branch lands on the bottom row left of the soil line. */
  lemma BranchClearOfBottomLeft(b: Branch, height: nat, day: nat, exp: real -> real, look: Look)
    requires Drawable(b) && Positive(exp)
    ensures forall t :: t in BranchStrokes(b, height, day, exp, look) ==> t.row < 27 || t.col >= 16
  {
    var n := DrawnLength(b, height, day, exp);
    if n > 0 {
      var level := 27 - b.level;
      CellsRightOf21(1, n, level, b, look);
      if b.canBifurcate && day >= b.bifurcationDay && n >= 3 {
        SubRightOf20(0, 1, SplitPoint(n), level, b, look);
      }
    }
  }

  lemma {:induction false} BranchesClearOfBottomLeft(bs: seq<Branch>, height: nat, day: nat, exp: real -> real, look: Look)
    requires (forall b :: b in bs ==> Drawable(b)) && Positive(exp)
    ensures forall t :: t in BranchesFrom(bs, height, day, exp, look) ==> t.row < 27 || t.col >= 16
    decreases |bs|
  {
    if bs != [] {
      BranchClearOfBottomLeft(bs[0], height, day, exp, look);
      BranchesClearOfBottomLeft(bs[1..], height, day, exp, look);
    }
  }

  /** Left of the soil line the bottom row stays blank: the trunk keeps to columns 33 to 37
      and no branch reaches further out than column 21. */
  lemma BottomLeftBlank(st: PlantStructure, day: nat, trunk: char, look: Look, exp: real -> real, x: nat)
    requires Renderable(st) && Positive(exp) && x < 16
    ensures Picture(st, day, trunk, look, exp)[27][x] == ' '
  {
    SoilOnTop(st, day, trunk, look, exp, 27, x);
    PutAllElsewhere(Blank(), TrunkStrokes(st, day, trunk), 27, x);
    if BranchPhase(st, day, trunk, look, exp)[27][x] != TrunkPhase(st, day, trunk)[27][x] {
      BranchCellsFromStrokes(st, day, trunk, look, exp, 27, x);
      BranchesClearOfBottomLeft(VisibleBranches(st.branches, day), TrunkHeight(st, day), day, exp, look);
      assert false;
    }
  }

  /** The soil survives the 70-byte cut: the printed bottom line shows `~` in columns 16
      to 53, whatever the flower glyph. */
  lemma SoilInOutput(st: PlantStructure, day: nat, trunk: char, look: Look, exp: real -> real)
    requires Renderable(st) && Positive(exp)
    ensures forall x :: 16 <= x < 54 ==> Lines(Picture(st, day, trunk, look, exp))[27][x] == '~'
  {
    var row := Picture(st, day, trunk, look, exp)[27];
    forall i | 0 <= i < 54
      ensures Narrow(row[..54][i])
    {
      if i < 16 {
        BottomLeftBlank(st, day, trunk, look, exp, i);
      }
    }
    NarrowSize(row[..54]);
    assert row[..54] <= FormatRow(row);
    assert Lines(Picture(st, day, trunk, look, exp))[27] == FormatRow(row);
  }

  /** The flower glyph of every stage and frame takes one byte. */
  lemma BlossomNarrow(stage: GrowthStage, frame: nat)
    ensures Narrow(FlowerGlyph(Blossom(stage, frame).1))
  {
  }
}

=== FILE: harvest.dfy ===
/** The record of a completed harvest and how it is computed from the plant. */
module Harvest {
  import opened Prelude
  import opened Domain

  /** `completed_at` (a wall-clock time stamp) is not part of this model. */
  datatype HarvestResult = HarvestResult(
    strainName: string,
    harvestDay: nat,
    weightGrams: real,
    qualityScore: real,
    thcPercent: real,
    cbdPercent: real)

  /** Care multiplier: the mean of the two care percentages as a fraction, at least 0.7. */
  function CareQuality(waterPct: real, nutrientPct: real): (q: real)
    ensures q >= 0.7
    ensures q >= (waterPct + nutrientPct) / 200.0
    ensures waterPct <= 100.0 && nutrientPct <= 100.0 ==> q <= 1.0
    ensures q == 0.7 || q == (waterPct + nutrientPct) / 200.0
  {
    MaxReal((waterPct + nutrientPct) / 200.0, 0.7)
  }

  /** Yield penalty: 2% per recorded stress event, at most 30%. */
  function StressPenalty(stressCount: nat): (p: real)
    ensures 0.0 <= p <= 0.3
    ensures stressCount <= 15 ==> p == stressCount as real * 0.02
    ensures stressCount >= 15 ==> p == 0.3
    ensures stressCount == 0 ==> p == 0.0
  {
    MinReal(stressCount as real * 0.02, 0.3)
  }

  /** Quality score: care times the unpenalised share, as a percentage clamped to 0-100. */
  function QualityScore(careQuality: real, penalty: real): (s: real)
    ensures 0.0 <= s <= 100.0
    ensures 0.0 <= careQuality * 100.0 * (1.0 - penalty) <= 100.0 ==> s == careQuality * 100.0 * (1.0 - penalty)
  {
    ClampReal(careQuality * 100.0 * (1.0 - penalty), 0.0, 100.0)
  }

  /** Cannabinoid multiplier: 0.7 at quality 0 rising linearly to 1.0 at quality 100. */
  function CannabinoidMultiplier(qualityScore: real): (m: real)
    requires 0.0 <= qualityScore <= 100.0
    ensures 0.7 <= m <= 1.0
  {
    0.7 + qualityScore / 100.0 * 0.3
  }

  /** A cannabinoid content scaled by a multiplier in [0.7, 1]. */
  function Scaled(x: real, multiplier: real): (y: real)
    requires 0.7 <= multiplier <= 1.0
    ensures 0.0 <= x ==> 0.7 * x <= y <= x
    ensures multiplier == 1.0 ==> y == x
  {
    MulMonotone(0.7, multiplier, x);
    MulMonotone(multiplier, 1.0, x);
    x * multiplier
  }

  /** The share of the potential yield kept by care `careQuality` in [0.7, 1] under a
      stress penalty in [0, 0.3] lies between 49% and 100%: the quality score `q` it gives
      needs no clamping and the weight `w` is `q` percent of the yield potential. */
  lemma YieldShare(yieldPotential: real, careQuality: real, penalty: real, w: real, q: real)
    requires 0.7 <= careQuality <= 1.0 && 0.0 <= penalty <= 0.3
    requires w == yieldPotential * careQuality * (1.0 - penalty) && q == careQuality * 100.0 * (1.0 - penalty)
    ensures 49.0 <= q <= 100.0 && w * 100.0 == yieldPotential * q
    ensures 0.0 <= yieldPotential ==> 0.49 * yieldPotential <= w <= yieldPotential
  {
    var kept := 1.0 - penalty;
    var share := careQuality * kept;
    MulMonotone(0.7, careQuality, kept);
    MulMonotone(careQuality, 1.0, kept);
    assert 0.7 <= careQuality && 0.0 <= kept;
    assert 0.7 * kept <= careQuality * kept;
    assert careQuality * kept <= 1.0 * kept;
    assert q == share * 100.0;
    assert w == yieldPotential * share;
    if 0.0 <= yieldPotential {
      MulMonotone(0.49, share, yieldPotential);
      MulMonotone(share, 1.0, yieldPotential);
    }
  }

  /** Weight of the harvest: the yield potential reduced by care and by stress. With care
      in [0.7, 1] and a penalty in [0, 0.3] it is the quality score's share of the yield
      potential, and at least 49% of it. */
  function Weight(yieldPotential: real, careQuality: real, penalty: real): (w: real)
    ensures 0.7 <= careQuality <= 1.0 && 0.0 <= penalty <= 0.3 ==>
              w * 100.0 == yieldPotential * QualityScore(careQuality, penalty)
    ensures 0.7 <= careQuality <= 1.0 && 0.0 <= penalty <= 0.3 && 0.0 <= yieldPotential ==>
              0.49 * yieldPotential <= w <= yieldPotential
  {
    var w := yieldPotential * careQuality * (1.0 - penalty);
    if 0.7 <= careQuality <= 1.0 && 0.0 <= penalty <= 0.3 then
      YieldShare(yieldPotential, careQuality, penalty, w, careQuality * 100.0 * (1.0 - penalty));
      w
    else w
  }

  /** A consistent care history never earns a care multiplier above 1. */
  lemma CareQualityBounded(c: CareHistory)
    ensures c.Consistent() ==> CareQuality(c.WaterPercentage(), c.NutrientPercentage()) <= 1.0
  {
  }

  /** `HarvestResult::from_plant`, on the plant's fields. */
  function FromPlant(p: Plant): (r: HarvestResult)
    reads p
    ensures r.strainName == p.strainName && r.harvestDay == p.daysAlive
    ensures 0.0 <= r.qualityScore <= 100.0
    ensures 0.0 <= p.genetics.thcPercent ==> 0.7 * p.genetics.thcPercent <= r.thcPercent <= p.genetics.thcPercent
    ensures 0.0 <= p.genetics.cbdPercent ==> 0.7 * p.genetics.cbdPercent <= r.cbdPercent <= p.genetics.cbdPercent
  {
    var careQuality := CareQuality(p.careHistory.WaterPercentage(), p.careHistory.NutrientPercentage());
    var penalty := StressPenalty(|p.careHistory.stressEvents|);
    var weight := Weight(p.genetics.yieldPotential, careQuality, penalty);
    var quality := QualityScore(careQuality, penalty);
    var multiplier := CannabinoidMultiplier(quality);
    HarvestResult(p.strainName, p.daysAlive, weight, quality,
                  Scaled(p.genetics.thcPercent, multiplier), Scaled(p.genetics.cbdPercent, multiplier))
  }

  /** For a consistent care history the quality score is never clamped, so the harvested
      weight is the quality score's share of the yield potential, and at least 49% of it. */
  lemma HarvestWeight(p: Plant)
    requires p.careHistory.Consistent()
    ensures FromPlant(p).weightGrams * 100.0 == p.genetics.yieldPotential * FromPlant(p).qualityScore
    ensures 0.0 <= p.genetics.yieldPotential ==>
              0.49 * p.genetics.yieldPotential <= FromPlant(p).weightGrams <= p.genetics.yieldPotential
  {
    var c := p.careHistory;
    var careQuality := CareQuality(c.WaterPercentage(), c.NutrientPercentage());
    CareQualityBounded(c);
    var penalty := StressPenalty(|c.stressEvents|);
    var r := FromPlant(p);
    assert r.weightGrams == Weight(p.genetics.yieldPotential, careQuality, penalty);
    assert r.qualityScore == QualityScore(careQuality, penalty);
  }

  /** A perfectly kept plant (nothing tracked yet, no stress) yields its full potential at
      quality 100 and full cannabinoid content. */
  lemma PerfectHarvest(p: Plant)
    requires p.careHistory.totalHours == 0.0 && p.careHistory.stressEvents == []
    ensures FromPlant(p).weightGrams == p.genetics.yieldPotential
    ensures FromPlant(p).qualityScore == 100.0
    ensures FromPlant(p).thcPercent == p.genetics.thcPercent
    ensures FromPlant(p).cbdPercent == p.genetics.cbdPercent
  {
    var c := p.careHistory;
    var careQuality := CareQuality(c.WaterPercentage(), c.NutrientPercentage());
    assert careQuality == 1.0;
    var penalty := StressPenalty(|c.stressEvents|);
    assert penalty == 0.0;
    var quality := QualityScore(careQuality, penalty);
    assert quality == 100.0;
    assert CannabinoidMultiplier(quality) == 1.0;
    var y := p.genetics.yieldPotential;
    assert y * careQuality * (1.0 - penalty) == y * 1.0 * 1.0 == y;
  }
}

=== FILE: layout.dfy ===
/** Choice of screen layout from the terminal size. */
module Layouts {

  datatype LayoutMode = Small | Medium | Large
  {
    /** Position in the order Small < Medium < Large. */
    function Rank(): (r: nat)
      ensures r <= 2
    {
      match this
      case Small => 0
      case Medium => 1
      case Large => 2
    }
  }

  /** Largest `u16`; terminal dimensions are `u16` values. */
  const U16_MAX: nat := 0xFFFF

  /** Small below 80 columns or 40 rows, Medium up to 120 columns, Large beyond. */
  function FromTerminalSize(width: nat, height: nat): (m: LayoutMode)
    requires width <= U16_MAX && height <= U16_MAX
    ensures m == Small <==> width < 80 || height < 40
    ensures m == Medium <==> 80 <= width <= 120 && height >= 40
    ensures m == Large <==> width > 120 && height >= 40
  {
    if width < 80 || height < 40 then Small
    else if width <= 120 then Medium
    else Large
  }

  /** At a fixed height, a wider terminal never gets a smaller layout. */
  lemma WiderNeverSmaller(w1: nat, w2: nat, height: nat)
    requires w1 <= w2 <= U16_MAX && height <= U16_MAX
    ensures FromTerminalSize(w1, height).Rank() <= FromTerminalSize(w2, height).Rank()
  {
  }

  /** One-letter tag shown in the status bar. */
  function Indicator(m: LayoutMode): (s: string)
    ensures |s| == 1
  {
    match m
    case Small => "S"
    case Medium => "M"
    case Large => "L"
  }

  /** Distinct layouts show distinct tags. */
  lemma IndicatorInjective(a: LayoutMode, b: LayoutMode)
    requires Indicator(a) == Indicator(b)
    ensures a == b
  {
  }
}

=== FILE: plant.dfy ===
/** The plant domain: growth stages, health, care history and the plant record itself. */
module Domain {
  import opened Prelude

  datatype GrowthStage = Seed | Germination | Seedling | Vegetative | PreFlower | Flowering | ReadyToHarvest
  {
    /** Position in declaration order, which is the order a plant goes through. */
    function Rank(): (r: nat)
      ensures r <= 6
    {
      match this
      case Seed => 0
      case Germination => 1
      case Seedling => 2
      case Vegetative => 3
      case PreFlower => 4
      case Flowering => 5
      case ReadyToHarvest => 6
    }
  }

  datatype LightCycle = Veg18_6 | Flower12_12

  datatype HealthStatus = Excellent | Good | Fair | Poor | Critical

  datatype StressSeverity = Minor | Moderate | Severe

  datatype StressCause = LowWater | HighWater | LowNutrients | NutrientBurn | WrongLightCycle

  /** `day` is a `u32` in the source; days are produced by a saturating cast. */
  datatype StressEvent = StressEvent(day: nat, severity: StressSeverity, cause: StressCause)

  /** How many of the most recent events the de-duplication scan looks at. */
  const STRESS_WINDOW: nat := 10
  /** An event of the same cause this many days back or fewer counts as recent. */
  const STRESS_DAYS: nat := 5

  /** Cumulative care tracking; the two percentage fields are the deprecated stored ones. */
  datatype CareHistory = CareHistory(
    totalHours: real,
    totalOptimalWaterHours: real,
    totalOptimalNutrientHours: real,
    waterOptimalPercentage: real,
    nutrientOptimalPercentage: real,
    lightCycleCorrect: bool,
    stressEvents: seq<StressEvent>)
  {
    /** Share of tracked hours with water in its optimal band, as a percentage. */
    function WaterPercentage(): (r: real)
      ensures totalHours == 0.0 ==> r == 100.0
      ensures totalHours != 0.0 ==> r * totalHours == totalOptimalWaterHours * 100.0
      ensures 0.0 <= totalOptimalWaterHours <= totalHours ==> 0.0 <= r <= 100.0
    {
      Percentage(totalOptimalWaterHours, totalHours)
    }

    /** Share of tracked hours with nutrients in their optimal band, as a percentage. */
    function NutrientPercentage(): (r: real)
      ensures totalHours == 0.0 ==> r == 100.0
      ensures totalHours != 0.0 ==> r * totalHours == totalOptimalNutrientHours * 100.0
      ensures 0.0 <= totalOptimalNutrientHours <= totalHours ==> 0.0 <= r <= 100.0
    {
      Percentage(totalOptimalNutrientHours, totalHours)
    }

    /** Whether an event of `cause` dated `currentDay - 5` (saturating) or later is among the
        last ten events; older events are not looked at. */
    function HasRecentStress(cause: StressCause, currentDay: nat): (b: bool)
      ensures b <==> exists k :: WindowStart(|stressEvents|) <= k < |stressEvents|
                        && Recent(stressEvents[k], cause, currentDay)
    {
      AnyRecent(stressEvents, |stressEvents|, STRESS_WINDOW, cause, currentDay)
    }

    /** Tracked counters are consistent: optimal hours never exceed the total. */
    ghost predicate Consistent()
    {
      && 0.0 <= totalOptimalWaterHours <= totalHours
      && 0.0 <= totalOptimalNutrientHours <= totalHours
    }
  }

  /** `optimal / total * 100`, or 100 before any hour is tracked. */
  function Percentage(optimal: real, total: real): (r: real)
    ensures total == 0.0 ==> r == 100.0
    ensures total != 0.0 ==> r * total == optimal * 100.0
    ensures 0.0 <= optimal <= total ==> 0.0 <= r <= 100.0
  {
    if total == 0.0 then 100.0
    else
      var r := optimal / total * 100.0;
      assert r * total == optimal * 100.0;
      r
  }

  /** Index of the oldest event the scan looks at. */
  function WindowStart(n: nat): (k: nat)
    ensures k <= n && n - k <= STRESS_WINDOW
    ensures n <= STRESS_WINDOW ==> k == 0
  {
    SaturatingSub(n, STRESS_WINDOW)
  }

  /** An event that counts against recording `cause` again on `currentDay`. */
  predicate Recent(e: StressEvent, cause: StressCause, currentDay: nat)
  {
    e.cause == cause && e.day >= SaturatingSub(currentDay, STRESS_DAYS)
  }

  /** The reversed scan: look at `events[end - 1]`, `events[end - 2]`, ... for at most
      `budget` events. */
  function AnyRecent(events: seq<StressEvent>, end: nat, budget: nat, cause: StressCause, currentDay: nat): (b: bool)
    requires end <= |events|
    ensures b <==> exists k :: SaturatingSub(end, budget) <= k < end && Recent(events[k], cause, currentDay)
    decreases end
  {
    if end == 0 || budget == 0 then false
    else if Recent(events[end - 1], cause, currentDay) then true
    else AnyRecent(events, end - 1, budget - 1, cause, currentDay)
  }

  /** `CareHistory::default`: nothing tracked, both stored percentages 100, no events. */
  function DefaultCareHistory(): (c: CareHistory)
    ensures c.Consistent() && c.stressEvents == []
    ensures c.WaterPercentage() == 100.0 && c.NutrientPercentage() == 100.0
  {
    CareHistory(0.0, 0.0, 0.0, 100.0, 100.0, true, [])
  }

  /** Events older than the last ten never change the outcome of the scan. */
  lemma {:induction false} OlderEventsIgnored(older: seq<StressEvent>, window: seq<StressEvent>, cause: StressCause, day: nat, c: CareHistory, c': CareHistory)
    requires |window| == STRESS_WINDOW
    requires c.stressEvents == older + window && c'.stressEvents == window
    ensures c.HasRecentStress(cause, day) == c'.HasRecentStress(cause, day)
  {
    var all := older + window;
    assert WindowStart(|all|) == |older|;
    if c'.HasRecentStress(cause, day) {
      var k :| 0 <= k < |window| && Recent(window[k], cause, day);
      assert all[|older| + k] == window[k];
    }
    if c.HasRecentStress(cause, day) {
      var k :| |older| <= k < |all| && Recent(all[k], cause, day);
      assert window[k - |older|] == all[k];
    }
  }

  /** An event just recorded is recent for its cause on its own day. */
  lemma RecordedIsRecent(c: CareHistory, e: StressEvent)
    ensures c.(stressEvents := c.stressEvents + [e]).HasRecentStress(e.cause, e.day)
  {
    var es := c.stressEvents + [e];
    assert Recent(es[|es| - 1], e.cause, e.day);
  }

  /** Appending an event of another cause never makes a cause recent: it can only push an
      older event out of the window. */
  lemma OtherCauseNotRecent(c: CareHistory, e: StressEvent, cause: StressCause, day: nat)
    requires e.cause != cause && !c.HasRecentStress(cause, day)
    ensures !c.(stressEvents := c.stressEvents + [e]).HasRecentStress(cause, day)
  {
  }

  /** `Plant::calculate_stage`: day bands 1-10, 11-40, 41-48, 49-85, and everything else
      (day 0 too) is ready to harvest. */
  function CalculateStage(days: nat): (s: GrowthStage)
    ensures 1 <= days <= 10 <==> s == Seedling
    ensures 11 <= days <= 40 <==> s == Vegetative
    ensures 41 <= days <= 48 <==> s == PreFlower
    ensures 49 <= days <= 85 <==> s == Flowering
    ensures (days == 0 || days > 85) <==> s == ReadyToHarvest
  {
    if 1 <= days <= 10 then Seedling
    else if 11 <= days <= 40 then Vegetative
    else if 41 <= days <= 48 then PreFlower
    else if 49 <= days <= 85 then Flowering
    else ReadyToHarvest
  }

  /** From day 1 on, a plant only moves forward through the stages. */
  lemma StageMonotone(d1: nat, d2: nat)
    requires 1 <= d1 <= d2
    ensures CalculateStage(d1).Rank() <= CalculateStage(d2).Rank()
    ensures Seedling.Rank() <= CalculateStage(d1).Rank()
  {
  }

  predicate WaterOptimal(water: real) { 40.0 <= water <= 80.0 }
  predicate NutrientOptimal(nutrients: real) { 50.0 <= nutrients <= 80.0 }
  predicate WaterCritical(water: real) { water < 10.0 || water > 95.0 }
  predicate NutrientCritical(nutrients: real) { nutrients < 20.0 || nutrients > 95.0 }

  /** `Plant::calculate_health`: a critical level decides alone; otherwise the number of
      levels in their optimal band decides, and Excellent needs both in the narrower bands
      water 50-70 and nutrients 60-75. */
  function CalculateHealth(water: real, nutrients: real): (h: HealthStatus)
    ensures h == Critical <==> WaterCritical(water) || NutrientCritical(nutrients)
    ensures h == Poor <==> !h.Critical? && !WaterOptimal(water) && !NutrientOptimal(nutrients)
    ensures h == Fair <==> !h.Critical? && WaterOptimal(water) != NutrientOptimal(nutrients)
    ensures h == Excellent <==> 50.0 <= water <= 70.0 && 60.0 <= nutrients <= 75.0
    ensures h == Good <==> && WaterOptimal(water) && NutrientOptimal(nutrients)
                           && !(50.0 <= water <= 70.0 && 60.0 <= nutrients <= 75.0)
  {
    if WaterCritical(water) || NutrientCritical(nutrients) then Critical
    else if !WaterOptimal(water) && !NutrientOptimal(nutrients) then Poor
    else if !WaterOptimal(water) || !NutrientOptimal(nutrients) then Fair
    else if 50.0 <= water <= 70.0 && 60.0 <= nutrients <= 75.0 then Excellent
    else Good
  }

  /** The other light cycle. */
  function Toggled(c: LightCycle): (t: LightCycle)
    ensures t != c
  {
    match c
    case Veg18_6 => Flower12_12
    case Flower12_12 => Veg18_6
  }

  /** Toggling twice restores the cycle. */
  lemma ToggleInvolution(c: LightCycle)
    ensures Toggled(Toggled(c)) == c
  {
  }

  /** The strain record of the database; only its name is used by the core. */
  datatype StrainInfo = StrainInfo(name: string)

  /** Given genetic traits of a plant. */
  datatype Genetics = Genetics(
    yieldPotential: real,
    growthRate: real,
    resilience: real,
    qualityCeiling: real,
    strainInfo: Option<StrainInfo>,
    thcPercent: real,
    cbdPercent: real)

  /** The name a new plant shows: its strain's name, or a fixed fallback. */
  function StrainNameOf(g: Genetics): (name: string)
    ensures g.strainInfo.Some? ==> name == g.strainInfo.value.name
    ensures g.strainInfo.None? ==> name == "Unknown Strain"
  {
    match g.strainInfo
    case Some(info) => info.name
    case None => "Unknown Strain"
  }

  /** A plant; `id` stands for the source's random UUID and is given by the caller. */
  class Plant {
    var id: nat
    var strainName: string
    var stage: GrowthStage
    var daysAlive: nat
    var totalHoursElapsed: real
    var waterLevel: real
    var nutrientLevel: real
    var lightCycle: LightCycle
    var health: HealthStatus
    var genetics: Genetics
    var careHistory: CareHistory
    var co2Level: real
    var lightAbsorption: real
    var temperature: real
    var humidity: real
    var rootDevelopment: real
    var canopyDensity: real

    /** Levels are percentages and the care counters are consistent. */
    ghost predicate Valid()
      reads this
    {
      && 0.0 <= waterLevel <= 100.0
      && 0.0 <= nutrientLevel <= 100.0
      && careHistory.Consistent()
    }

    /** The values a freshly planted seed starts with. */
    ghost predicate Initial(id: nat, genetics: Genetics)
      reads this
    {
      && this.id == id && this.genetics == genetics
      && strainName == StrainNameOf(genetics)
      && stage == Seedling && daysAlive == 1 && totalHoursElapsed == 0.0
      && waterLevel == 60.0 && nutrientLevel == 60.0
      && lightCycle == Veg18_6 && health == Excellent
      && careHistory == DefaultCareHistory()
      && co2Level == 80.0 && lightAbsorption == 50.0 && temperature == 24.0
      && humidity == 60.0 && rootDevelopment == 10.0 && canopyDensity == 5.0
    }

    /** `Plant::new_random` with the genetics and identity drawn by the caller. */
    constructor NewRandom(id: nat, genetics: Genetics)
      ensures Initial(id, genetics)
      ensures Valid()
    {
      this.id := id;
      strainName := StrainNameOf(genetics);
      stage := Seedling;
      daysAlive := 1;
      totalHoursElapsed := 0.0;
      waterLevel := 60.0;
      nutrientLevel := 60.0;
      lightCycle := Veg18_6;
      health := Excellent;
      this.genetics := genetics;
      careHistory := DefaultCareHistory();
      co2Level := 80.0;
      lightAbsorption := 50.0;
      temperature := 24.0;
      humidity := 60.0;
      rootDevelopment := 10.0;
      canopyDensity := 5.0;
    }

    /** `toggle_light_cycle`: swaps the cycle and, by its frame, nothing else. */
    method ToggleLightCycle()
      modifies this`lightCycle
      ensures lightCycle == Toggled(old(lightCycle))
    {
      lightCycle := match lightCycle
        case Veg18_6 => Flower12_12
        case Flower12_12 => Veg18_6;
    }
  }
}

=== FILE: prelude.dfy ===
/** Rust primitives the model needs: fixed-width unsigned integers written out over
    unbounded `int`, `Option`, and the `min`/`max`/`clamp` helpers. */
module Prelude {

  /** 2^64: the modulus of `u64` and `usize` wrapping arithmetic. */
  const WORD: int := 0x1_0000_0000_0000_0000

  /** Largest `u32`. */
  const U32_MAX: int := 0xFFFF_FFFF

  type U64 = x: int | 0 <= x < WORD

  datatype Option<T> = None | Some(value: T)

  /** `u64::wrapping_add` (also `usize::wrapping_add` on a 64-bit target). */
  function WrappingAdd(a: U64, b: U64): (r: U64)
    ensures a + b < WORD ==> r == a + b
    ensures a + b >= WORD ==> r == a + b - WORD
  {
    (a + b) % WORD
  }

  /** `u32::saturating_sub`: never below zero. */
  function SaturatingSub(a: nat, b: nat): (r: nat)
    ensures r <= a
    ensures a >= b ==> r + b == a
    ensures a < b ==> r == 0
  {
    if a >= b then a - b else 0
  }

  function Max(a: int, b: int): (r: int)
    ensures r >= a && r >= b && (r == a || r == b)
  {
    if a >= b then a else b
  }

  function Min(a: int, b: int): (r: int)
    ensures r <= a && r <= b && (r == a || r == b)
  {
    if a <= b then a else b
  }

  function Abs(a: int): (r: nat)
    ensures r == a || r == -a
  {
    if a < 0 then -a else a
  }

  /** `x.max(lo).min(hi)` on integers. */
  function Clamp(x: int, lo: int, hi: int): (r: int)
    requires lo <= hi
    ensures lo <= r <= hi
    ensures lo <= x <= hi ==> r == x
  {
    if x < lo then lo else if x > hi then hi else x
  }

  function MinReal(a: real, b: real): (r: real)
    ensures r <= a && r <= b && (r == a || r == b)
  {
    if a <= b then a else b
  }

  function MaxReal(a: real, b: real): (r: real)
    ensures r >= a && r >= b && (r == a || r == b)
  {
    if a >= b then a else b
  }

  /** `f32::clamp(lo, hi)`. */
  function ClampReal(x: real, lo: real, hi: real): (r: real)
    requires lo <= hi
    ensures lo <= r <= hi
    ensures lo <= x <= hi ==> r == x
  {
    if x < lo then lo else if x > hi then hi else x
  }

  /** Smallest integer not below `x` (`f32::ceil`). */
  function Ceil(x: real): (r: int)
    ensures r as real - 1.0 < x <= r as real
  {
    if x == x.Floor as real then x.Floor else x.Floor + 1
  }

  /** Multiplying by a non-negative factor keeps the order. */
  lemma MulMonotone(a: real, b: real, c: real)
    ensures a <= b && 0.0 <= c ==> a * c <= b * c
  {
    if a <= b && 0.0 <= c {
      assert b * c - a * c == (b - a) * c;
    }
  }
}

=== FILE: render.dfy ===
/** The ASCII renderer: the stage- and frame-dependent glyphs and the 28 x 70 character
    picture of a plant's skeleton on a given day. Every drawing step is a list of strokes
    (row, column, glyph); the loops of the renderer are proved to paint exactly those lists. */
module Render {
  import opened Prelude
  import opened Domain
  import opened Structure

  // ---------------------------------------------------------------------------
  // The character buffer
  // ---------------------------------------------------------------------------

  /** Rows of characters; the renderer's buffer has 28 rows of 70. */
  type Grid = seq<seq<char>>

  /** One character written at a row and column. */
  datatype Stroke = Stroke(row: nat, col: nat, glyph: char)

  predicate IsGrid(g: Grid)
  {
    |g| == 28 && forall y :: 0 <= y < 28 ==> |g[y]| == 70
  }

  predicate Fits(t: Stroke)
  {
    t.row < 28 && t.col < 70
  }

  predicate AllFit(ts: seq<Stroke>)
  {
    forall k :: 0 <= k < |ts| ==> Fits(ts[k])
  }

  /** The buffer the renderer starts from: every cell a space. */
  function Blank(): (g: Grid)
    ensures IsGrid(g)
    ensures forall y, x :: 0 <= y < 28 && 0 <= x < 70 ==> g[y][x] == ' '
  {
    seq(28, _ => seq(70, _ => ' '))
  }

  /** Buffers with the same cells are the same buffer. */
  lemma SameCells(g: Grid, h: Grid)
    requires IsGrid(g) && IsGrid(h)
    requires forall y, x :: 0 <= y < 28 && 0 <= x < 70 ==> g[y][x] == h[y][x]
    ensures g == h
  {
    forall y | 0 <= y < 28
      ensures g[y] == h[y]
    {
      assert forall x :: 0 <= x < 70 ==> g[y][x] == h[y][x];
    }
  }

  /** `lines[y][x] = c`. */
  function Put(g: Grid, t: Stroke): (r: Grid)
    requires IsGrid(g) && Fits(t)
    ensures IsGrid(r)
    ensures r[t.row][t.col] == t.glyph
    ensures forall y, x :: 0 <= y < 28 && 0 <= x < 70 && (y != t.row || x != t.col) ==> r[y][x] == g[y][x]
  {
    g[t.row := g[t.row][t.col := t.glyph]]
  }

  /** `if lines[y][x] == ' ' { lines[y][x] = c }`. */
  function PutIfBlank(g: Grid, t: Stroke): (r: Grid)
    requires IsGrid(g) && Fits(t)
    ensures IsGrid(r)
  {
    if g[t.row][t.col] == ' ' then Put(g, t) else g
  }

  /** The strokes written one after the other, each overwriting what is there. */
  function PutAll(g: Grid, ts: seq<Stroke>): (r: Grid)
    requires IsGrid(g) && AllFit(ts)
    ensures IsGrid(r)
    decreases |ts|
  {
    if ts == [] then g else Put(PutAll(g, ts[..|ts| - 1]), ts[|ts| - 1])
  }

  /** The strokes written one after the other, each only onto a blank cell. */
  function PaintAll(g: Grid, ts: seq<Stroke>): (r: Grid)
    requires IsGrid(g) && AllFit(ts)
    ensures IsGrid(r)
    decreases |ts|
  {
    if ts == [] then g else PutIfBlank(PaintAll(g, ts[..|ts| - 1]), ts[|ts| - 1])
  }

  /** Painting a single stroke. */
  lemma PaintAllOne(g: Grid, t: Stroke)
    requires IsGrid(g) && Fits(t)
    ensures AllFit([t]) && PaintAll(g, [t]) == PutIfBlank(g, t)
  {
    assert [t][..0] == [];
  }

  /** Painting a list is painting one part after the other. */
  lemma {:induction false} PaintAllAppend(g: Grid, a: seq<Stroke>, b: seq<Stroke>)
    requires IsGrid(g) && AllFit(a) && AllFit(b)
    ensures AllFit(a + b)
    ensures PaintAll(g, a + b) == PaintAll(PaintAll(g, a), b)
    decreases |b|
  {
    if b == [] {
      assert a + b == a;
    } else {
      var b' := b[..|b| - 1];
      PaintAllAppend(g, a, b');
      assert (a + b)[..|a + b| - 1] == a + b';
    }
  }

  /** Write discipline of the branch phase: a cell that is not blank is never painted over. */
  lemma {:induction false} PaintKeepsNonBlank(g: Grid, ts: seq<Stroke>, y: nat, x: nat)
    requires IsGrid(g) && AllFit(ts) && y < 28 && x < 70 && g[y][x] != ' '
    ensures PaintAll(g, ts)[y][x] == g[y][x]
    decreases |ts|
  {
    if ts != [] {
      PaintKeepsNonBlank(g, ts[..|ts| - 1], y, x);
    }
  }

  /** A cell that painting changes was blank and now holds the glyph of a stroke aimed at it. */
  lemma {:induction false} PaintOnlyAtStrokes(g: Grid, ts: seq<Stroke>, y: nat, x: nat)
    requires IsGrid(g) && AllFit(ts) && y < 28 && x < 70
    requires PaintAll(g, ts)[y][x] != g[y][x]
    ensures g[y][x] == ' '
    ensures exists k :: 0 <= k < |ts| && ts[k] == Stroke(y, x, PaintAll(g, ts)[y][x])
    decreases |ts|
  {
    var ts' := ts[..|ts| - 1];
    var t := ts[|ts| - 1];
    var before := PaintAll(g, ts');
    if before[y][x] != g[y][x] {
      PaintOnlyAtStrokes(g, ts', y, x);
      var k :| 0 <= k < |ts'| && ts'[k] == Stroke(y, x, before[y][x]);
      if t.row == y && t.col == x && before[y][x] == ' ' {
        assert false;
      }
      assert ts[k] == ts'[k];
    } else {
      assert PaintAll(g, ts) == PutIfBlank(before, t);
      assert t.row == y && t.col == x;
      assert ts[|ts| - 1] == Stroke(y, x, PaintAll(g, ts)[y][x]);
    }
  }

  // ---------------------------------------------------------------------------
  // Glyphs chosen by stage and animation frame
  // ---------------------------------------------------------------------------

  predicate IsSlash(c: char)
  {
    c == '/' || c == '\\'
  }

  /** The trunk glyph of a stage at a frame: seedlings alternate `|` and `!`, vegetative
      plants add `I`, pre-flowering and flowering plants add the double bar, and ripe plants
      alternate `I` and the double bar. */
  function TrunkGlyph(stage: GrowthStage, frame: nat): (c: char)
    ensures c in "|!I\U{2551}"
    ensures !IsSlash(c) && c != ' '
    ensures (stage == Seed || stage == Germination || stage == Seedling) ==> c in "|!"
    ensures stage == ReadyToHarvest ==> c in "I\U{2551}"
  {
    match stage
    case Seed | Germination | Seedling => "|!"[frame % 2]
    case Vegetative => "|!I"[frame % 3]
    case PreFlower | Flowering => "|!I\U{2551}"[frame % 4]
    case ReadyToHarvest => "I\U{2551}"[frame % 2]
  }

  /** Whether a stage shows flowers, and the flower or bud string of the frame: none before
      pre-flowering; an 8-frame cycle of small flowers, a 12-frame pulse of buds, and an
      8-frame trichome sparkle at harvest. Seed and germination render as seedlings. */
  function Blossom(stage: GrowthStage, frame: nat): (r: (bool, string))
    ensures r.0 <==> stage == PreFlower || stage == Flowering || stage == ReadyToHarvest
    ensures r.0 ==> |r.1| == 1
    ensures !r.0 ==> r.1 == ""
    ensures stage == ReadyToHarvest ==> r.1[0] in "@#*"
    ensures stage == Flowering ==> r.1[0] in "oO@."
    ensures stage == PreFlower ==> r.1[0] in ".* "
  {
    match stage
    case Seed | Germination | Seedling | Vegetative => (false, "")
    case PreFlower => (true, [".*. .*. "[frame % 8]])
    case Flowering => (true, ["ooOO@@OOoo.."[frame % 12]])
    case ReadyToHarvest => (true, ["@#@*#@*#"[frame % 8]])
  }

  /** `flower_char.chars().next().unwrap_or('*')`. */
  function FlowerGlyph(flower: string): (c: char)
    ensures |flower| > 0 ==> c == flower[0]
    ensures flower == [] ==> c == '*'
  {
    if |flower| > 0 then flower[0] else '*'
  }

  /** Frames repeat with the period of their table. */
  lemma BlossomPeriodic(stage: GrowthStage, frame: nat)
    ensures Blossom(stage, frame + 24) == Blossom(stage, frame)
    ensures TrunkGlyph(stage, frame + 12) == TrunkGlyph(stage, frame)
  {
    assert (frame + 24) % 8 == frame % 8 && (frame + 24) % 12 == frame % 12;
    assert (frame + 12) % 2 == frame % 2 && (frame + 12) % 3 == frame % 3 && (frame + 12) % 4 == frame % 4;
  }

  /** Border decoration of a frame: two frames of `~`, then two of `-`. */
  function BorderDecoration(frame: nat): (s: string)
    ensures s == (if frame % 4 < 2 then "~" else "-")
  {
    ["~", "~", "-", "-"][frame % 4]
  }

  /** Water-drop animation of a frame, an 8-frame cycle. */
  function WaterDrops(frame: nat): (s: string)
    ensures |s| == 1 && s[0] in ".oO "
    ensures frame % 2 == 0 ==> s == "."
  {
    [".", "o", ".", "O", ".", "o", ".", " "][frame % 8]
  }

  /** Nutrient sparkle animation of a frame, a 12-frame cycle. */
  function NutrientSparkles(frame: nat): (s: string)
    ensures |s| == 1 && s[0] in "*+xX "
    ensures frame % 2 == 0 ==> s == "*"
  {
    ["*", "+", "*", "x", "*", "+", "*", "X", "*", "x", "*", " "][frame % 12]
  }

  /** Every animation repeats after its table length. */
  lemma AnimationsPeriodic(frame: nat)
    ensures BorderDecoration(frame + 4) == BorderDecoration(frame)
    ensures WaterDrops(frame + 8) == WaterDrops(frame)
    ensures NutrientSparkles(frame + 12) == NutrientSparkles(frame)
  {
    assert (frame + 4) % 4 == frame % 4 && (frame + 8) % 8 == frame % 8 && (frame + 12) % 12 == frame % 12;
  }

  // ---------------------------------------------------------------------------
  // The trunk
  // ---------------------------------------------------------------------------

  /** Writing a list is writing one part after the other. */
  lemma {:induction false} PutAllAppend(g: Grid, a: seq<Stroke>, b: seq<Stroke>)
    requires IsGrid(g) && AllFit(a) && AllFit(b)
    ensures AllFit(a + b)
    ensures PutAll(g, a + b) == PutAll(PutAll(g, a), b)
    decreases |b|
  {
    if b == [] {
      assert a + b == a;
    } else {
      var b' := b[..|b| - 1];
      PutAllAppend(g, a, b');
      assert (a + b)[..|a + b| - 1] == a + b';
    }
  }

  /** A cell in a column no stroke writes to keeps its content. */
  lemma {:induction false} PutAllElsewhere(g: Grid, ts: seq<Stroke>, y: nat, x: nat)
    requires IsGrid(g) && AllFit(ts) && y < 28 && x < 70
    requires forall t :: t in ts ==> t.col != x
    ensures PutAll(g, ts)[y][x] == g[y][x]
    decreases |ts|
  {
    if ts != [] {
      var front := ts[..|ts| - 1];
      assert forall t :: t in front ==> t in ts;
      PutAllElsewhere(g, front, y, x);
      assert ts[|ts| - 1] in ts;
    }
  }

  /** Writing one, two or three strokes. */
  lemma PutAllShort(g: Grid, t0: Stroke, t1: Stroke, t2: Stroke)
    requires IsGrid(g) && Fits(t0) && Fits(t1) && Fits(t2)
    ensures AllFit([t0]) && PutAll(g, [t0]) == Put(g, t0)
    ensures AllFit([t0, t1]) && PutAll(g, [t0, t1]) == Put(Put(g, t0), t1)
    ensures AllFit([t0, t1, t2]) && PutAll(g, [t0, t1, t2]) == Put(Put(Put(g, t0), t1), t2)
  {
    assert [t0][..0] == [];
    assert [t0, t1][..1] == [t0];
    assert [t0, t1, t2][..2] == [t0, t1];
  }

  /** Top row of the trunk: the trunk grows up from row 27, one row per unit of height. */
  function TrunkStart(st: PlantStructure, day: nat): (start: nat)
    requires st.maxHeight <= 27
    ensures start + TrunkHeight(st, day) == 27
    ensures 27 - st.maxHeight <= start
  {
    27 - TrunkHeight(st, day)
  }

  /** The first split, in list order, whose day has come and whose height above the soil is
      `height`. */
  function FindSplit(splits: seq<TrunkSplit>, day: nat, height: int): (r: Option<TrunkSplit>)
    ensures r.Some? ==> r.value in splits && r.value.splitDay <= day && r.value.splitLevel == height
    ensures r.None? ==> forall s :: s in splits ==> !(s.splitDay <= day && s.splitLevel == height)
    decreases |splits|
  {
    if splits == [] then None
    else if splits[0].splitDay <= day && splits[0].splitLevel == height then Some(splits[0])
    else
      assert forall s :: s in splits ==> s == splits[0] || s in splits[1..];
      FindSplit(splits[1..], day, height)
  }

  /** The two arms of a split continued upwards on rows `start` to `end - 1`, from the
      bottom up. */
  function ArmStrokes(start: nat, end: nat, left: nat, right: nat, trunk: char): (ts: seq<Stroke>)
    requires end <= 28 && left < 70 && right < 70
    ensures AllFit(ts)
    ensures forall k :: 0 <= k < |ts| ==>
              ts[k].glyph == trunk && start <= ts[k].row < end && (ts[k].col == left || ts[k].col == right)
    decreases end
  {
    if end <= start then []
    else [Stroke(end - 1, left, trunk), Stroke(end - 1, right, trunk)] + ArmStrokes(start, end - 1, left, right, trunk)
  }

  /** The glyphs of the two diverging arms of a split: `\` or `/` by the sign of its angle. */
  function LeftArmGlyph(s: TrunkSplit): char { if s.angle < 0 then '\\' else '/' }
  function RightArmGlyph(s: TrunkSplit): char { if s.angle > 0 then '/' else '\\' }

  /** A split drawn at `row`: the trunk cell, the two diverging arms one row up, at the
      angle's distance either side of the centre column, and both arms continued up to the
      top of the trunk. */
  function SplitStrokes(row: nat, start: nat, s: TrunkSplit, trunk: char): (ts: seq<Stroke>)
    requires start <= row && 2 <= row < 28 && SplitInRange(s)
    ensures AllFit(ts)
    ensures |ts| >= 3 && ts[0] == Stroke(row, 35, trunk)
    ensures forall k :: 0 <= k < |ts| ==>
              ts[k].row <= row && (ts[k].col == 35 || ts[k].col == 35 - Abs(s.angle) || ts[k].col == 35 + Abs(s.angle))
    ensures forall k :: 0 <= k < |ts| && ts[k].glyph != trunk ==> ts[k].row == row - 1 && IsSlash(ts[k].glyph)
    ensures forall t :: t in ts ==> 33 <= t.col <= 37
  {
    [Stroke(row, 35, trunk), Stroke(row - 1, 35 - Abs(s.angle), LeftArmGlyph(s)),
     Stroke(row - 1, 35 + Abs(s.angle), RightArmGlyph(s))]
    + ArmStrokes(start, row - 1, 35 - Abs(s.angle), 35 + Abs(s.angle), trunk)
  }

  /** Splits every one of which is in the generator's range. */
  ghost predicate AllSplitsInRange(splits: seq<TrunkSplit>)
  {
    forall s :: s in splits ==> SplitInRange(s)
  }

  /** The trunk strokes of rows `row` to 27, top down, given whether a split was already
      drawn (at `foundRow`): the first split met is drawn, a row holding any later split gets
      nothing, and every other row gets the trunk cell. */
  function TrunkFrom(row: nat, start: nat, splits: seq<TrunkSplit>, day: nat, trunk: char,
                     found: bool, foundRow: nat): (ts: seq<Stroke>)
    requires start <= row <= 28 && AllSplitsInRange(splits)
    ensures AllFit(ts)
    ensures forall t :: t in ts ==> 33 <= t.col <= 37
    decreases 28 - row
  {
    if row == 28 then []
    else
      match FindSplit(splits, day, 27 - row)
      case Some(s) =>
        if found then TrunkFrom(row + 1, start, splits, day, trunk, true, foundRow)
        else SplitStrokes(row, start, s, trunk) + TrunkFrom(row + 1, start, splits, day, trunk, true, row)
      case None =>
        if !found || row > foundRow then [Stroke(row, 35, trunk)] + TrunkFrom(row + 1, start, splits, day, trunk, found, foundRow)
        else TrunkFrom(row + 1, start, splits, day, trunk, found, foundRow)
  }

  /** The strokes of the trunk phase, from the top of the trunk down to the soil row. */
  function TrunkStrokes(st: PlantStructure, day: nat, trunk: char): (ts: seq<Stroke>)
    requires st.maxHeight <= 27 && AllSplitsInRange(st.trunkSplits)
    ensures AllFit(ts)
    ensures !IsSlash(trunk) ==> SlashesOnOneRow(ts) && OneArmPair(ts)
    ensures forall t :: t in ts ==> 33 <= t.col <= 37
  {
    var start := TrunkStart(st, day);
    if IsSlash(trunk) then TrunkFrom(start, start, st.trunkSplits, day, trunk, false, 0)
    else
      OneSplitDrawn(start, start, st.trunkSplits, day, trunk);
      TrunkFrom(start, start, st.trunkSplits, day, trunk, false, 0)
  }

  /** Strokes only of the trunk glyph, in the centre column. */
  predicate CentreOnly(ts: seq<Stroke>, trunk: char)
  {
    forall k :: 0 <= k < |ts| ==> ts[k].col == 35 && ts[k].glyph == trunk
  }

  /** All `/` and `\` strokes lie on one row. */
  predicate SlashesOnOneRow(ts: seq<Stroke>)
  {
    forall k, k' :: 0 <= k < |ts| && 0 <= k' < |ts| && IsSlash(ts[k].glyph) && IsSlash(ts[k'].glyph) ==>
      ts[k].row == ts[k'].row
  }

  /** Off the centre column there are at most two columns, mirror images about it. */
  predicate OneArmPair(ts: seq<Stroke>)
  {
    forall k, k' :: 0 <= k < |ts| && 0 <= k' < |ts| && ts[k].col != 35 && ts[k'].col != 35 ==>
      ts[k].col == ts[k'].col || ts[k].col + ts[k'].col == 70
  }

  /** Centre-only strokes added before or after keep both properties. */
  lemma JoinCentre(a: seq<Stroke>, b: seq<Stroke>, trunk: char)
    requires !IsSlash(trunk) && (CentreOnly(a, trunk) || CentreOnly(b, trunk))
    requires SlashesOnOneRow(a) && SlashesOnOneRow(b) && OneArmPair(a) && OneArmPair(b)
    ensures SlashesOnOneRow(a + b) && OneArmPair(a + b)
  {
    var ab := a + b;
    assert forall k :: 0 <= k < |ab| ==> ab[k] == (if k < |a| then a[k] else b[k - |a|]);
  }

  /** Every `/` and `\\` stroke is on row `r`. */
  predicate SlashRow(ts: seq<Stroke>, r: nat)
  {
    forall k :: 0 <= k < |ts| && IsSlash(ts[k].glyph) ==> ts[k].row == r
  }

  /** Every stroke off the centre column is `a` columns to one side of it. */
  predicate ArmColumns(ts: seq<Stroke>, a: nat)
  {
    forall k :: 0 <= k < |ts| && ts[k].col != 35 ==> ts[k].col == 35 - a || ts[k].col == 35 + a
  }

  lemma ShapeProperties(ts: seq<Stroke>, r: nat, a: nat)
    requires SlashRow(ts, r) && ArmColumns(ts, a)
    ensures SlashesOnOneRow(ts) && OneArmPair(ts)
  {
  }

  /** One split draws its two diverging arms on the row above it and its two arms mirror
      each other about the centre column. */
  lemma SplitShape(row: nat, start: nat, s: TrunkSplit, trunk: char)
    requires start <= row && 2 <= row < 28 && SplitInRange(s) && !IsSlash(trunk)
    ensures var ts := SplitStrokes(row, start, s, trunk);
            SlashRow(ts, row - 1) && SlashesOnOneRow(ts) && OneArmPair(ts)
  {
    ShapeProperties(SplitStrokes(row, start, s, trunk), row - 1, Abs(s.angle));
  }

  /** Once a split is drawn, only trunk cells follow. */
  lemma {:induction false} NoSplitAfterFound(row: nat, start: nat, splits: seq<TrunkSplit>, day: nat, trunk: char, foundRow: nat)
    requires start <= row <= 28 && AllSplitsInRange(splits)
    ensures CentreOnly(TrunkFrom(row, start, splits, day, trunk, true, foundRow), trunk)
    decreases 28 - row
  {
    if row < 28 {
      var rest := TrunkFrom(row + 1, start, splits, day, trunk, true, foundRow);
      NoSplitAfterFound(row + 1, start, splits, day, trunk, foundRow);
      if FindSplit(splits, day, 27 - row).None? && row > foundRow {
        var ts := [Stroke(row, 35, trunk)] + rest;
        assert TrunkFrom(row, start, splits, day, trunk, true, foundRow) == ts;
        assert forall k :: 0 <= k < |ts| ==> ts[k] == (if k < 1 then Stroke(row, 35, trunk) else rest[k - 1]);
      }
    }
  }

  /** Below a drawn split, the trunk cells are exactly those of the rows with no active split:
      the row of a later active split is left as a gap in the centre column. */
  lemma {:induction false} TrunkAfterSplit(row: nat, start: nat, splits: seq<TrunkSplit>, day: nat, trunk: char, foundRow: nat)
    requires start <= row <= 28 && AllSplitsInRange(splits) && foundRow < row
    ensures var ts := TrunkFrom(row, start, splits, day, trunk, true, foundRow);
      forall t :: t in ts ==> row <= t.row < 28 && t.col == 35 && t.glyph == trunk
    ensures var ts := TrunkFrom(row, start, splits, day, trunk, true, foundRow);
      forall r :: row <= r < 28 ==> (Stroke(r, 35, trunk) in ts <==> FindSplit(splits, day, 27 - r).None?)
    decreases 28 - row
  {
    if row < 28 {
      var rest := TrunkFrom(row + 1, start, splits, day, trunk, true, foundRow);
      TrunkAfterSplit(row + 1, start, splits, day, trunk, foundRow);
      if FindSplit(splits, day, 27 - row).None? {
        assert TrunkFrom(row, start, splits, day, trunk, true, foundRow) == [Stroke(row, 35, trunk)] + rest;
      } else {
        assert TrunkFrom(row, start, splits, day, trunk, true, foundRow) == rest;
      }
    }
  }

  /** A row where the first split is met: that split's strokes followed by trunk cells only. */
  lemma SplitRowDrawn(row: nat, start: nat, splits: seq<TrunkSplit>, day: nat, trunk: char, s: TrunkSplit)
    requires start <= row < 28 && AllSplitsInRange(splits) && !IsSlash(trunk)
    requires FindSplit(splits, day, 27 - row) == Some(s)
    ensures SlashesOnOneRow(TrunkFrom(row, start, splits, day, trunk, false, 0))
    ensures OneArmPair(TrunkFrom(row, start, splits, day, trunk, false, 0))
  {
    var head := SplitStrokes(row, start, s, trunk);
    var rest := TrunkFrom(row + 1, start, splits, day, trunk, true, row);
    assert TrunkFrom(row, start, splits, day, trunk, false, 0) == head + rest;
    NoSplitAfterFound(row + 1, start, splits, day, trunk, row);
    SplitShape(row, start, s, trunk);
    JoinCentre(head, rest, trunk);
  }

  /** At most one split is drawn: all `/` and `\` strokes of the trunk phase lie on one row,
      and off the centre column only the two mirror-image arms of that split are drawn. */
  lemma {:induction false} OneSplitDrawn(row: nat, start: nat, splits: seq<TrunkSplit>, day: nat, trunk: char)
    requires start <= row <= 28 && AllSplitsInRange(splits) && !IsSlash(trunk)
    ensures SlashesOnOneRow(TrunkFrom(row, start, splits, day, trunk, false, 0))
    ensures OneArmPair(TrunkFrom(row, start, splits, day, trunk, false, 0))
    decreases 28 - row
  {
    if row < 28 {
      match FindSplit(splits, day, 27 - row)
      case Some(s) =>
        SplitRowDrawn(row, start, splits, day, trunk, s);
      case None =>
        var rest := TrunkFrom(row + 1, start, splits, day, trunk, false, 0);
        assert TrunkFrom(row, start, splits, day, trunk, false, 0) == [Stroke(row, 35, trunk)] + rest;
        OneSplitDrawn(row + 1, start, splits, day, trunk);
        JoinCentre([Stroke(row, 35, trunk)], rest, trunk);
    }
  }

  /** `for up_level in (start..end).rev()`: both arms of a split, from row `end - 1` up to
      row `start`. */
  method DrawArms(lines: Grid, start: nat, end: nat, left: nat, right: nat, trunk: char) returns (lines': Grid)
    requires IsGrid(lines) && end <= 28 && left < 70 && right < 70
    ensures lines' == PutAll(lines, ArmStrokes(start, end, left, right, trunk))
  {
    lines' := lines;
    var up: nat := end;
    while start < up
      invariant up <= end && IsGrid(lines')
      invariant PutAll(lines', ArmStrokes(start, up, left, right, trunk)) == PutAll(lines, ArmStrokes(start, end, left, right, trunk))
    {
      up := up - 1;
      var l, r := Stroke(up, left, trunk), Stroke(up, right, trunk);
      PutAllAppend(lines', [l, r], ArmStrokes(start, up, left, right, trunk));
      PutAllShort(lines', l, r, r);
      lines' := Put(lines', l);
      lines' := Put(lines', r);
    }
  }

  /** The bifurcation drawn at `row`: the trunk cell, then the two diverging arms one row up,
      then both arms continued upwards. */
  method DrawSplit(lines: Grid, row: nat, start: nat, split: TrunkSplit, trunk: char) returns (lines': Grid)
    requires IsGrid(lines) && start <= row && 2 <= row < 28 && SplitInRange(split)
    ensures lines' == PutAll(lines, SplitStrokes(row, start, split, trunk))
  {
    var left := 35 - Abs(split.angle);
    var right := 35 + Abs(split.angle);
    var c, l, r := Stroke(row, 35, trunk), Stroke(row - 1, left, LeftArmGlyph(split)), Stroke(row - 1, right, RightArmGlyph(split));
    PutAllAppend(lines, [c, l, r], ArmStrokes(start, row - 1, left, right, trunk));
    PutAllShort(lines, c, l, r);
    lines' := Put(lines, c);
    lines' := Put(lines', l);
    lines' := Put(lines', r);
    lines' := DrawArms(lines', start, row - 1, left, right, trunk);
  }

  /** One row of the trunk loop: the first split met is drawn and raises the flag, a row
      holding a later split is left alone, and any other row gets the trunk cell unless it
      lies above the split drawn. */
  method DrawTrunkRow(lines: Grid, row: nat, start: nat, splits: seq<TrunkSplit>, day: nat, trunk: char,
                      found: bool, foundRow: nat) returns (lines': Grid, found': bool, foundRow': nat)
    requires IsGrid(lines) && start <= row < 28 && AllSplitsInRange(splits)
    ensures IsGrid(lines')
    ensures PutAll(lines', TrunkFrom(row + 1, start, splits, day, trunk, found', foundRow'))
            == PutAll(lines, TrunkFrom(row, start, splits, day, trunk, found, foundRow))
  {
    lines', found', foundRow' := lines, found, foundRow;
    var splitHere := FindSplit(splits, day, 27 - row);
    if splitHere.Some? {
      if !found {
        var head := SplitStrokes(row, start, splitHere.value, trunk);
        PutAllAppend(lines, head, TrunkFrom(row + 1, start, splits, day, trunk, true, row));
        lines' := DrawSplit(lines, row, start, splitHere.value, trunk);
        found', foundRow' := true, row;
      }
    } else if !found || row > foundRow {
      PutAllAppend(lines, [Stroke(row, 35, trunk)], TrunkFrom(row + 1, start, splits, day, trunk, found, foundRow));
      PutAllShort(lines, Stroke(row, 35, trunk), Stroke(row, 35, trunk), Stroke(row, 35, trunk));
      lines' := Put(lines, Stroke(row, 35, trunk));
    }
  }

  /** The trunk loop of `render_plant_structure`: rows from the top of the trunk down to the
      soil, with the flag that lets only the first split met be drawn. */
  method DrawTrunk(lines: Grid, st: PlantStructure, day: nat, trunk: char) returns (lines': Grid)
    requires IsGrid(lines) && st.maxHeight <= 27 && AllSplitsInRange(st.trunkSplits)
    ensures lines' == PutAll(lines, TrunkStrokes(st, day, trunk))
  {
    var start := TrunkStart(st, day);
    var splitFound := false;
    var splitRowFound: nat := 0;
    lines' := lines;
    for row := start to 28
      invariant IsGrid(lines')
      invariant PutAll(lines', TrunkFrom(row, start, st.trunkSplits, day, trunk, splitFound, splitRowFound))
                == PutAll(lines, TrunkStrokes(st, day, trunk))
    {
      lines', splitFound, splitRowFound := DrawTrunkRow(lines', row, start, st.trunkSplits, day, trunk, splitFound, splitRowFound);
    }
  }
}

=== FILE: rng.dfy ===
/** The linear congruential generator used to draw a plant's structure from its seed. */
module Rng {
  import opened Prelude

  /** Every output is below this bound. */
  const OUTPUT_RANGE: int := 32768

  /** Initial state for a seed: `seed.wrapping_add(1)`. */
  function Seeded(seed: U64): (s: U64)
    ensures seed < WORD - 1 ==> s == seed + 1
    ensures seed == WORD - 1 ==> s == 0
  {
    WrappingAdd(seed, 1)
  }

  /** One state transition: `state * 1103515245 + 12345` modulo 2^64. The constants are
      written as literals so that the solver sees linear arithmetic. */
  function Advance(state: U64): (next: U64)
    ensures (state * 1103515245 + 12345 - next) % 0x1_0000_0000_0000_0000 == 0
  {
    (state * 1103515245 + 12345) % 0x1_0000_0000_0000_0000
  }

  /** The value returned for a (new) state: bits 16..30 of the state. */
  function Output(state: U64): (r: nat)
    ensures r < OUTPUT_RANGE
    ensures r * 65536 <= state % 0x8000_0000 < r * 65536 + 65536
  {
    (state / 65536) % 32768
  }

  /** A draw as a value: the output and the state after it. */
  function Draw(state: U64): (d: (nat, U64))
    ensures d.0 < OUTPUT_RANGE
    ensures d.1 == Advance(state) && d.0 == Output(d.1)
  {
    var next := Advance(state);
    (Output(next), next)
  }

  /** The generator object of the source: `next` updates `state` in place. */
  class SimpleRng {
    var state: U64

    constructor (seed: U64)
      ensures state == Seeded(seed)
    {
      state := Seeded(seed);
    }

    method Next() returns (r: nat)
      modifies this
      ensures state == Advance(old(state))
      ensures (r, state) == Draw(old(state))
      ensures r < OUTPUT_RANGE
    {
      state := Advance(state);
      r := (state / 65536) % 32768;
    }
  }
}

=== FILE: structure.dfy ===
/** Procedural plant skeletons: the seed-driven generator, the per-seed cache and the
    day-dependent views (trunk height, visible branches, foliage density, branch length). */
module Structure {
  import opened Prelude
  import opened Rng

  datatype Phenotype = Tall | Bushy | Balanced

  /** `growth_start_day` and `bifurcation_day` are `u32` and `max_length` is `u8` in the
      source; the generator keeps them far below those widths. */
  datatype Branch = Branch(
    level: nat,
    direction: int,
    growthStartDay: nat,
    maxLength: nat,
    thickness: nat,
    isSecondary: bool,
    parentIndex: Option<nat>,
    curve: int,
    canBifurcate: bool,
    bifurcationDay: nat)

  datatype TrunkSplit = TrunkSplit(splitDay: nat, splitLevel: nat, angle: int)

  /** `growthRate` is the trunk growth per day in hundredths of a row. */
  datatype PlantStructure = PlantStructure(
    branches: seq<Branch>,
    seed: U64,
    phenotype: Phenotype,
    branchDensity: real,
    foliageDensity: real,
    trunkSplits: seq<TrunkSplit>,
    maxHeight: nat,
    growthRate: nat)

  /** Day stored for a branch that never bifurcates. */
  const NEVER: nat := 999

  // ---------------------------------------------------------------------------
  // Per-phenotype tables
  // ---------------------------------------------------------------------------

  /** The phenotype of the first draw: Tall, Bushy and Balanced by the draw modulo 3. */
  function PhenotypeOf(r: nat): (p: Phenotype)
    ensures p == Tall <==> r % 3 == 0
    ensures p == Bushy <==> r % 3 == 1
    ensures p == Balanced <==> r % 3 == 2
  {
    if r % 3 == 0 then Tall else if r % 3 == 1 then Bushy else Balanced
  }

  /** `max_height`: a phenotype's base height (20, 12, 16) plus `draw % 5`. */
  function MaxHeightFor(p: Phenotype, r: nat): (h: nat)
    ensures p == Tall ==> 20 <= h <= 24
    ensures p == Bushy ==> 12 <= h <= 16
    ensures p == Balanced ==> 16 <= h <= 20
  {
    match p
    case Tall => 20 + r % 5
    case Bushy => 12 + r % 5
    case Balanced => 16 + r % 5
  }

  /** Branch density of a phenotype: a fraction, full only for Bushy plants. */
  function BranchDensityOf(p: Phenotype): (d: real)
    ensures 0.6 <= d <= 1.0
    ensures d == 1.0 <==> p == Bushy
  {
    match p
    case Tall => 0.6
    case Bushy => 1.0
    case Balanced => 0.8
  }

  /** Foliage density of a phenotype: above the 0.6 needed for foliage marks except for Tall
      plants, which therefore never show foliage. */
  function FoliageDensityOf(p: Phenotype): (d: real)
    ensures 0.4 <= d <= 0.9
    ensures d > 0.6 <==> p != Tall
  {
    match p
    case Tall => 0.4
    case Bushy => 0.9
    case Balanced => 0.7
  }

  /** Trunk growth per day, in hundredths (0.25, 0.22, 0.23). */
  function GrowthRateOf(p: Phenotype): (r: nat)
    ensures 22 <= r <= 25
    ensures r == 25 <==> p == Tall
    ensures r == 22 <==> p == Bushy
  {
    match p
    case Tall => 25
    case Bushy => 22
    case Balanced => 23
  }

  /** Number of primary branches: 15-24 for Tall, 25-39 for Bushy, 20-31 for Balanced. */
  function PrimaryCountFor(p: Phenotype, r: nat): (n: nat)
    ensures p == Tall ==> 15 <= n <= 24
    ensures p == Bushy ==> 25 <= n <= 39
    ensures p == Balanced ==> 20 <= n <= 31
  {
    match p
    case Tall => 15 + r % 10
    case Bushy => 25 + r % 15
    case Balanced => 20 + r % 12
  }

  /** Day on which branches `d` levels below the top start: `4 + floor(d * days_per_level)`
      with 1.2, 0.8 and 1.0 days per level. Lower branches start later. */
  function LevelDay(p: Phenotype, d: nat): (day: nat)
    ensures 4 + d * 8 / 10 <= day <= 4 + d * 12 / 10
  {
    match p
    case Tall => 4 + d * 12 / 10
    case Bushy => 4 + d * 8 / 10
    case Balanced => 4 + d
  }

  /** Number of secondary branches: `floor(primaries * factor)` with factors 0.5, 0.8, 0.6. */
  function SecondaryCountFor(p: Phenotype, primaries: nat): (n: nat)
    ensures primaries / 2 <= n <= primaries * 8 / 10
  {
    match p
    case Tall => primaries * 5 / 10
    case Bushy => primaries * 8 / 10
    case Balanced => primaries * 6 / 10
  }

  /** How many trunk splits a phenotype gets for a draw. */
  function SplitCount(p: Phenotype, r: nat): (n: nat)
    ensures p == Bushy ==> 1 <= n <= 2
    ensures p != Bushy ==> n <= 1
  {
    match p
    case Tall => if r % 3 == 0 then 1 else 0
    case Bushy => if r % 2 == 0 then 1 else 2
    case Balanced => if r % 4 == 0 then 1 else 0
  }

  // ---------------------------------------------------------------------------
  // Field ranges of generated records
  // ---------------------------------------------------------------------------

  /** Ranges every generated branch lies in, for a plant of height `maxHeight`. */
  ghost predicate BranchInRange(b: Branch, maxHeight: nat)
  {
    && 1 <= b.level <= maxHeight - 1
    && (b.direction == -1 || b.direction == 1)
    && -1 <= b.curve <= 1
    && (b.thickness == 1 || b.thickness == 2)
    && 4 <= b.maxLength <= 13
    && b.growthStartDay <= 42
    && (b.canBifurcate ==> b.bifurcationDay <= 59)
    && (b.canBifurcate <==> b.bifurcationDay != NEVER)
  }

  ghost predicate SplitInRange(s: TrunkSplit)
  {
    20 <= s.splitDay <= 49 && 4 <= s.splitLevel <= 7 && -2 <= s.angle <= 2
  }

  /** A primary branch as the generator draws it for phenotype `p`. */
  ghost predicate PrimaryInRange(b: Branch, p: Phenotype, maxHeight: nat)
  {
    && BranchInRange(b, maxHeight)
    && (p != Tall ==> 2 <= b.level)
    && !b.isSecondary && b.parentIndex == None
    && 6 <= b.maxLength <= 13
    && (p == Tall ==> b.thickness == 1)
    && LevelDay(p, maxHeight - b.level) <= b.growthStartDay <= LevelDay(p, maxHeight - b.level) + 2
    && (b.canBifurcate ==> b.growthStartDay + 8 <= b.bifurcationDay <= b.growthStartDay + 15)
  }

  /** A secondary branch grown from one of `primaries`. */
  ghost predicate SecondaryInRange(b: Branch, primaries: seq<Branch>, maxHeight: nat)
  {
    && BranchInRange(b, maxHeight)
    && b.isSecondary && b.parentIndex.Some? && b.parentIndex.value < |primaries|
    && (var parent := primaries[b.parentIndex.value];
        && parent.growthStartDay + 5 <= b.growthStartDay <= parent.growthStartDay + 9
        && (b.direction == parent.direction || b.direction == -parent.direction)
        && parent.level - 1 <= b.level <= parent.level + 1)
    && 4 <= b.maxLength <= 9
    && b.thickness == 1
    && (b.canBifurcate ==> b.growthStartDay + 10 <= b.bifurcationDay <= b.growthStartDay + 17)
  }

  /** The structure invariant the renderer relies on. */
  ghost predicate WellFormed(st: PlantStructure)
  {
    && 12 <= st.maxHeight <= 24
    && st.growthRate <= 100
    && 0.0 <= st.foliageDensity <= 1.0
    && (forall b :: b in st.branches ==> BranchInRange(b, st.maxHeight))
    && |st.trunkSplits| <= 2
    && (forall s :: s in st.trunkSplits ==> SplitInRange(s))
  }

  /** The first `primaryCount` branches are primaries, every later one is a secondary whose
      parent is one of them. */
  ghost predicate Layered(branches: seq<Branch>, primaryCount: nat, maxHeight: nat)
  {
    && primaryCount <= |branches|
    && (forall k :: 0 <= k < primaryCount ==>
          !branches[k].isSecondary && branches[k].parentIndex == None && 6 <= branches[k].maxLength <= 13)
    && (forall k :: primaryCount <= k < |branches| ==>
          SecondaryInRange(branches[k], branches[..primaryCount], maxHeight))
  }

  // ---------------------------------------------------------------------------
  // Reference definition of the generator: the draws threaded through RNG states
  // ---------------------------------------------------------------------------

  /** One primary branch (the body of the first loop of `generate`). */
  function DrawPrimary(s: U64, p: Phenotype, maxHeight: nat): (res: (Branch, U64))
    requires 3 <= maxHeight <= 24
    ensures PrimaryInRange(res.0, p, maxHeight)
  {
    var (level, growthStartDay, s1) := DrawLevel(s, p, maxHeight);
    var (direction, maxLength, s3) := DrawReach(s1, p);
    var (thickness, s4) := DrawThickness(s3, p);
    var (curve, s6) := DrawCurve(s4, 3);
    var (canBifurcate, bifurcationDay, s8) := DrawBifurcation(s6, 3, growthStartDay + 8);
    (Branch(level, direction, growthStartDay, maxLength, thickness, false, None, curve,
            canBifurcate, bifurcationDay), s8)
  }

  /** A primary's level (any below the top for Tall, above the lowest otherwise) and the day
      it starts growing: its level's day plus up to two. */
  function DrawLevel(s: U64, p: Phenotype, maxHeight: nat): (res: (nat, nat, U64))
    requires 3 <= maxHeight <= 24
    ensures (if p == Tall then 1 else 2) <= res.0 <= maxHeight - 1
    ensures LevelDay(p, maxHeight - res.0) <= res.1 <= LevelDay(p, maxHeight - res.0) + 2
  {
    var (r0, s0) := Draw(s);
    var level := if p == Tall then 1 + Pick(r0, maxHeight - 1) else 2 + Pick(r0, Max(maxHeight - 2, 1));
    var (r1, s1) := Draw(s0);
    (level, LevelDay(p, maxHeight - level) + r1 % 3, s1)
  }

  /** A primary's side (-1 left, 1 right) and its full length: 8-13 for Bushy, 6-13 otherwise. */
  function DrawReach(s: U64, p: Phenotype): (res: (int, nat, U64))
    ensures res.0 == -1 || res.0 == 1
    ensures (if p == Bushy then 8 else 6) <= res.1 <= 13
  {
    var (r0, s0) := Draw(s);
    var (r1, s1) := Draw(s0);
    (if r0 % 2 == 0 then -1 else 1, if p == Bushy then 8 + r1 % 6 else 6 + r1 % 8, s1)
  }

  /** `draw % n` for a draw and a positive bound. */
  function Pick(r: nat, n: nat): (k: nat)
    requires n > 0
    ensures k < n
  {
    r % n
  }

  /** A primary's thickness: 1 for Tall without a draw; 2 on one draw in two (Bushy) or in
      three (Balanced). */
  function DrawThickness(s: U64, p: Phenotype): (res: (nat, U64))
    ensures res.0 == 1 || res.0 == 2
    ensures p == Tall ==> res == (1, s)
  {
    match p
    case Tall => (1, s)
    case Bushy => var (r, t) := Draw(s); (if r % 2 == 0 then 2 else 1, t)
    case Balanced => var (r, t) := Draw(s); (if r % 3 == 0 then 2 else 1, t)
  }

  /** A curve: with probability one in `odds` a second draw picks -1 or 1, otherwise 0. */
  function DrawCurve(s: U64, odds: nat): (res: (int, U64))
    requires odds > 0
    ensures -1 <= res.0 <= 1
  {
    var (r, t) := Draw(s);
    if r % odds == 0 then var (r', t') := Draw(t); (if r' % 2 == 0 then -1 else 1, t') else (0, t)
  }

  /** Whether a branch bifurcates (one draw in `odds`) and on which day: `earliest` plus a
      draw modulo 8, or the sentinel day when it never does. */
  function DrawBifurcation(s: U64, odds: nat, earliest: nat): (res: (bool, nat, U64))
    requires odds > 0
    ensures res.0 ==> earliest <= res.1 <= earliest + 7
    ensures !res.0 ==> res.1 == NEVER
  {
    var (r, t) := Draw(s);
    if r % odds == 0 then var (r', t') := Draw(t); (true, earliest + r' % 8, t') else (false, NEVER, t)
  }

  /** The first `n` primary branches, in generation order. */
  function DrawPrimaries(s: U64, n: nat, p: Phenotype, maxHeight: nat): (res: (seq<Branch>, U64))
    requires 3 <= maxHeight <= 24
    ensures |res.0| == n
    ensures forall k :: 0 <= k < n ==> PrimaryInRange(res.0[k], p, maxHeight)
    decreases n
  {
    if n == 0 then ([], s)
    else
      var (bs, s1) := DrawPrimaries(s, n - 1, p, maxHeight);
      var (b, s2) := DrawPrimary(s1, p, maxHeight);
      (bs + [b], s2)
  }

  /** What a secondary needs of the primaries it may grow from. */
  ghost predicate ParentsOk(primaries: seq<Branch>, maxHeight: nat)
  {
    forall k :: 0 <= k < |primaries| ==>
      && 1 <= primaries[k].level <= maxHeight - 1
      && (primaries[k].direction == -1 || primaries[k].direction == 1)
      && primaries[k].growthStartDay <= 33
  }

  /** How a secondary departs from its parent: a start 5-9 days after the parent's, a row
      within one of the parent's, the parent's side on one draw in three and the other side
      otherwise, and a length of 4-9. */
  function DrawOffshoot(s: U64, parent: Branch, maxHeight: nat): (res: (nat, nat, int, nat, U64))
    requires maxHeight >= 2 && 1 <= parent.level <= maxHeight - 1
    ensures parent.growthStartDay + 5 <= res.0 <= parent.growthStartDay + 9
    ensures parent.level - 1 <= res.1 <= parent.level + 1 && 1 <= res.1 <= maxHeight - 1
    ensures res.2 == parent.direction || res.2 == -parent.direction
    ensures 4 <= res.3 <= 9
  {
    var (r1, s1) := Draw(s);
    var growthStartDay := parent.growthStartDay + 5 + r1 % 5;
    var (r2, s2) := Draw(s1);
    var level := Clamp(parent.level + (r2 % 3) as int - 1, 1, maxHeight - 1);
    var (r3, s3) := Draw(s2);
    var direction := if r3 % 3 == 0 then parent.direction else -parent.direction;
    var (r4, s4) := Draw(s3);
    (growthStartDay, level, direction, 4 + r4 % 6, s4)
  }

  /** One secondary branch grown from a randomly chosen primary. */
  function DrawSecondary(s: U64, primaries: seq<Branch>, maxHeight: nat): (res: (Branch, U64))
    requires |primaries| > 0 && maxHeight >= 2
    requires ParentsOk(primaries, maxHeight)
    ensures SecondaryInRange(res.0, primaries, maxHeight)
  {
    var (r0, s0) := Draw(s);
    var parentIndex := Pick(r0, |primaries|);
    var parent := primaries[parentIndex];
    var (growthStartDay, level, direction, maxLength, s4) := DrawOffshoot(s0, parent, maxHeight);
    var (curve, s6) := DrawCurve(s4, 2);
    var (canBifurcate, bifurcationDay, s8) := DrawBifurcation(s6, 5, growthStartDay + 10);
    (Branch(level, direction, growthStartDay, maxLength, 1, true, Some(parentIndex), curve,
            canBifurcate, bifurcationDay), s8)
  }

  /** The first `n` secondary branches. */
  function DrawSecondaries(s: U64, n: nat, primaries: seq<Branch>, maxHeight: nat): (res: (seq<Branch>, U64))
    requires |primaries| > 0 && maxHeight >= 2
    requires ParentsOk(primaries, maxHeight)
    ensures |res.0| == n
    ensures forall k :: 0 <= k < n ==> SecondaryInRange(res.0[k], primaries, maxHeight)
    decreases n
  {
    if n == 0 then ([], s)
    else
      var (bs, s1) := DrawSecondaries(s, n - 1, primaries, maxHeight);
      var (b, s2) := DrawSecondary(s1, primaries, maxHeight);
      (bs + [b], s2)
  }

  function DrawSplit(s: U64): (res: (TrunkSplit, U64))
    ensures SplitInRange(res.0)
  {
    var (r0, s0) := Draw(s);
    var (r1, s1) := Draw(s0);
    var (r2, s2) := Draw(s1);
    (TrunkSplit(20 + r0 % 30, 4 + r1 % 4, (r2 % 5) as int - 2), s2)
  }

  function DrawSplits(s: U64, n: nat): (res: (seq<TrunkSplit>, U64))
    ensures |res.0| == n
    ensures forall k :: 0 <= k < n ==> SplitInRange(res.0[k])
    decreases n
  {
    if n == 0 then ([], s)
    else
      var (ss, s1) := DrawSplits(s, n - 1);
      var (sp, s2) := DrawSplit(s1);
      (ss + [sp], s2)
  }

  /** The three leading draws of a seed: phenotype, height and number of primaries, and the
      state after them. */
  function Header(seed: U64): (h: (Phenotype, nat, nat, U64))
    ensures 12 <= h.1 <= 24
    ensures h.2 > 0
  {
    var (r0, s0) := Draw(Seeded(seed));
    var p := PhenotypeOf(r0);
    var (r1, s1) := Draw(s0);
    var (r2, s2) := Draw(s1);
    (p, MaxHeightFor(p, r1), PrimaryCountFor(p, r2), s2)
  }

  /** The primaries of every generated plant can parent secondaries. */
  lemma PrimariesParentsOk(bs: seq<Branch>, p: Phenotype, maxHeight: nat)
    requires 3 <= maxHeight <= 24
    requires forall k :: 0 <= k < |bs| ==> PrimaryInRange(bs[k], p, maxHeight)
    ensures ParentsOk(bs, maxHeight)
  {
    forall k | 0 <= k < |bs|
      ensures bs[k].growthStartDay <= 33
    {
      var d := maxHeight - bs[k].level;
      assert d <= 23;
      assert LevelDay(p, d) <= 4 + d * 12 / 10 <= 31;
    }
  }

  /** Primaries followed by secondaries grown from them form a layered, in-range list. */
  lemma JoinBranches(primaries: seq<Branch>, secondaries: seq<Branch>, p: Phenotype, maxHeight: nat)
    requires 3 <= maxHeight <= 24
    requires forall k :: 0 <= k < |primaries| ==> PrimaryInRange(primaries[k], p, maxHeight)
    requires forall k :: 0 <= k < |secondaries| ==> SecondaryInRange(secondaries[k], primaries, maxHeight)
    ensures forall b :: b in primaries + secondaries ==> BranchInRange(b, maxHeight)
    ensures Layered(primaries + secondaries, |primaries|, maxHeight)
  {
    var all := primaries + secondaries;
    assert all[..|primaries|] == primaries;
    forall b | b in all
      ensures BranchInRange(b, maxHeight)
    {
      var k :| 0 <= k < |all| && all[k] == b;
      if k >= |primaries| {
        assert b == secondaries[k - |primaries|];
      }
    }
    forall k | |primaries| <= k < |all|
      ensures SecondaryInRange(all[k], all[..|primaries|], maxHeight)
    {
      assert all[k] == secondaries[k - |primaries|];
    }
  }

  lemma SplitsInRange(splits: seq<TrunkSplit>)
    requires forall k :: 0 <= k < |splits| ==> SplitInRange(splits[k])
    ensures forall sp :: sp in splits ==> SplitInRange(sp)
  {
    forall sp | sp in splits
      ensures SplitInRange(sp)
    {
      var k :| 0 <= k < |splits| && splits[k] == sp;
    }
  }

  /** Reference definition of `PlantStructure::generate(seed)`: the header, the primaries,
      the secondaries and the trunk splits drawn one after the other from the seed's
      generator. */
  function StructureOf(seed: U64): (st: PlantStructure)
    ensures st.seed == seed
    ensures st.phenotype == Header(seed).0 && st.maxHeight == Header(seed).1
  {
    var (p, maxHeight, primaryCount, s2) := Header(seed);
    var (primaries, s3) := DrawPrimaries(s2, primaryCount, p, maxHeight);
    PrimariesParentsOk(primaries, p, maxHeight);
    var (secondaries, s4) := DrawSecondaries(s3, SecondaryCountFor(p, primaryCount), primaries, maxHeight);
    var (r5, s5) := Draw(s4);
    var (splits, _) := DrawSplits(s5, SplitCount(p, r5));
    PlantStructure(primaries + secondaries, seed, p, BranchDensityOf(p), FoliageDensityOf(p),
                   splits, maxHeight, GrowthRateOf(p))
  }

  /** Every generated structure is well formed; its first `n` branches are the primaries
      (15-39 of them) and the rest their phenotype's share of secondaries, each grown from
      one of the primaries. */
  lemma GeneratedWellFormed(seed: U64)
    ensures WellFormed(StructureOf(seed))
    ensures var st := StructureOf(seed);
      var n := Header(seed).2;
      && 15 <= n <= 39
      && |st.branches| == n + SecondaryCountFor(st.phenotype, n)
      && Layered(st.branches, n, st.maxHeight)
  {
    var (p, maxHeight, primaryCount, s2) := Header(seed);
    var (primaries, s3) := DrawPrimaries(s2, primaryCount, p, maxHeight);
    PrimariesParentsOk(primaries, p, maxHeight);
    var (secondaries, s4) := DrawSecondaries(s3, SecondaryCountFor(p, primaryCount), primaries, maxHeight);
    JoinBranches(primaries, secondaries, p, maxHeight);
    var (r5, s5) := Draw(s4);
    var (splits, _) := DrawSplits(s5, SplitCount(p, r5));
    SplitsInRange(splits);
  }

  // ---------------------------------------------------------------------------
  // The generator as the source runs it: draws from a mutable SimpleRng, pushes in loops
  // ---------------------------------------------------------------------------

  method NextCurve(rng: SimpleRng, odds: nat) returns (curve: int)
    requires odds > 0
    modifies rng
    ensures (curve, rng.state) == DrawCurve(old(rng.state), odds)
  {
    var r := rng.Next();
    curve := 0;
    if r % odds == 0 {
      r := rng.Next();
      curve := if r % 2 == 0 then -1 else 1;
    }
  }

  method NextBifurcation(rng: SimpleRng, odds: nat, earliest: nat) returns (canBifurcate: bool, day: nat)
    requires odds > 0
    modifies rng
    ensures (canBifurcate, day, rng.state) == DrawBifurcation(old(rng.state), odds, earliest)
  {
    var r := rng.Next();
    canBifurcate := r % odds == 0;
    day := NEVER;
    if canBifurcate {
      r := rng.Next();
      day := earliest + r % 8;
    }
  }

  method NextLevel(rng: SimpleRng, p: Phenotype, maxHeight: nat) returns (level: nat, growthStartDay: nat)
    requires 3 <= maxHeight <= 24
    modifies rng
    ensures (level, growthStartDay, rng.state) == DrawLevel(old(rng.state), p, maxHeight)
  {
    var r := rng.Next();
    level := if p == Tall then 1 + Pick(r, maxHeight - 1) else 2 + Pick(r, Max(maxHeight - 2, 1));
    r := rng.Next();
    growthStartDay := LevelDay(p, maxHeight - level) + r % 3;
  }

  method NextReach(rng: SimpleRng, p: Phenotype) returns (direction: int, maxLength: nat)
    modifies rng
    ensures (direction, maxLength, rng.state) == DrawReach(old(rng.state), p)
  {
    var r := rng.Next();
    direction := if r % 2 == 0 then -1 else 1;
    r := rng.Next();
    maxLength := if p == Bushy then 8 + r % 6 else 6 + r % 8;
  }

  method NextThickness(rng: SimpleRng, p: Phenotype) returns (thickness: nat)
    modifies rng
    ensures (thickness, rng.state) == DrawThickness(old(rng.state), p)
  {
    thickness := 1;
    match p {
      case Tall =>
      case Bushy =>
        var r := rng.Next();
        thickness := if r % 2 == 0 then 2 else 1;
      case Balanced =>
        var r := rng.Next();
        thickness := if r % 3 == 0 then 2 else 1;
    }
  }

  method NextPrimary(rng: SimpleRng, p: Phenotype, maxHeight: nat) returns (b: Branch)
    requires 3 <= maxHeight <= 24
    modifies rng
    ensures (b, rng.state) == DrawPrimary(old(rng.state), p, maxHeight)
  {
    var level, growthStartDay := NextLevel(rng, p, maxHeight);
    var direction, maxLength := NextReach(rng, p);
    var thickness := NextThickness(rng, p);
    var curve := NextCurve(rng, 3);
    var canBifurcate, bifurcationDay := NextBifurcation(rng, 3, growthStartDay + 8);
    b := Branch(level, direction, growthStartDay, maxLength, thickness, false, None, curve,
                canBifurcate, bifurcationDay);
  }

  /** The four draws that place a secondary relative to its parent. */
  method NextOffshoot(rng: SimpleRng, parent: Branch, maxHeight: nat)
    returns (growthStartDay: nat, level: nat, direction: int, maxLength: nat)
    requires maxHeight >= 2 && 1 <= parent.level <= maxHeight - 1
    modifies rng
    ensures (growthStartDay, level, direction, maxLength, rng.state) == DrawOffshoot(old(rng.state), parent, maxHeight)
  {
    var r := rng.Next();
    growthStartDay := parent.growthStartDay + 5 + r % 5;
    r := rng.Next();
    var levelOffset := (r % 3) as int - 1;
    level := Clamp(parent.level + levelOffset, 1, maxHeight - 1);
    r := rng.Next();
    direction := if r % 3 == 0 then parent.direction else -parent.direction;
    r := rng.Next();
    maxLength := 4 + r % 6;
  }

  /** `branches[parent_idx]` is read from the growing list; its first `primaryCount`
      entries are the primaries. */
  method NextSecondary(rng: SimpleRng, branches: seq<Branch>, primaryCount: nat, maxHeight: nat)
    returns (b: Branch)
    requires 0 < primaryCount <= |branches| && maxHeight >= 2
    requires ParentsOk(branches[..primaryCount], maxHeight)
    modifies rng
    ensures (b, rng.state) == DrawSecondary(old(rng.state), branches[..primaryCount], maxHeight)
  {
    ghost var primaries := branches[..primaryCount];
    var r := rng.Next();
    var parentIndex := Pick(r, primaryCount);
    var parent := branches[parentIndex];
    assert parent == primaries[parentIndex];
    var growthStartDay, level, direction, maxLength := NextOffshoot(rng, parent, maxHeight);
    var curve := NextCurve(rng, 2);
    var canBifurcate, bifurcationDay := NextBifurcation(rng, 5, growthStartDay + 10);
    b := Branch(level, direction, growthStartDay, maxLength, 1, true, Some(parentIndex), curve,
                canBifurcate, bifurcationDay);
  }

  method NextSplit(rng: SimpleRng) returns (sp: TrunkSplit)
    modifies rng
    ensures (sp, rng.state) == DrawSplit(old(rng.state))
  {
    var splitDay := rng.Next();
    var splitLevel := rng.Next();
    var angle := rng.Next();
    sp := TrunkSplit(20 + splitDay % 30, 4 + splitLevel % 4, (angle % 5) as int - 2);
  }

  /** The primary-branch loop of `generate`. */
  method PushPrimaries(rng: SimpleRng, n: nat, p: Phenotype, maxHeight: nat) returns (branches: seq<Branch>)
    requires 3 <= maxHeight <= 24
    modifies rng
    ensures (branches, rng.state) == DrawPrimaries(old(rng.state), n, p, maxHeight)
  {
    branches := [];
    for i := 0 to n
      invariant (branches, rng.state) == DrawPrimaries(old(rng.state), i, p, maxHeight)
    {
      var b := NextPrimary(rng, p, maxHeight);
      branches := branches + [b];
    }
  }

  /** The secondary-branch loop of `generate`, pushing onto the list of primaries. */
  method PushSecondaries(rng: SimpleRng, primaries: seq<Branch>, n: nat, maxHeight: nat) returns (branches: seq<Branch>)
    requires 0 < |primaries| && maxHeight >= 2 && ParentsOk(primaries, maxHeight)
    modifies rng
    ensures branches == primaries + DrawSecondaries(old(rng.state), n, primaries, maxHeight).0
    ensures rng.state == DrawSecondaries(old(rng.state), n, primaries, maxHeight).1
  {
    branches := primaries;
    for j := 0 to n
      invariant branches == primaries + DrawSecondaries(old(rng.state), j, primaries, maxHeight).0
      invariant rng.state == DrawSecondaries(old(rng.state), j, primaries, maxHeight).1
    {
      assert branches[..|primaries|] == primaries;
      var b := NextSecondary(rng, branches, |primaries|, maxHeight);
      branches := branches + [b];
    }
  }

  /** The trunk-split loop of `generate`. */
  method PushSplits(rng: SimpleRng, n: nat) returns (trunkSplits: seq<TrunkSplit>)
    modifies rng
    ensures (trunkSplits, rng.state) == DrawSplits(old(rng.state), n)
  {
    trunkSplits := [];
    for k := 0 to n
      invariant (trunkSplits, rng.state) == DrawSplits(old(rng.state), k)
    {
      var sp := NextSplit(rng);
      trunkSplits := trunkSplits + [sp];
    }
  }

  /** `PlantStructure::generate`: the result is the reference structure of the seed, so
      equal seeds give equal structures with the same branch order. */
  method Generate(seed: U64) returns (st: PlantStructure)
    ensures st == StructureOf(seed)
  {
    var rng := new SimpleRng(seed);
    var r := rng.Next();
    var phenotype := PhenotypeOf(r);
    r := rng.Next();
    var maxHeight := MaxHeightFor(phenotype, r);
    r := rng.Next();
    var numPrimary := PrimaryCountFor(phenotype, r);
    assert (phenotype, maxHeight, numPrimary, rng.state) == Header(seed);

    var primaries := PushPrimaries(rng, numPrimary, phenotype, maxHeight);
    PrimariesParentsOk(primaries, phenotype, maxHeight);
    var numSecondary := SecondaryCountFor(phenotype, numPrimary);
    var branches := PushSecondaries(rng, primaries, numSecondary, maxHeight);

    r := rng.Next();
    var numSplits := SplitCount(phenotype, r);
    var trunkSplits := PushSplits(rng, numSplits);

    st := PlantStructure(branches, seed, phenotype, BranchDensityOf(phenotype),
                         FoliageDensityOf(phenotype), trunkSplits, maxHeight, GrowthRateOf(phenotype));
  }

  // ---------------------------------------------------------------------------
  // Properties of generated structures
  // ---------------------------------------------------------------------------

  /** `max_height` is 20-24 for Tall, 12-16 for Bushy and 16-20 for Balanced; the trunk grows
      0.25, 0.22 or 0.23 rows a day; at most one trunk split unless Bushy, which gets one or
      two. */
  lemma GeneratedShape(seed: U64)
    ensures var st := StructureOf(seed);
      && (st.phenotype == Tall ==> 20 <= st.maxHeight <= 24 && st.growthRate == 25 && |st.trunkSplits| <= 1)
      && (st.phenotype == Bushy ==> 12 <= st.maxHeight <= 16 && st.growthRate == 22 && 1 <= |st.trunkSplits| <= 2)
      && (st.phenotype == Balanced ==> 16 <= st.maxHeight <= 20 && st.growthRate == 23 && |st.trunkSplits| <= 1)
  {
  }

  // ---------------------------------------------------------------------------
  // The seed -> structure cache
  // ---------------------------------------------------------------------------

  /** The process-wide memo table, as an explicit object. */
  class StructureCache {
    var entries: map<U64, PlantStructure>

    ghost predicate Valid()
      reads this
    {
      forall seed :: seed in entries ==> entries[seed] == StructureOf(seed)
    }

    constructor ()
      ensures Valid() && entries == map[]
    {
      entries := map[];
    }

    /** `get_or_generate`: returns the seed's structure and leaves it cached; an entry
        already present is returned as it is and never replaced. */
    method GetOrGenerate(seed: U64) returns (st: PlantStructure)
      requires Valid()
      modifies this
      ensures Valid()
      ensures st == StructureOf(seed)
      ensures seed in entries && entries[seed] == st
      ensures seed in old(entries) ==> entries == old(entries)
      ensures seed !in old(entries) ==> entries == old(entries)[seed := st]
    {
      if seed in entries {
        return entries[seed];
      }
      st := Generate(seed);
      entries := entries[seed := st];
      forall s | s in entries
        ensures entries[s] == StructureOf(s)
      {
        if s != seed {
          assert s in old(entries);
        }
      }
    }
  }

  // ---------------------------------------------------------------------------
  // Day-dependent views
  // ---------------------------------------------------------------------------

  /** `trunk_height`: `min(floor(day * growth_rate), max_height)`. */
  function TrunkHeight(st: PlantStructure, day: nat): (h: nat)
    ensures h <= st.maxHeight
    ensures h == st.maxHeight || h * 100 <= day * st.growthRate < (h + 1) * 100
  {
    Min(day * st.growthRate / 100, st.maxHeight)
  }

  /** The trunk is never taller than the day's growth allows; with the ensures of
      `TrunkHeight` this pins it to `min(floor(day * growth rate), max height)`. */
  lemma TrunkHeightWithinGrowth(st: PlantStructure, day: nat)
    ensures TrunkHeight(st, day) * 100 <= day * st.growthRate
    ensures TrunkHeight(st, day) < st.maxHeight ==> day * st.growthRate < (TrunkHeight(st, day) + 1) * 100
  {
  }

  /** The trunk never shrinks as days pass. */
  lemma TrunkHeightMonotone(st: PlantStructure, d1: nat, d2: nat)
    requires d1 <= d2
    ensures TrunkHeight(st, d1) <= TrunkHeight(st, d2)
  {
    assert d1 * st.growthRate <= d2 * st.growthRate by {
      MulMonotoneNat(d1, d2, st.growthRate);
    }
  }

  lemma MulMonotoneNat(a: nat, b: nat, c: nat)
    requires a <= b
    ensures a * c <= b * c
  {
  }

  /** `visible_branches`: the branches, in order, that started growing by `day`. */
  function VisibleBranches(branches: seq<Branch>, day: nat): (r: seq<Branch>)
    ensures |r| <= |branches|
    ensures forall b :: b in r <==> b in branches && b.growthStartDay <= day
    decreases |branches|
  {
    if branches == [] then []
    else
      var rest := VisibleBranches(branches[1..], day);
      assert forall b :: b in branches <==> b == branches[0] || b in branches[1..];
      if branches[0].growthStartDay <= day then [branches[0]] + rest else rest
  }

  /** A single branch is kept exactly when its day has come. */
  lemma VisibleBranchesSingle(b: Branch, day: nat)
    ensures VisibleBranches([b], day) == if b.growthStartDay <= day then [b] else []
  {
    assert [b][1..] == [];
  }

  /** Filtering keeps order: the visible branches of a concatenation are those of its first
      part followed by those of its second. With `VisibleBranchesSingle` this fixes the
      result as the in-order subsequence of the started branches. */
  lemma {:induction false} VisibleBranchesAppend(a: seq<Branch>, b: seq<Branch>, day: nat)
    ensures VisibleBranches(a + b, day) == VisibleBranches(a, day) + VisibleBranches(b, day)
    decreases |a|
  {
    if a == [] {
      assert a + b == b;
    } else {
      assert (a + b)[0] == a[0];
      assert (a + b)[1..] == a[1..] + b;
      VisibleBranchesAppend(a[1..], b, day);
    }
  }

  /** A branch visible at `d1` is visible at every later day, and the list only grows. */
  lemma {:induction false} VisibleBranchesGrow(branches: seq<Branch>, d1: nat, d2: nat)
    requires d1 <= d2
    ensures |VisibleBranches(branches, d1)| <= |VisibleBranches(branches, d2)|
    ensures forall b :: b in VisibleBranches(branches, d1) ==> b in VisibleBranches(branches, d2)
    decreases |branches|
  {
    if branches != [] {
      VisibleBranchesGrow(branches[1..], d1, d2);
    }
  }

  /** `current_foliage_density`: the base density scaled by `min(day / 90, 1)`. */
  function CurrentFoliageDensity(st: PlantStructure, day: nat): (r: real)
    ensures 0.0 <= st.foliageDensity ==> 0.0 <= r <= st.foliageDensity
    ensures day >= 90 ==> r == st.foliageDensity
    ensures day <= 90 ==> r * 90.0 == st.foliageDensity * day as real
  {
    st.foliageDensity * MinReal(day as real / 90.0, 1.0)
  }

  /** Foliage only thickens as days pass. */
  lemma FoliageDensityMonotone(st: PlantStructure, d1: nat, d2: nat)
    requires d1 <= d2 && 0.0 <= st.foliageDensity
    ensures CurrentFoliageDensity(st, d1) <= CurrentFoliageDensity(st, d2)
  {
    var p1 := MinReal(d1 as real / 90.0, 1.0);
    var p2 := MinReal(d2 as real / 90.0, 1.0);
    assert d1 as real / 90.0 <= d2 as real / 90.0;
    assert p1 <= p2;
    assert st.foliageDensity * p2 - st.foliageDensity * p1 == st.foliageDensity * (p2 - p1) >= 0.0;
  }

  /** The exponential, as an abstract positive function. */
  ghost predicate Positive(exp: real -> real)
  {
    forall x :: exp(x) > 0.0
  }

  /** `branch_length`: `max_length * sigmoid(8 * (progress - 0.5))` once the branch started,
      with `progress = min((day - start) / (3 * max_length), 1)`. */
  function BranchLength(b: Branch, day: nat, exp: real -> real): (len: real)
    requires b.maxLength > 0 && Positive(exp)
    ensures day < b.growthStartDay ==> len == 0.0
    ensures 0.0 <= len <= b.maxLength as real
    ensures b.growthStartDay <= day ==> 0.0 < len < b.maxLength as real
  {
    if day < b.growthStartDay then 0.0
    else
      var daysGrowing := (day - b.growthStartDay) as real;
      var totalDays := b.maxLength as real * 3.0;
      var progress := MinReal(daysGrowing / totalDays, 1.0);
      var e := exp(-8.0 * (progress - 0.5));
      var sigmoid := 1.0 / (1.0 + e);
      assert 0.0 < sigmoid < 1.0 by {
        assert sigmoid * (1.0 + e) == 1.0;
      }
      b.maxLength as real * sigmoid
  }
}

=== FILE: visual_mode.dfy ===
/** The four visual themes and their cycle. */
module VisualModes {

  datatype VisualMode = Normal | Zen | Rainbow | Matrix

  /** The theme selected after `m`: Normal, Zen, Rainbow, Matrix, then Normal again. */
  function Next(m: VisualMode): (n: VisualMode)
    ensures n != m
    ensures m == Matrix <==> n == Normal
  {
    match m
    case Normal => Zen
    case Zen => Rainbow
    case Rainbow => Matrix
    case Matrix => Normal
  }

  /** Four steps return to the starting theme, and no fewer do. */
  lemma NextCycle(m: VisualMode)
    ensures Next(Next(Next(Next(m)))) == m
    ensures Next(Next(m)) != m && Next(Next(Next(m))) != m
  {
  }

  /** Display name of a theme. */
  function Name(m: VisualMode): (s: string)
    ensures |s| > 0
  {
    match m
    case Normal => "Normal"
    case Zen => "Zen Garden"
    case Rainbow => "Rainbow"
    case Matrix => "Matrix"
  }

  /** Distinct themes show distinct names. */
  lemma NameInjective(a: VisualMode, b: VisualMode)
    requires Name(a) == Name(b)
    ensures a == b
  {
  }

  /** The theme a fresh application starts in. */
  function Default(): (m: VisualMode)
    ensures Next(Matrix) == m
  {
    Normal
  }
}
